=== FILE: README.md ===
# VerbVault core, modelled in Dafny

VerbVault is a catalogue of themed "spinner verbs": the words Claude's
terminal spinner shows while it works ("Plunderin'", "Orbiting", ...). This
project models the parts of VerbVault that hold its logic:

- **The CLI settings engine** (`verbvault install | remove | list`). These
  commands read `~/.claude/settings.json` (or `$CLAUDE_SETTINGS_PATH`),
  change it, and write it back:
  - `install` fetches a theme, either from the registry API or from the mock
    catalogue used in development. It refuses to overwrite verbs already
    configured unless `--force` is given. It then writes the theme's verbs
    into `spinnerVerbs` and records the install under
    `_verbvault.installedThemes`.
  - `remove` deletes an install record and clears `spinner.verbs`.
  - `list` shows the install records, or a sample of custom verbs, or an
    empty state.
  - The settings file's own rules are modelled too: how its path is chosen,
    that a missing file reads as `{}`, that a write creates the parent
    directory, and the timestamped backup.
- **The shared request schemas** (zod). These cover usernames, verbs, verb
  lists, slugs, tags, and the create-theme, generate, suggest, refine and
  search requests. Each schema is a parser returning either the value or
  the list of issues. Each one is proved equivalent to a declarative
  validity predicate. String lengths are counted as JavaScript counts them,
  in UTF-16 code units, so an emoji counts twice.
- **Web helpers**: `generateSlug`, `truncate`, `getInitials` and
  `formatRelativeTime`.
- **Three web components**: the verb editor (add/remove), the AI generate
  dialog (generate, toggle, select all, apply, reset, try again), and the
  spinner preview (verb rotation and the dot animation).
- **The AI endpoints**: the Next.js routes `/api/ai/generate` and
  `/api/ai/suggest`, and the Supabase edge functions `generate-theme`,
  `suggest-verbs` and `refine-verb`. For each one the model covers the
  request gating (401/400/500), the canned answers chosen by keyword when no
  OpenAI key is configured, and the slicing of the live model's answer.

JavaScript's semantics are modelled explicitly wherever the code depends on
them:

- The settings document is a JSON value (`Js.Json`).
- The model reproduces truthiness, `?.`, `||`, `.length` and `slice` with
  negative ends. A string's `length` is its number of UTF-16 code units
  (`Js.Utf16Length`).
- A TypeError the CLI would throw (calling `filter` on a non-array, reading
  `.slug` of `null`, assigning a property on a primitive) becomes a failed
  outcome: exit code 1, with nothing written.
- The disk is an abstract `FileSystem`. It holds files, directories, and
  the faults the operating system would raise for each path.
- The clock, the network and the OpenAI/Supabase services are parameters.

Some behaviour of the code looks unintended; it is kept as the code has
it:

- `install` writes `spinnerVerbs` and `_verbvault`.
- `remove` and `list` read `spinner.verbs`.
- So removing a theme never clears the verbs `install` wrote (see
  `Lifecycle.InstallThenRemoveKeepsVerbs`).
- The web route and the edge function choose canned themes with different
  keyword lists (`EdgeGenerate.TreasureDisagreement`).

## Model

| member | source | states |
|---|---|---|
| SettingsStore.SettingsPath | apps/cli/src/utils/settings.ts:6-16 | a non-empty `CLAUDE_SETTINGS_PATH` is used verbatim; an unset or empty one gives `<home>/.claude/settings.json` |
| SettingsStore.DefaultSettingsDirectory | apps/cli/src/utils/settings.ts:6-16 | with no override, the settings file is `<home>/.claude/settings.json`, and its directory is `<home>/.claude` |
| SettingsStore.WriteFile | apps/cli/src/utils/settings.ts:49 | a write succeeds exactly when the path is not faulty, does not end in a separator, is not a directory, and its parent is an existing directory (not a file); on success only that path's content changes |
| SettingsStore.MakeDirs | apps/cli/src/utils/settings.ts:42-44 | a recursive mkdir fails exactly on a faulting path or when the directory or one of its parents is a regular file (EEXIST, ENOTDIR); otherwise it adds the directory and its parents, keeps every file, and never makes a path both a file and a directory |
| SettingsStore.ReadSettings | apps/cli/src/utils/settings.ts:18-35 | a missing file, or a read that raises ENOENT, reads as `{}`; any other read error fails with the prefixed OS message; a parsed file yields its document; the read succeeds exactly in those three cases; every failure carries the "Failed to read settings file: " prefix |
| SettingsStore.WriteSettings | apps/cli/src/utils/settings.ts:37-54 | the outcome comes with the disk afterwards; a success stores the document at the settings path and leaves the parent directory existing; a failure keeps every file; a directory the mkdir created stays even when the write then fails; a mkdir error is raised unwrapped with the disk unchanged; write errors carry the "Failed to write settings file: " prefix |
| SettingsStore.ReadAfterWrite | apps/cli/src/utils/settings.ts:18-54 | reading the settings after a successful write returns exactly the document written |
| SettingsStore.WriteCreatesDirectory | apps/cli/src/utils/settings.ts:41-48 | writing into a missing directory that the recursive mkdir can create (no fault, no regular file on its path) succeeds and creates it |
| SettingsStore.FileOnTheWayBlocksWrite | apps/cli/src/utils/settings.ts:41-44 | a regular file on the path to a missing settings directory makes the write fail before writing, with the disk unchanged |
| SettingsStore.FailedWriteKeepsDirectory | apps/cli/src/utils/settings.ts:41-53 | when mkdir succeeds and the write then fails, the new directory stays on disk |
| SettingsStore.DirNameIgnoresTrailingSlash | apps/cli/src/utils/settings.ts:39 | `dirname` looks past trailing separators: the parent of `/t/x/` is `/t`, of `/` is `/`, and of `a/` is `.` |
| SettingsStore.TrailingSlashWriteFails | apps/cli/src/utils/settings.ts:37-53 | a settings path ending in a separator is never written, and no file changes |
| SettingsStore.BackupSettings | apps/cli/src/utils/settings.ts:56-73 | no settings file or any I/O failure gives null and changes nothing; the backup succeeds exactly when the file reads and `<path>.backup.<timestamp>` is writable, and then copies the file there |
| SettingsStore.BackupKeepsOriginal | apps/cli/src/utils/settings.ts:56-73 | a backup never changes the settings file itself |
| SettingsDoc.SampleOf | apps/cli/src/commands/install.ts:65-79 | at most the first five items are shown; a "more" count appears exactly when there are over five, and the shown items plus that count make up the whole list |
| SettingsDoc.UniqueSlugsCount | apps/cli/src/commands/install.ts:51-60 | in a record list with unique slugs, any slug occurs at most once |
| Catalog.FetchTheme | apps/cli/src/utils/api.ts:3-23 | 404 gives not-found; another error status, or a rejected request, falls back to the mock catalogue in development or when the message mentions "fetch", and otherwise fails; outside development a failure is never hidden |
| Catalog.ErrorStatusPropagates | apps/cli/src/utils/api.ts:11-21 | outside development, an API error status surfaces as "API error: <status>" rather than a mock theme |
| Catalog.ApiErrorLacksFetch | apps/cli/src/utils/api.ts:11-19 | the API-error message never contains "fetch", so only the development flag can route it to the mock |
| Catalog.NotFoundHasNoFallback | apps/cli/src/utils/api.ts:7-9 | a 404 is final even in development and even for a slug the mock catalogue has |
| Catalog.DevelopmentAlwaysRecovers | apps/cli/src/utils/api.ts:11-21 | in development every failure other than 404 answers from the mock catalogue |
| Catalog.MockTheme | apps/cli/src/utils/api.ts:48-135 | a mock theme is an entry of the catalogue with the requested slug; none means no entry has it |
| Catalog.MockCatalogContents | apps/cli/src/utils/api.ts:48-135 | the mock catalogue holds exactly pirates-treasure (20 verbs), cosmic-explorer (20) and zen-garden (15) |
| Catalog.MockSearch | apps/cli/src/utils/api.ts:137-152 | the results are the catalogue entries, in order, whose name, description or a tag contains the lower-cased query, and no others |
| Catalog.EmptyQueryMatchesAll | apps/cli/src/utils/api.ts:137-152 | an empty query returns the whole mock catalogue |
| Catalog.SearchThemes | apps/cli/src/utils/api.ts:25-45 | a successful answer yields `data.themes` when truthy, else `data`; failures fall back as `FetchTheme` does; development never fails |
| Catalog.SearchPrefersThemesField | apps/cli/src/utils/api.ts:36-37 | the `themes` field is used exactly when it is truthy |
| Install.ReplaceVerbs | apps/cli/src/commands/install.ts:46-48 | fails exactly when `spinnerVerbs` is a truthy primitive; otherwise it installs the verbs when `spinnerVerbs` is not an array, leaves an existing array alone, and keeps every other key |
| Install.RecordInstall | apps/cli/src/commands/install.ts:51-60 | succeeds exactly when the record list is an array without null; it changes only `_verbvault` |
| Install.ApplyInstall | apps/cli/src/commands/install.ts:31-60 | a conflict is reported exactly when verbs exist and `--force` is not given; the failure cases are exactly the TypeErrors of the replace and record steps |
| Install.InstallEffects | apps/cli/src/commands/install.ts:46-60 | an applied install adds only `spinnerVerbs` and `_verbvault`, keeps every other key; an existing verbs array is kept, otherwise the theme's verbs are set in replace mode and the other fields of a prior `spinnerVerbs` object are kept |
| Install.InstallRecordsEffect | apps/cli/src/commands/install.ts:51-60 | an applied install leaves the earlier records of other slugs, in order, followed by one record for the theme |
| Install.ExitCode | apps/cli/src/commands/install.ts:20-41 | exit code 0 exactly for a pending conflict or a completed install |
| Install.InstallCommand | apps/cli/src/commands/install.ts:13-88 | every outcome but a completed install keeps every file; the disk changes only through writing the settings document the install computed (the write may fail after creating the directory); a found theme, a readable settings file, an applicable install and a successful write always complete it; the conflict outcome comes exactly from existing verbs without `--force`, and not-found exactly from a not-found fetch |
| Install.InstallDiskBound | apps/cli/src/commands/install.ts:13-88 | whatever the outcome, the only directories added are the settings directory and its parents, and the disk's faults are unchanged |
| Install.FailedWriteLeavesDirectory | apps/cli/src/commands/install.ts:62-87 | a write that fails after the settings directory was created ends the install with exit code 1, keeps every file, and leaves the directory |
| Install.TrailingSlashNeverInstalls | apps/cli/src/commands/install.ts:62-87 | with a settings path ending in a separator the install never completes and no file changes |
| Install.InstallWritesThrough | apps/cli/src/commands/install.ts:62-87 | once the new document is computed, the disk afterwards is what writing it leaves, and the install fails exactly when that write fails |
| Install.NotFoundTouchesNothing | apps/cli/src/commands/install.ts:15-22 | a theme that is not found leaves every file system untouched and exits 1 |
| Install.ConflictWritesNothing | apps/cli/src/commands/install.ts:31-41 | existing verbs without `--force` write nothing and exit 0 |
| Install.NoVerbsNoGate | apps/cli/src/commands/install.ts:31-33 | a missing or empty `spinnerVerbs` never triggers the overwrite gate |
| Install.MissingRecordListFails | apps/cli/src/commands/install.ts:51-54 | a `_verbvault` object without an `installedThemes` array makes the install fail with nothing written |
| Install.UpsertProperties | apps/cli/src/commands/install.ts:53-60 | after an upsert the slug occurs exactly once, as the last record, and every other slug's records are kept in order; with unique slugs the list grows exactly for a new slug |
| Install.UpsertShape | apps/cli/src/commands/install.ts:53-60 | the new record is last and the only one with its slug; before it come, in order, exactly the records with other slugs |
| Install.UpsertWithUniqueSlugs | apps/cli/src/commands/install.ts:53-60 | with unique slugs before, they stay unique; the list grows by one exactly when the slug was new and keeps its length exactly when it was installed |
| Install.UpsertKeepsUnique | apps/cli/src/commands/install.ts:53-60 | an upsert keeps slugs unique |
| Install.UpsertTwice | apps/cli/src/commands/install.ts:53-60 | upserting the same slug twice equals upserting only the second record |
| Install.ReinstallIdempotent | apps/cli/src/commands/install.ts:31-60 | a forced reinstall on top of an install gives the same result as a forced install, at the new time, on the original document |
| Install.RecordTwice | apps/cli/src/commands/install.ts:51-60 | recording the same theme twice equals recording it once, at the later time |
| Install.ReplaceVerbsFixpoint | apps/cli/src/commands/install.ts:46-48 | once `spinnerVerbs` is an array, replacing the verbs changes nothing |
| Install.FilterKeepsUnique | apps/cli/src/commands/install.ts:53-54 | filtering a record list keeps slugs unique |
| Remove.RecordList | apps/cli/src/commands/remove.ts:9-10 | `_verbvault?.installedThemes \|\| []` is usable exactly when it is an array; a missing `_verbvault` gives the empty list |
| Remove.FindSlug | apps/cli/src/commands/remove.ts:12 | the index found is the first record with the slug and no null record precedes it; none means no record is null or has the slug; a failure carries the null-record message, and a list without nulls never fails |
| Remove.FindSlugFromFails | apps/cli/src/commands/remove.ts:12 | a search starting at any position throws exactly when a null record appears there or later before any record with the slug |
| Remove.FindSlugFails | apps/cli/src/commands/remove.ts:12 | the lookup throws exactly when a null record comes before any record with the slug |
| Remove.ClearSpinner | apps/cli/src/commands/remove.ts:29-34 | `spinner.verbs` is gone afterwards; a `spinner` object left empty is deleted; every other key is unchanged |
| Remove.ApplyRemove | apps/cli/src/commands/remove.ts:12-34 | there is nothing to remove exactly when no record has the slug; otherwise exactly that record is spliced out |
| Remove.RemoveEffects | apps/cli/src/commands/remove.ts:24-34 | a removal splices out the found record, keeps the other `_verbvault` fields and every key but `spinner`; `spinner` is touched only when the last record goes, and then loses `verbs` and is dropped if left empty |
| Remove.RemovesFirstMatch | apps/cli/src/commands/remove.ts:12-26 | the removed record is the first with the slug; the rest is a subsequence one shorter, and with unique slugs no longer mentions the slug |
| Remove.RemovedRecordList | apps/cli/src/commands/remove.ts:24-26 | the record list written, read back, is the old list with the found record spliced out |
| Remove.RemoveCommand | apps/cli/src/commands/remove.ts:7-60 | every outcome but a completed removal keeps every file; the disk changes only through writing the document with the record removed; a readable file, a found record and a successful write always complete it; "not installed" comes exactly from a readable file without the slug |
| Remove.RemoveDiskBound | apps/cli/src/commands/remove.ts:7-60 | whatever the outcome, the only directories added are the settings directory and its parents, and the disk's faults are unchanged |
| Remove.NoMatchWritesNothing | apps/cli/src/commands/remove.ts:14-21 | an uninstalled slug writes nothing and exits 0 |
| Remove.ExitCode | apps/cli/src/commands/remove.ts:56-60 | exit 1 exactly when the command failed |
| ListCommand.Entries | apps/cli/src/commands/list.ts:24-31 | one entry per record, numbered from 1 in order |
| ListCommand.View | apps/cli/src/commands/list.ts:14-46 | install records take precedence; custom verbs are shown only without records, with their total |
| ListCommand.List | apps/cli/src/commands/list.ts:6-52 | a read failure becomes the error view; otherwise the view of the settings read |
| ListCommand.EmptyStateIff | apps/cli/src/commands/list.ts:14-22 | the empty state appears exactly when both the record list and `spinner.verbs` are empty; a document with neither key shows it |
| ListCommand.InstalledTakesPrecedence | apps/cli/src/commands/list.ts:24-31 | a non-empty record list is listed in full, numbered from 1, whatever verbs exist |
| ListCommand.CustomVerbsView | apps/cli/src/commands/list.ts:32-43 | without records, custom verbs show their total, the first five, and a "more" count exactly when there are over five |
| ListCommand.IgnoresSpinnerVerbs | apps/cli/src/commands/list.ts:10-12 | the listing does not depend on `spinnerVerbs`, the key `install` writes |
| Lifecycle.InstallKeepsSlugsUnique | apps/cli/src/commands/install.ts:51-60 | an install keeps the install records' slugs unique |
| Lifecycle.RemoveKeepsSlugsUnique | apps/cli/src/commands/remove.ts:24-26 | a removal keeps the install records' slugs unique |
| Lifecycle.RemoveAtKeepsUnique | apps/cli/src/commands/remove.ts:24-26 | splicing one record out of a list with unique slugs keeps them unique |
| Lifecycle.InstallPreservesForeignKeys | apps/cli/src/commands/install.ts:27-63 | an install changes, on disk, only `spinnerVerbs` and `_verbvault` of the settings document |
| Lifecycle.InstallThenRemoveKeepsVerbs | apps/cli/src/commands/remove.ts:29-34 | removing a freshly installed theme leaves `spinnerVerbs` as the install set it |
| Lifecycle.InstallAppendsRecord | apps/cli/src/commands/install.ts:53-60 | after an install, the theme's record is the last, and the only one with its slug |
| Lifecycle.RemoveAppendedRecord | apps/cli/src/commands/remove.ts:12-26 | removing that appended record gives back exactly the other records |
| Lifecycle.FindsAppendedRecord | apps/cli/src/commands/remove.ts:12 | the lookup finds an appended record at the end when no earlier record has its slug |
| Schemas.ParseString | packages/shared/src/schemas/index.ts:8-12 | a string schema accepts exactly a string passing all its checks; a non-string reports one type issue |
| Schemas.ParseStringArray | packages/shared/src/schemas/index.ts:45-48 | an array schema accepts exactly an array of the allowed length whose items all pass |
| Schemas.ParseInt | packages/shared/src/schemas/index.ts:130 | a number schema accepts exactly a number passing its integer and range checks, and returns it unchanged |
| Schemas.IntField | packages/shared/src/schemas/index.ts:130 | an absent field takes the default; a present field must pass |
| Schemas.OptStringField | packages/shared/src/schemas/index.ts:136 | an optional string field is valid when absent or a passing string |
| Schemas.MatchesOneOrMoreIff | packages/shared/src/schemas/index.ts:12 | `^[class]+$` matches exactly a non-empty string of class characters |
| Schemas.UsernameSchemaIff | packages/shared/src/schemas/index.ts:8-12 | a username is valid exactly when it has 3–30 characters, all letters, digits, `_` or `-` (ASCII, so characters and code units agree) |
| Schemas.VerbSchemaIff | packages/shared/src/schemas/index.ts:36-43 | a verb is valid exactly when it has 1–50 UTF-16 code units and is not all whitespace |
| Schemas.VerbPassesIff | packages/shared/src/schemas/index.ts:36-43 | the verb checks pass exactly for a valid verb |
| Schemas.EmojiVerbTooLong | packages/shared/src/schemas/index.ts:39 | 26 emoji (26 characters, 52 code units) are rejected as a verb |
| Schemas.VerbsArraySchemaIff | packages/shared/src/schemas/index.ts:45-48 | a verb list is valid exactly when it has 1–200 valid verbs |
| Schemas.SlugSchemaIff | packages/shared/src/schemas/index.ts:50-54 | a slug is valid exactly when it has 1–100 characters, all lower-case letters, digits or `-` |
| Schemas.TagSchemaIff | packages/shared/src/schemas/index.ts:56 | a tag is valid exactly when it is one of the twenty theme tags |
| Schemas.TagsSchemaIff | packages/shared/src/types/index.ts:201-222 | a tag list is valid exactly when it has at most five entries, each one of the twenty theme tags |
| Schemas.OptTagsField | packages/shared/src/schemas/index.ts:62 | an optional tag-list field is valid exactly when absent, or an array within the bound whose entries are all theme tags |
| Schemas.CreateThemeSchemaIff | packages/shared/src/schemas/index.ts:58-64 | a create-theme body is accepted exactly when its name has 1–100 code units, its description at most 1000, it has 1–200 valid verbs, at most five theme tags, and a string cover colour, each optional field only when present |
| Schemas.CreateThemeSound | packages/shared/src/schemas/index.ts:58-64 | an accepted create-theme body satisfies every field rule |
| Schemas.CreateThemeRoundTrip | packages/shared/src/schemas/index.ts:58-64 | encoding any valid theme as a body and parsing it gives the theme back |
| Schemas.NewThemeBody | packages/shared/src/schemas/index.ts:58-64 | the body carries each field of the theme, and an optional field exactly when it is present |
| Schemas.GenerateSchemaIff | packages/shared/src/schemas/index.ts:125-131 | a generate request is accepted exactly for a prompt of 5–500 UTF-16 code units and an optional integer count in 5–50; the default count is 15 |
| Schemas.SuggestSchemaIff | packages/shared/src/schemas/index.ts:133-137 | a suggest request is accepted exactly for 1–100 string verbs, an optional integer count in 1–20 (default 5) and an optional style of at most 100 UTF-16 code units |
| Schemas.RefineSchemaIff | packages/shared/src/schemas/index.ts:139-143 | a refine request is accepted exactly for a verb of 1–50 UTF-16 code units, a style of 1–100 and an optional context of at most 200 |
| Schemas.SortField | packages/shared/src/schemas/index.ts:156 | the sort field is valid exactly when absent or a known sort order; an absent one defaults to "recent" |
| Schemas.SearchSchemaIff | packages/shared/src/schemas/index.ts:153-159 | a search body is accepted exactly when every present field passes: a query of at most 100 code units, theme tags, a known sort order, an integer page from 1, an integer page size in 1–50 |
| Schemas.SearchSchemaSound | packages/shared/src/schemas/index.ts:153-159 | an accepted search has a short query, known tags, a known sort order, page ≥ 1 and page size in 1–50 |
| Schemas.EmptySearchDefaults | packages/shared/src/schemas/index.ts:153-159 | an empty search body means: sort "recent", page 1, page size 20 |
| WebUtils.CollapseRuns | apps/web/src/lib/utils.ts:62-63 | every character kept is either the replacement or a character of the input outside the run class |
| WebUtils.CollapseRunsNoAdjacent | apps/web/src/lib/utils.ts:62-63 | after collapsing, no two run characters are adjacent |
| WebUtils.GenerateSlugShape | apps/web/src/lib/utils.ts:58-65 | a generated slug has only slug characters, never two hyphens in a row, and is no longer than the name |
| WebUtils.GenerateSlugFixpoints | apps/web/src/lib/utils.ts:58-65 | the slugs left unchanged are exactly the strings of slug characters with no doubled hyphen |
| WebUtils.GenerateSlugIdempotent | apps/web/src/lib/utils.ts:58-65 | slugifying a slug changes nothing |
| WebUtils.GeneratedSlugIsValid | apps/web/src/lib/utils.ts:58-65 | a non-empty slug generated from a name of at most 100 characters passes the slug schema |
| WebUtils.Truncate | apps/web/src/lib/utils.ts:67-70 | a string within the length is returned; a longer one keeps its first `length` characters and gains "..." |
| WebUtils.TruncatePrefix | apps/web/src/lib/utils.ts:67-70 | the result is the input, or a prefix of it followed by "..."; truncating twice to the same length equals truncating once |
| WebUtils.Initials | apps/web/src/lib/utils.ts:72-79 | at most two characters, none lower-case |
| WebUtils.InitialsOfWords | apps/web/src/lib/utils.ts:72-79 | a one-word name gives its upper-cased first letter; two words give both first letters |
| WebUtils.FormatRelativeTime | apps/web/src/lib/utils.ts:27-56 | minutes fall in 1–59, hours in 1–23, days in 1–6, weeks in 1–4 |
| WebUtils.RelativeTimeRanges | apps/web/src/lib/utils.ts:27-56 | each label is chosen exactly on its range of elapsed seconds; 30 days or more fall back to the date |
| VerbEditor.AddVerb | apps/web/src/components/theme/VerbEditor.tsx:31-37 | an addable input appends its trimmed form and clears the input; otherwise nothing changes; existing verbs keep their place |
| VerbEditor.AddVerbPreservesHealth | apps/web/src/components/theme/VerbEditor.tsx:31-37 | adding keeps the list duplicate-free, trimmed, non-blank and within the maximum |
| VerbEditor.RemoveVerbSplices | apps/web/src/components/theme/VerbEditor.tsx:39-41 | removing an index in range splices out exactly that verb; an index out of range changes nothing |
| VerbEditor.RemoveVerbPreservesHealth | apps/web/src/components/theme/VerbEditor.tsx:39-41 | removing keeps the list healthy |
| VerbEditor.HealthyListIsValid | apps/web/src/components/theme/VerbEditor.tsx:26-37 | an edited, non-empty list of short verbs under the default maximum passes the verb-list schema |
| GenerateModal.StartGenerate | apps/web/src/components/ai/GenerateModal.tsx:40-55 | a blank prompt sends nothing and changes nothing; otherwise it clears the results and sends the trimmed prompt with count 50 |
| GenerateModal.FinishGenerate | apps/web/src/components/ai/GenerateModal.tsx:57-71 | generation always ends; a failure keeps the rest of the dialog |
| GenerateModal.GeneratedAllSelected | apps/web/src/components/ai/GenerateModal.tsx:62-65 | after a success, the selection holds exactly the generated verbs, without duplicates |
| GenerateModal.BlankPromptSendsNothing | apps/web/src/components/ai/GenerateModal.tsx:41-44 | an all-whitespace prompt sends no request |
| GenerateModal.RequestMeetsSchema | apps/web/src/components/ai/GenerateModal.tsx:54 | the dialog's request passes the generate schema exactly when the trimmed prompt has 5–500 UTF-16 code units |
| GenerateModal.ToggleFlipsOne | apps/web/src/components/ai/GenerateModal.tsx:74-82 | toggling flips the membership of exactly one verb and keeps the selection duplicate-free |
| GenerateModal.ToggleTwice | apps/web/src/components/ai/GenerateModal.tsx:74-82 | toggling twice restores the selected set, and the exact order when the verb was absent |
| GenerateModal.SelectAllIsAllOrNothing | apps/web/src/components/ai/GenerateModal.tsx:212-218 | with everything selected the button clears the selection; otherwise it selects every generated verb |
| GenerateModal.Apply | apps/web/src/components/ai/GenerateModal.tsx:84-88 | apply hands over the selection and the name, then resets |
| GenerateModal.Reset | apps/web/src/components/ai/GenerateModal.tsx:90-95 | a reset empties the prompt, results, name and selection |
| GenerateModal.TryAgain | apps/web/src/components/ai/GenerateModal.tsx:244-247 | try-again clears the results and selection and keeps the prompt, the name and the progress flag |
| GenerateModal.TryAgainResends | apps/web/src/components/ai/GenerateModal.tsx:40-55 | after try-again, generating sends the same request as before, and with a non-blank prompt reaches the same state |
| GenerateModal.ApplyThenApply | apps/web/src/components/ai/GenerateModal.tsx:84-95 | a second apply hands over nothing and changes nothing |
| SpinnerPreview.NextIndex | apps/web/src/components/spinner/SpinnerPreview.tsx:36-38 | the index steps forward and wraps to 0 after the last verb |
| SpinnerPreview.NextDots | apps/web/src/components/spinner/SpinnerPreview.tsx:46-48 | dots grow by one up to three, then reset |
| SpinnerPreview.IndexAfterPeriodic | apps/web/src/components/spinner/SpinnerPreview.tsx:33-41 | the verb shown after k ticks repeats with period equal to the number of verbs |
| SpinnerPreview.DotsCycle | apps/web/src/components/spinner/SpinnerPreview.tsx:43-51 | after k ticks the dots are the first k mod 4 of "..." |
| SpinnerPreview.Render | apps/web/src/components/spinner/SpinnerPreview.tsx:53-84 | no verbs gives the placeholder; otherwise the current verb, with dots exactly when they are enabled |
| SpinnerPreview.ShownWindowIsRotation | apps/web/src/components/spinner/SpinnerPreview.tsx:33-41 | one full cycle from any start shows the list rotated to that start |
| Dispatch.FirstMatch | apps/web/src/app/api/ai/generate/route.ts:100-238 | the first rule whose keywords the text mentions decides; with none, the fallback |
| Http.EdgeGate | supabase/functions/generate-theme/index.ts:14-40 | OPTIONS gets the preflight; a missing or empty authorization gives 401 "Missing authorization header"; a signed-out user gives 401 "Unauthorized"; only a signed-in request passes |
| Http.Relay | apps/web/src/app/api/ai/generate/route.ts:64-87 | a non-ok upstream reply gives 500 with the route's message; an answer is 200 exactly when the reply's content has the expected shape |
| Http.SliceOf | apps/web/src/app/api/ai/generate/route.ts:78 | `content[key].slice(0, end)` is defined exactly for an array or string field, and returns its prefix |
| Http.InvalidRequest | apps/web/src/app/api/ai/generate/route.ts:19-27 | a schema failure answers 400 "Invalid request" with one detail per issue |
| GenerateRoute.ChosenByKeyword | apps/web/src/app/api/ai/generate/route.ts:91-238 | pirate words choose the pirate theme, then space, zen and coffee words in that order; anything else gets the creative theme |
| GenerateRoute.CannedThemesWellFormed | apps/web/src/app/api/ai/generate/route.ts:100-238 | every canned theme has 20 verbs and only known tags |
| GenerateRoute.Post | apps/web/src/app/api/ai/generate/route.ts:5-88 | signed out gives 401; a schema failure gives 400 with the issues; without a key the canned theme is sliced to the count |
| GenerateRoute.PostGating | apps/web/src/app/api/ai/generate/route.ts:11-27 | 401 exactly when signed out; 400 exactly when the body breaks the generate schema |
| GenerateRoute.MockAnswerShape | apps/web/src/app/api/ai/generate/route.ts:34-37 | a canned answer has min(count, 20) verbs, between 5 and 20, and 15 by default |
| GenerateRoute.LiveAnswerShape | apps/web/src/app/api/ai/generate/route.ts:64-87 | a live answer is 200 only with content, and never holds more verbs than asked; otherwise 500 |
| GenerateRoute.DialogRequestGetsTwenty | apps/web/src/components/ai/GenerateModal.tsx:54 | the dialog's count of 50 gets all 20 canned verbs of the theme its prompt chooses |
| SuggestRoute.CandidatesByKeyword | apps/web/src/app/api/ai/suggest/route.ts:88-208 | the canned list follows the first keyword group the lower-cased existing verbs mention, else the creative list |
| SuggestRoute.FreshOf | apps/web/src/app/api/ai/suggest/route.ts:262-268 | suggestions are candidates in order, case-insensitively new, and at most `count` |
| SuggestRoute.FreshOfFillsUp | apps/web/src/app/api/ai/suggest/route.ts:262-268 | a new candidate is left out only when `count` suggestions are already given |
| SuggestRoute.Post | apps/web/src/app/api/ai/suggest/route.ts:5-85 | signed out gives 401; a schema failure gives 400; without a key the canned suggestions are returned |
| SuggestRoute.PostGating | apps/web/src/app/api/ai/suggest/route.ts:11-27 | 401 exactly when signed out; 400 exactly when the body breaks the suggest schema |
| SuggestRoute.MockAnswerShape | apps/web/src/app/api/ai/suggest/route.ts:34-37 | canned suggestions number at most `count` (5 by default) and none repeats an existing verb |
| SuggestRoute.LiveAnswerShape | apps/web/src/app/api/ai/suggest/route.ts:64-84 | a live answer never holds more suggestions than asked; otherwise 500 |
| EdgeGenerate.ChosenByKeyword | supabase/functions/generate-theme/index.ts:117-143 | "pirate" chooses the pirate theme, then "space"; anything else gets the creative theme |
| EdgeGenerate.MockGenerate | supabase/functions/generate-theme/index.ts:117-143 | the canned theme's name, description and tags, with a prefix of its verbs |
| EdgeGenerate.HandleGating | supabase/functions/generate-theme/index.ts:14-50 | preflight for OPTIONS; 401 exactly when the header is missing or the user is signed out; 400 exactly for a prompt that is not a string of at least 5 UTF-16 code units |
| EdgeGenerate.MockAnswerShape | supabase/functions/generate-theme/index.ts:43-61 | the canned answer has min(count, 15) verbs, all 15 by default, and only known tags |
| EdgeGenerate.LongPromptAccepted | supabase/functions/generate-theme/index.ts:45-50 | a prompt over 500 UTF-16 code units is answered here, though the shared schema rejects it |
| EdgeGenerate.LiveAnswerShape | supabase/functions/generate-theme/index.ts:88-107 | a live answer holds at most `count` verbs; otherwise 500 |
| EdgeGenerate.TreasureDisagreement | supabase/functions/generate-theme/index.ts:120 | the prompt "treasure" gets the pirate theme from the web route but the creative theme here |
| EdgeSuggest.Unposted | supabase/functions/suggest-verbs/index.ts:110-120 | suggestions are canned entries in order, not posted exactly, and at most `count` |
| EdgeSuggest.UnpostedFillsUp | supabase/functions/suggest-verbs/index.ts:118-120 | an unposted entry is left out only when `count` suggestions are already given |
| EdgeSuggest.MatchIsCaseSensitive | supabase/functions/suggest-verbs/index.ts:119 | posting "conjuring" does not exclude "Conjuring" |
| EdgeSuggest.HandleGating | supabase/functions/suggest-verbs/index.ts:13-47 | preflight; 401 for a missing header or signed-out user; 400 exactly when `existingVerbs` is not a non-empty array |
| EdgeSuggest.MockAnswerShape | supabase/functions/suggest-verbs/index.ts:49-57 | canned suggestions number at most `count` (5 by default), none posted already, in canned order |
| EdgeSuggest.LiveAnswerShape | supabase/functions/suggest-verbs/index.ts:86-100 | a live answer holds at most `count` suggestions; otherwise 500 |
| EdgeRefine.ToneByKeyword | supabase/functions/refine-verb/index.ts:121-137 | "playful" or "fun" win, then "professional", then "pirate"; anything else is plain |
| EdgeRefine.DropG | supabase/functions/refine-verb/index.ts:125 | the first "ing" loses its g to an apostrophe; nothing else changes, and a verb without "ing" is unchanged |
| EdgeRefine.RefinedMock | supabase/functions/refine-verb/index.ts:121-137 | each tone's refinement: "... like crazy", "Actively ...", "..., arr" or "... intensely" |
| EdgeRefine.RefinedMockShape | supabase/functions/refine-verb/index.ts:121-137 | the refinement is the verb, with at most a g dropped, plus the tone's suffix or prefix |
| EdgeRefine.AlternativesMock | supabase/functions/refine-verb/index.ts:139-145 | exactly three alternatives: "... away", "Super ...", "... hard" |
| EdgeRefine.HandleGating | supabase/functions/refine-verb/index.ts:13-54 | preflight; 401 for a missing header or signed-out user; "Invalid verb" exactly for a verb that is not a non-empty string, then "Invalid style" likewise |
| EdgeRefine.AnswerShape | supabase/functions/refine-verb/index.ts:56-111 | without a key the canned refinement and alternatives; a live answer keeps at most three alternatives; otherwise 500 |
| Js.Utf16Length | packages/shared/src/schemas/index.ts:36-43 | a string's `length` lies between its number of characters and twice that, and is 0 exactly for the empty string |
| Js.Utf16LengthOfBmp | packages/shared/src/schemas/index.ts:8-12 | on text within the Basic Multilingual Plane `length` equals the number of characters |
| Js.Utf16LengthOfAstral | packages/shared/src/schemas/index.ts:36-43 | characters outside the Basic Multilingual Plane count two code units each |
| Js.Utf16LengthAppend | packages/shared/src/schemas/index.ts:36-43 | the `length` of a concatenation is the sum of the lengths |
| Text.Trim | apps/web/src/components/theme/VerbEditor.tsx:32 | `trim()` removes exactly the leading and trailing whitespace: the result is an inner slice that is empty exactly for all-whitespace text |
| Text.TrimIdempotent | apps/web/src/components/theme/VerbEditor.tsx:32 | trimming twice equals trimming once |
| Text.JoinSplit | apps/web/src/lib/utils.ts:74 | joining the pieces of a split with the separator gives back the input |
| Text.NatToString | apps/cli/src/utils/settings.ts:63 | the decimal text of the timestamp is all digits and denotes it |
| Text.NatToStringInjective | apps/cli/src/utils/settings.ts:63 | distinct timestamps give distinct backup names |

## Left out

- Console output (chalk colours, ora spinners, the printed wording) is not modelled; the outcome datatypes carry what the commands print.
- JSON text is not modelled: a settings file is represented by the object it parses to, or by a parse diagnostic. The two-space `JSON.stringify` formatting and object key order are left out.
- A settings file holding valid JSON whose top level is not an object (an array, a number) is not modelled; `readClaudeSettings` would return that value unchanged.
- The clock is a parameter (`installedAt`, `now`); `new Date().toISOString()` formatting is not modelled.
- The network, the registry API, OpenAI and Supabase are inputs: the registry reply, the upstream reply, and whether the user is signed in.
- The prompt text sent to OpenAI and the system prompts from the shared package are not modelled; only the route's handling of the answer is.
- Case mapping is ASCII only. `toLowerCase`/`toUpperCase` on other letters is not modelled.
- `formatDate`, `formatNumber`, `getRandomVerbs`, `cn` and `copyToClipboard` are presentation, locale, floating-point or random helpers and are not modelled; `formatRelativeTime` past 30 days falls back to `formatDate` and is modelled only as that fallback. A date string that does not parse makes `new Date(date)` NaN, every comparison false and the output `formatDate`'s "Invalid Date"; the model takes the date as a whole number of milliseconds, so it has no such input.
- The `search` CLI command, the CLI entry point, the themes search route, the auth hooks and the React rendering and timers themselves are not modelled; the spinner preview is modelled as its state steps per tick.
- Edge-function `count` values that are numeric strings or arrays: `slice` converts them with `ToNumber`, so `"7"` and `[7]` both mean 7. The model treats every non-number except a boolean as 0.
- SettingsStore.DirName: apart from trailing separators, paths are compared as written. `existsSync` and `readFile` on a path ending in a separator, repeated separators, and `.` or `..` segments are not resolved as the operating system would resolve them.
- Install.ApplyInstall: the conflict test `verbs.length > 0` (like the `length > 0` tests of `list`) converts a `length` member with ToNumber. The model does this for numbers, booleans and `null`, but reads a string `length` (`"3"`) or an array one as not positive. JavaScript would parse the string.
- WebUtils.Truncate: the comparison and the cut count characters, not UTF-16 code units. A cut inside a surrogate pair would leave a lone surrogate, which a Dafny `char` cannot hold. The two counts agree on text within the Basic Multilingual Plane.
- WebUtils.Initials: takes each word's first character, where JavaScript's `n[0]` takes the first UTF-16 code unit, and keeps two characters where `slice(0, 2)` keeps two code units. These differ only for a word starting outside the Basic Multilingual Plane, where JavaScript yields half a surrogate pair.
- Http.SliceOf: a string field is sliced by characters, not UTF-16 code units, for the same reason as `truncate`.
- Catalog.FetchTheme: a successful reply's body is a theme, `null`, or text that is not JSON. A body that is JSON but not a theme (`{}`, or `verbs` given as a string) is not represented. The source returns such a body as it is, and `install` then throws or writes it.
- Catalog.MockTheme: the lookup `themes[slug] || null` is modelled over the catalogue's own keys only. For an inherited key such as "constructor", "toString" or "__proto__" JavaScript yields a truthy non-theme, on which `install` fails; the model answers not-found.
- Http.Relay: a reply body that is not valid JSON, or lacks `choices[0].message.content`, is folded into a missing content (500 internal error) rather than distinguished.
- Concurrency: two CLI commands running at once on the same settings file are not modelled.

=== FILE: catalog.dfy ===
/** The CLI's catalog client: fetching one theme by slug, searching, and the
    built-in mock catalog that replaces the service in development mode or
    when the request itself fails. The network is an input: the reply the
    service gave (a status and a body) or the message of the error `fetch`
    raised. Whether `NODE_ENV` is `development` is an input too. */
module Catalog {
  import opened Wrappers
  import opened Js
  import Text
  import Seqs

  /** A theme as the catalog serves it. */
  datatype Theme = Theme(
    slug: string,
    name: string,
    description: string,
    verbs: seq<string>,
    tags: seq<string>,
    downloadCount: nat)

  /** The body of a successful `GET /themes/<slug>`: a theme, JSON `null`,
      or text that `response.json()` rejects (with its message). */
  datatype ThemeBody = ThemeJson(theme: Theme) | NullJson | BadJson(message: string)

  /** What `fetch` produced: an HTTP answer, or a thrown error. */
  datatype ThemeReply = Answered(status: nat, body: ThemeBody) | Rejected(message: string)

  /** What `fetchTheme` gives its caller: a theme, `null`, or a thrown error. */
  datatype Fetched = Found(theme: Theme) | NotFound | FetchFailed(message: string)

  /** `response.ok`. */
  predicate Ok(status: nat) {
    200 <= status <= 299
  }

  /** The message thrown for a non-OK status other than 404. */
  function ApiError(status: nat): string {
    "API error: " + Text.NatToString(status)
  }

  /** The catch clause: in development mode, or when the message mentions
      `fetch`, the mock catalog answers; otherwise the error propagates. */
  predicate UsesMock(development: bool, message: string) {
    development || Text.Contains(message, "fetch")
  }

  /** `getMockTheme(slug) || null` as a fetch result. */
  function MockFetched(slug: string): (r: Fetched)
    ensures r.Found? <==> MockTheme(slug).Some?
    ensures r.Found? ==> r.theme == MockTheme(slug).value
  {
    match MockTheme(slug)
    case Some(t) => Found(t)
    case None => NotFound
  }

  function Recover(development: bool, message: string, slug: string): (r: Fetched)
    ensures UsesMock(development, message) ==> r == MockFetched(slug)
    ensures !UsesMock(development, message) ==> r == FetchFailed(message)
  {
    if UsesMock(development, message) then MockFetched(slug) else FetchFailed(message)
  }

  /** `fetchTheme(slug)`. */
  function FetchTheme(reply: ThemeReply, development: bool, slug: string): (r: Fetched)
    ensures reply.Answered? && reply.status == 404 ==> r == NotFound
    ensures reply.Answered? && reply.status != 404 && !Ok(reply.status) ==>
      r == Recover(development, ApiError(reply.status), slug)
    ensures reply.Answered? && Ok(reply.status) && reply.body.ThemeJson? ==> r == Found(reply.body.theme)
    ensures reply.Rejected? ==> r == Recover(development, reply.message, slug)
    ensures r.FetchFailed? ==> !development
  {
    match reply
    case Rejected(m) => Recover(development, m, slug)
    case Answered(status, body) =>
      if status == 404 then NotFound
      else if !Ok(status) then Recover(development, ApiError(status), slug)
      else
        match body
        case ThemeJson(t) => Found(t)
        case NullJson => NotFound
        case BadJson(m) => Recover(development, m, slug)
  }

  /** "API error: <digits>" never mentions `fetch`: it has no letter 'f'. */
  lemma ApiErrorLacksFetch(status: nat)
    ensures !Text.Contains(ApiError(status), "fetch")
  {
    var s := ApiError(status);
    var digits := Text.NatToString(status);
    assert forall k :: 0 <= k < |s| ==> s[k] != 'f' by {
      forall k | 0 <= k < |s| ensures s[k] != 'f' {
        if k >= 11 { assert s[k] == digits[k - 11]; }
      }
    }
    forall j ensures !Text.OccursAt(s, "fetch", j) {
      if 0 <= j && j + 5 <= |s| {
        assert s[j..j + 5][0] == s[j];
      }
    }
  }

  /** Outside development mode, a non-OK status other than 404 reaches the
      caller as "API error: <status>". */
  lemma ErrorStatusPropagates(status: nat, body: ThemeBody, slug: string)
    requires status != 404 && !Ok(status)
    ensures FetchTheme(Answered(status, body), false, slug) == FetchFailed(ApiError(status))
  {
    ApiErrorLacksFetch(status);
  }

  /** A 404 is `null` even in development mode, although the mock knows the slug. */
  lemma NotFoundHasNoFallback(body: ThemeBody)
    ensures FetchTheme(Answered(404, body), true, "zen-garden") == NotFound
    ensures MockTheme("zen-garden").Some?
  {
  }

  /** In development mode every thrown error becomes the mock answer. */
  lemma DevelopmentAlwaysRecovers(reply: ThemeReply, slug: string)
    requires reply.Rejected? || (reply.status != 404 && !Ok(reply.status))
      || (Ok(reply.status) && reply.body.BadJson?)
    ensures FetchTheme(reply, true, slug) == MockFetched(slug)
  {
  }

  const PiratesTreasure := Theme(
    "pirates-treasure",
    "Pirate's Treasure",
    "Set sail for adventure with these swashbuckling verbs!",
    [
      "Plunderin'", "Swashbucklin'", "Sailing", "Hoisting", "Anchoring", "Navigating", "Charting",
      "Commandeering", "Pillaging", "Boarding", "Mutinying", "Treasure Hunting", "Yo-ho-ing",
      "Parleying", "Keelhauling", "Shanty Singing", "Rum Running", "Map Reading", "Sword Fighting",
      "Gold Counting"
    ],
    ["pirate", "fantasy", "funny"],
    1234)

  const CosmicExplorer := Theme(
    "cosmic-explorer",
    "Cosmic Explorer",
    "Explore the final frontier with these stellar verbs!",
    [
      "Launching", "Orbiting", "Terraforming", "Warping", "Docking", "Scanning", "Navigating",
      "Transmitting", "Calibrating", "Engaging", "Hyperjumping", "Beaming", "Probing", "Analyzing",
      "Calculating", "Exploring", "Discovering", "Mapping", "Communicating", "Decoding"
    ],
    ["space", "sci-fi", "tech"],
    856)

  const ZenGarden := Theme(
    "zen-garden",
    "Zen Garden",
    "Find your inner peace with these calming verbs.",
    [
      "Breathing", "Meditating", "Centering", "Flowing", "Balancing", "Harmonizing", "Grounding",
      "Releasing", "Embracing", "Reflecting", "Contemplating", "Awakening", "Nurturing",
      "Accepting", "Surrendering"
    ],
    ["zen", "minimalist", "nature"],
    567)

  /** The mock catalog, in the order `getMockSearchResults` lists it. */
  const MockCatalog: seq<Theme> := [PiratesTreasure, CosmicExplorer, ZenGarden]

  /** `getMockTheme(slug)`. */
  function MockTheme(slug: string): (r: Option<Theme>)
    ensures r.Some? ==> r.value in MockCatalog && r.value.slug == slug
    ensures r.None? ==> forall i :: 0 <= i < |MockCatalog| ==> MockCatalog[i].slug != slug
  {
    if slug == "pirates-treasure" then Some(PiratesTreasure)
    else if slug == "cosmic-explorer" then Some(CosmicExplorer)
    else if slug == "zen-garden" then Some(ZenGarden)
    else None
  }

  /** The mock catalog knows exactly three slugs, with 20, 20 and 15 verbs. */
  lemma MockCatalogContents()
    ensures forall s :: MockTheme(s).Some? <==> s in {"pirates-treasure", "cosmic-explorer", "zen-garden"}
    ensures |MockTheme("pirates-treasure").value.verbs| == 20
    ensures |MockTheme("cosmic-explorer").value.verbs| == 20
    ensures |MockTheme("zen-garden").value.verbs| == 15
  {
  }

  /** Some tag contains the (already lower-cased) query. */
  predicate SomeTagContains(tags: seq<string>, q: string) {
    exists i :: 0 <= i < |tags| && Text.Contains(tags[i], q)
  }

  /** The search predicate: name or description, lower-cased, contains the
      lower-cased query, or one of the tags (not lower-cased) contains it. */
  predicate MatchesQuery(t: Theme, queryLower: string) {
    || Text.Contains(Text.Lower(t.name), queryLower)
    || Text.Contains(Text.Lower(t.description), queryLower)
    || SomeTagContains(t.tags, queryLower)
  }

  function MatchesQueryFilter(queryLower: string): Theme -> bool {
    t => MatchesQuery(t, queryLower)
  }

  /** `getMockSearchResults(query)`. */
  function MockSearch(query: string): (r: seq<Theme>)
    ensures Seqs.IsSubseq(r, MockCatalog)
    ensures forall i :: 0 <= i < |r| ==> MatchesQuery(r[i], Text.Lower(query))
    ensures forall i :: 0 <= i < |MockCatalog| && MatchesQuery(MockCatalog[i], Text.Lower(query)) ==>
      MockCatalog[i] in r
  {
    Seqs.FilterIsSubseq(MockCatalog, MatchesQueryFilter(Text.Lower(query)));
    Seqs.Filter(MockCatalog, MatchesQueryFilter(Text.Lower(query)))
  }

  /** An empty query lists the whole mock catalog. */
  lemma EmptyQueryMatchesAll()
    ensures MockSearch("") == MockCatalog
  {
    forall i | 0 <= i < |MockCatalog| ensures MatchesQueryFilter(Text.Lower(""))(MockCatalog[i]) {
      Text.ContainsEmpty(Text.Lower(MockCatalog[i].name));
    }
    Seqs.FilterKeepsAll(MockCatalog, MatchesQueryFilter(Text.Lower("")));
  }

  /** The body of a successful search response: parsed JSON, or text that
      `response.json()` rejects. */
  datatype SearchBody = JsonBody(data: Json) | BadSearchJson(message: string)

  datatype SearchReply = SearchAnswered(status: nat, body: SearchBody) | SearchRejected(message: string)

  /** What `searchThemes` gives its caller: the service's answer, the mock
      results, or a thrown error. */
  datatype Searched = LiveResults(results: Json) | MockResults(themes: seq<Theme>) | SearchFailed(message: string)

  function RecoverSearch(development: bool, message: string, query: string): (r: Searched)
    ensures UsesMock(development, message) ==> r == MockResults(MockSearch(query))
    ensures !UsesMock(development, message) ==> r == SearchFailed(message)
  {
    if UsesMock(development, message) then MockResults(MockSearch(query)) else SearchFailed(message)
  }

  /** The error reading `.themes` of a `null` body raises. */
  const NullBodyMessage := "Cannot read properties of null (reading 'themes')"

  /** `searchThemes(query, tag, limit)`: `tag` and `limit` only shape the
      request URL, so they are not parameters here. */
  function SearchThemes(reply: SearchReply, development: bool, query: string): (r: Searched)
    ensures reply.SearchAnswered? && Ok(reply.status) && reply.body.JsonBody? && reply.body.data != JNull ==>
      var data := reply.body.data;
      r == LiveResults(Or(Get(data, "themes"), data))
    ensures reply.SearchAnswered? && !Ok(reply.status) ==> r == RecoverSearch(development, ApiError(reply.status), query)
    ensures reply.SearchRejected? ==> r == RecoverSearch(development, reply.message, query)
    ensures development ==> !r.SearchFailed?
  {
    match reply
    case SearchRejected(m) => RecoverSearch(development, m, query)
    case SearchAnswered(status, body) =>
      if !Ok(status) then RecoverSearch(development, ApiError(status), query)
      else
        match body
        case BadSearchJson(m) => RecoverSearch(development, m, query)
        case JsonBody(JNull) => RecoverSearch(development, NullBodyMessage, query)
        case JsonBody(data) => LiveResults(Or(Get(data, "themes"), data))
  }

  /** `data.themes` wins when it is truthy; otherwise the raw body is returned. */
  lemma SearchPrefersThemesField(data: Json, themes: Json)
    requires data.JObj? && "themes" in data.fields && data.fields["themes"] == themes
    ensures Truthy(themes) ==> SearchThemes(SearchAnswered(200, JsonBody(data)), false, "") == LiveResults(themes)
    ensures !Truthy(themes) ==> SearchThemes(SearchAnswered(200, JsonBody(data)), false, "") == LiveResults(data)
  {
  }
}

=== FILE: dispatch.dfy ===
/** Keyword dispatch as the mock generators do it: a chain of
    `text.includes(a) || text.includes(b) ...` tests, the first that holds
    choosing the canned answer, with a fallback when none does. */
module Dispatch {
  import opened Text

  /** `text` contains at least one of `words`. */
  predicate Mentions(text: string, words: seq<string>) {
    exists i :: 0 <= i < |words| && Contains(text, words[i])
  }

  /** A one-keyword test is a plain `includes`. */
  lemma MentionsOne(text: string, word: string)
    ensures Mentions(text, [word]) <==> Contains(text, word)
  {
    if Contains(text, word) {
      assert [word][0] == word;
    }
  }

  /** One `if` of the chain: its keywords and what it chooses. */
  datatype Rule<T> = Rule(words: seq<string>, choice: T)

  /** No rule before position `k` fires on `text`. */
  predicate NoneBefore<T>(text: string, rules: seq<Rule<T>>, k: int) {
    forall j :: 0 <= j < k && j < |rules| ==> !Mentions(text, rules[j].words)
  }

  /** The choice of the first rule whose keywords occur in `text`, or
      `fallback` when none does. */
  function FirstMatch<T>(text: string, rules: seq<Rule<T>>, fallback: T): (r: T)
    ensures forall k :: 0 <= k < |rules| && NoneBefore(text, rules, k) && Mentions(text, rules[k].words) ==>
      r == rules[k].choice
    ensures NoneBefore(text, rules, |rules|) ==> r == fallback
  {
    if rules == [] then fallback
    else if Mentions(text, rules[0].words) then rules[0].choice
    else
      var r := FirstMatch(text, rules[1..], fallback);
      assert forall k :: 1 <= k <= |rules| && NoneBefore(text, rules, k) ==> NoneBefore(text, rules[1..], k - 1);
      r
  }

  /** The rule that fires, as an index (`|rules|` for the fallback). */
  function Firing<T>(text: string, rules: seq<Rule<T>>): (k: nat)
    ensures k <= |rules| && NoneBefore(text, rules, k)
    ensures k < |rules| ==> Mentions(text, rules[k].words)
  {
    if rules == [] then 0
    else if Mentions(text, rules[0].words) then 0
    else
      var k := Firing(text, rules[1..]);
      assert forall j :: 1 <= j < k + 1 ==> rules[j] == rules[1..][j - 1];
      k + 1
  }

  /** Exactly one outcome: the chosen answer is the firing rule's, and no
      earlier rule matched. */
  lemma FirstMatchIsFiring<T>(text: string, rules: seq<Rule<T>>, fallback: T)
    ensures var k := Firing(text, rules);
      FirstMatch(text, rules, fallback) == if k < |rules| then rules[k].choice else fallback
  {
  }
}

=== FILE: edge_generate.dfy ===
/** The `generate-theme` edge function: preflight and authorization, its
    own prompt check (no shared schema), then a canned theme (no model API
    key) or the model's theme with its verbs cut to `count`. */
module EdgeGenerate {
  import opened Wrappers
  import opened Js
  import opened Text
  import Schemas
  import Http
  import Dispatch
  import GenerateRoute

  const PirateTheme := Http.Theme(
    "Pirate's Treasure", "Set sail for adventure with these swashbuckling verbs!",
    [ "Plunderin'", "Swashbucklin'", "Sailing", "Hoisting", "Anchoring", "Navigating", "Charting",
      "Commandeering", "Pillaging", "Boarding", "Mutinying", "Treasure Hunting", "Yo-ho-ing",
      "Parleying", "Keelhauling" ],
    ["pirate", "fantasy", "funny"])

  const SpaceTheme := Http.Theme(
    "Cosmic Explorer", "Explore the final frontier with these stellar verbs!",
    [ "Launching", "Orbiting", "Terraforming", "Warping", "Docking", "Scanning", "Navigating",
      "Transmitting", "Calibrating", "Engaging", "Hyperjumping", "Beaming", "Probing", "Analyzing",
      "Calculating" ],
    ["space", "sci-fi", "tech"])

  /** The default, for prompts that mention neither "pirate" nor "space". */
  const CreativeTheme := Http.Theme(
    "Creative Flow", "A versatile collection of creative action verbs.",
    [ "Creating", "Building", "Designing", "Crafting", "Imagining", "Exploring", "Discovering",
      "Learning", "Growing", "Transforming", "Connecting", "Inspiring", "Dreaming", "Manifesting",
      "Evolving" ],
    ["professional", "minimalist"])

  /** `getMockTheme`'s two tests, in order: one keyword each. */
  const Rules: seq<Dispatch.Rule<Http.Theme>> := [
    Dispatch.Rule(["pirate"], PirateTheme),
    Dispatch.Rule(["space"], SpaceTheme)
  ]

  const CannedThemes: seq<Http.Theme> := [PirateTheme, SpaceTheme, CreativeTheme]

  /** `count` when the body has none. */
  const DefaultCount := 50

  function Chosen(prompt: string): Http.Theme {
    Dispatch.FirstMatch(Lower(prompt), Rules, CreativeTheme)
  }

  /** "pirate" wins over "space"; anything else, "treasure" and "sci-fi"
      included, gets Creative Flow. */
  lemma ChosenByKeyword(prompt: string)
    ensures Contains(Lower(prompt), "pirate") ==> Chosen(prompt) == PirateTheme
    ensures !Contains(Lower(prompt), "pirate") && Contains(Lower(prompt), "space") ==> Chosen(prompt) == SpaceTheme
    ensures !Contains(Lower(prompt), "pirate") && !Contains(Lower(prompt), "space") ==> Chosen(prompt) == CreativeTheme
  {
    var p := Lower(prompt);
    Dispatch.MentionsOne(p, "pirate");
    Dispatch.MentionsOne(p, "space");
    assert Dispatch.NoneBefore(p, Rules, 0);
    assert !Contains(p, "pirate") ==> Dispatch.NoneBefore(p, Rules, 1);
    assert !Contains(p, "pirate") && !Contains(p, "space") ==> Dispatch.NoneBefore(p, Rules, 2);
  }

  lemma ChosenIsCanned(prompt: string)
    ensures Chosen(prompt) in CannedThemes
  {
    Dispatch.FirstMatchIsFiring(Lower(prompt), Rules, CreativeTheme);
  }

  /** Every canned theme has 15 verbs and tags from the shared tag list. */
  lemma CannedThemesWellFormed()
    ensures forall t :: t in CannedThemes ==>
      |t.verbs| == 15 && forall i :: 0 <= i < |t.tags| ==> t.tags[i] in Schemas.ThemeTags
  {
  }

  /** `getMockTheme(prompt, count)`. */
  function MockGenerate(prompt: string, count: int): (r: Http.Theme)
    ensures r.name == Chosen(prompt).name && r.description == Chosen(prompt).description
    ensures r.tags == Chosen(prompt).tags
    ensures |r.verbs| <= |Chosen(prompt).verbs| && r.verbs == Chosen(prompt).verbs[..|r.verbs|]
  {
    var t := Chosen(prompt);
    t.(verbs := Take(t.verbs, count))
  }

  /** For a non-negative count the mock answers with the first
      `min(count, 15)` verbs of a canned theme, and only with tags from the
      shared tag list. */
  lemma MockGenerateShape(prompt: string, count: nat)
    ensures var r := MockGenerate(prompt, count);
      && r.verbs == Chosen(prompt).verbs[..if count < 15 then count else 15]
      && (forall i :: 0 <= i < |r.tags| ==> r.tags[i] in Schemas.ThemeTags)
  {
    ChosenIsCanned(prompt);
    CannedThemesWellFormed();
  }

  /** The prompt check: a string whose `length` is at least 5 UTF-16 code
      units (which also rules out the empty string); there is no upper bound. */
  predicate ValidPrompt(prompt: Option<Json>) {
    prompt.Some? && prompt.value.JStr? && Utf16Length(prompt.value.s) >= 5
  }

  /** The `count` the handler works with: 50 when absent, otherwise what
      `slice` makes of it. */
  function CountOf(count: Option<Json>): int {
    if count.None? then DefaultCount else SliceArgument(count.value)
  }

  /** The handler. `hasApiKey` is whether `OPENAI_API_KEY` is set;
      `upstream` is the model's reply, used only when it is. */
  function Handle(req: Http.EdgeRequest, hasApiKey: bool, upstream: Http.Upstream): (r: Http.Response)
    ensures Http.EdgeGate(req).Some? ==> r == Http.EdgeGate(req).value
    ensures Http.EdgeGate(req).None? && (req.body.None? || req.body == Some(JNull)) ==> r == Http.InternalError
  {
    match Http.EdgeGate(req)
    case Some(answer) => answer
    case None =>
      if req.body.None? || req.body.value == JNull then Http.InternalError
      else
        var body := req.body.value;
        var prompt := Get(body, "prompt");
        if !ValidPrompt(prompt) then Http.Error(400, "Invalid prompt")
        else
          var count := CountOf(Get(body, "count"));
          if !hasApiKey then Http.Ok(Http.ThemeJson(MockGenerate(prompt.value.s, count)))
          else Http.Relay(upstream, "Failed to generate theme", c => Http.LiveTheme(c, count))
  }

  /** The gating order: a preflight is answered "ok" whatever else the
      request holds; then 401 for a missing header or user; then 400
      exactly when the JSON body's prompt is not a string of 5 or more
      UTF-16 code units. */
  lemma HandleGating(req: Http.EdgeRequest, hasApiKey: bool, upstream: Http.Upstream)
    ensures req.methodName == "OPTIONS" ==> Handle(req, hasApiKey, upstream) == Http.Preflight
    ensures Handle(req, hasApiKey, upstream).status == 401 <==>
      req.methodName != "OPTIONS" && (req.authorization.None? || req.authorization == Some("") || !req.signedIn)
    ensures Handle(req, hasApiKey, upstream).status == 400 <==>
      && Http.EdgeGate(req).None? && req.body.Some? && req.body.value != JNull
      && !ValidPrompt(Get(req.body.value, "prompt"))
  {
  }

  /** Without an API key an accepted prompt gets a canned theme: with no
      count, all 15 verbs (the default 50 is more than any list holds);
      with a non-negative count, the first `min(count, 15)`. */
  lemma MockAnswerShape(req: Http.EdgeRequest, upstream: Http.Upstream)
    requires Http.EdgeGate(req).None? && req.body.Some? && req.body.value.JObj?
    requires ValidPrompt(Get(req.body.value, "prompt"))
    ensures var body := req.body.value;
      var prompt := body.fields["prompt"].s;
      var count := CountOf(Get(body, "count"));
      var t := MockGenerate(prompt, count);
      && Handle(req, false, upstream) == Http.Ok(Http.ThemeJson(t))
      && ("count" !in body.fields ==> t.verbs == Chosen(prompt).verbs)
      && (0 <= count ==> t.verbs == Chosen(prompt).verbs[..if count < 15 then count else 15])
      && (forall i :: 0 <= i < |t.tags| ==> t.tags[i] in Schemas.ThemeTags)
  {
    var body := req.body.value;
    var count := CountOf(Get(body, "count"));
    if 0 <= count {
      MockGenerateShape(body.fields["prompt"].s, count);
    } else {
      ChosenIsCanned(body.fields["prompt"].s);
      CannedThemesWellFormed();
    }
  }

  /** A prompt longer than the web route's limit of 500 UTF-16 code units is still
      accepted here, and answered. */
  lemma LongPromptAccepted(req: Http.EdgeRequest, prompt: string, upstream: Http.Upstream)
    requires Http.EdgeGate(req).None? && req.body == Some(JObj(map["prompt" := JStr(prompt)]))
    requires Utf16Length(prompt) > 500
    ensures Handle(req, false, upstream).status == 200
    ensures Schemas.ParseGenerate(req.body.value).Invalid?
  {
    Schemas.GenerateSchemaIff(req.body.value);
  }

  /** With an API key an accepted prompt gets the model's theme with at most
      `count` verbs; otherwise a 500. */
  lemma LiveAnswerShape(req: Http.EdgeRequest, upstream: Http.Upstream)
    requires Http.EdgeGate(req).None? && req.body.Some? && req.body.value.JObj?
    requires ValidPrompt(Get(req.body.value, "prompt"))
    ensures var count := CountOf(Get(req.body.value, "count"));
      var r := Handle(req, true, upstream);
      && (upstream.NotOk? ==> r == Http.Error(500, "Failed to generate theme"))
      && (r.status == 200 ==>
            && r.body.JsonBody? && r.body.value.JObj? && "verbs" in r.body.value.fields
            && (r.body.value.fields["verbs"].JArr? && 0 <= count ==> |r.body.value.fields["verbs"].items| <= count))
      && (r.status != 200 ==> r.status == 500)
  {
  }

  /** The two generators disagree on the prompt "treasure": the web route
      answers with the pirate theme, this function with Creative Flow. */
  lemma TreasureDisagreement()
    ensures GenerateRoute.Chosen("treasure").name == "Pirate's Treasure"
    ensures Chosen("treasure").name == "Creative Flow"
  {
    TreasureOnTheWeb();
    TreasureHere();
  }

  lemma TreasureOnTheWeb()
    ensures GenerateRoute.Chosen("treasure") == GenerateRoute.PirateTheme
  {
    var p := "treasure";
    assert Lower(p) == p;
    assert Contains(p, "treasure") by { assert OccursAt(p, "treasure", 0); }
    assert Dispatch.Mentions(p, GenerateRoute.PirateWords) by {
      assert GenerateRoute.PirateWords[1] == "treasure";
    }
    GenerateRoute.ChosenByKeyword(p);
  }

  lemma TreasureHere()
    ensures Chosen("treasure") == CreativeTheme
  {
    var p := "treasure";
    assert Lower(p) == p;
    ContainedChar(p, "pirate", 0);
    ContainedChar(p, "space", 1);
    assert 'p' !in p;
    ChosenByKeyword(p);
  }
}

=== FILE: edge_refine.dfy ===
/** The `refine-verb` edge function: preflight and authorization, the verb
    checked before the style, then a rewrite chosen by keywords in the style
    (no model API key) or the model's rewrite with at most three
    alternatives. */
module EdgeRefine {
  import opened Wrappers
  import opened Js
  import opened Text
  import Http
  import Dispatch

  /** Which rewrite the style asks for. */
  datatype Tone = Playful | Professional | Pirate | Plain

  const PlayfulWords: seq<string> := ["playful", "fun"]

  /** `getRefinedMock`'s tests, in order. */
  const Rules: seq<Dispatch.Rule<Tone>> := [
    Dispatch.Rule(PlayfulWords, Playful),
    Dispatch.Rule(["professional"], Professional),
    Dispatch.Rule(["pirate"], Pirate)
  ]

  /** The tone, read from the lower-cased style. */
  function ToneOf(style: string): Tone {
    Dispatch.FirstMatch(Lower(style), Rules, Plain)
  }

  /** Playful ("playful" or "fun") wins over professional, which wins over
      pirate; any other style is plain. */
  lemma ToneByKeyword(style: string)
    ensures var s := Lower(style);
      && (Dispatch.Mentions(s, PlayfulWords) ==> ToneOf(style) == Playful)
      && (!Dispatch.Mentions(s, PlayfulWords) && Contains(s, "professional") ==> ToneOf(style) == Professional)
      && ((!Dispatch.Mentions(s, PlayfulWords) && !Contains(s, "professional") && Contains(s, "pirate")) ==>
            ToneOf(style) == Pirate)
      && ((!Dispatch.Mentions(s, PlayfulWords) && !Contains(s, "professional") && !Contains(s, "pirate")) ==>
            ToneOf(style) == Plain)
  {
    var s := Lower(style);
    Dispatch.MentionsOne(s, "professional");
    Dispatch.MentionsOne(s, "pirate");
    assert Dispatch.NoneBefore(s, Rules, 0);
    assert !Dispatch.Mentions(s, PlayfulWords) ==> Dispatch.NoneBefore(s, Rules, 1);
    assert !Dispatch.Mentions(s, PlayfulWords) && !Contains(s, "professional") ==> Dispatch.NoneBefore(s, Rules, 2);
    assert (!Dispatch.Mentions(s, PlayfulWords) && !Contains(s, "professional") && !Contains(s, "pirate")) ==>
      Dispatch.NoneBefore(s, Rules, 3);
  }

  /** `verb.replace('ing', "in'")`: the first "ing" loses its g. */
  function DropG(verb: string): (r: string)
    ensures |r| == |verb|
    ensures !Contains(verb, "ing") ==> r == verb
    ensures Contains(verb, "ing") ==>
      var i := IndexOf(verb, "ing").value;
      && r[i + 2] == '\''
      && forall j :: 0 <= j < |verb| && j != i + 2 ==> r[j] == verb[j]
  {
    var r := ReplaceFirst(verb, "ing", "in'");
    if Contains(verb, "ing") then
      var i := IndexOf(verb, "ing").value;
      DropGAt(verb, i);
      r
    else r
  }

  /** Writing "in'" over an "ing" at `i` changes only its g. */
  lemma DropGAt(verb: string, i: nat)
    requires OccursAt(verb, "ing", i)
    ensures var r := verb[..i] + "in'" + verb[i + 3..];
      && |r| == |verb|
      && r[i + 2] == '\''
      && forall j :: 0 <= j < |verb| && j != i + 2 ==> r[j] == verb[j]
  {
    var r := verb[..i] + "in'" + verb[i + 3..];
    assert verb[i..i + 3] == "ing";
    assert verb[i] == 'i' && verb[i + 1] == 'n' by {
      assert verb[i] == verb[i..i + 3][0];
      assert verb[i + 1] == verb[i..i + 3][1];
    }
    forall j | 0 <= j < |verb| && j != i + 2
      ensures r[j] == verb[j]
    {
      if j < i {
      } else if j < i + 3 {
        assert r[j] == "in'"[j - i];
      } else {
        assert r[j] == verb[i + 3..][j - i - 3];
      }
    }
  }

  /** `getRefinedMock(verb, style)`. */
  function RefinedMock(verb: string, style: string): (r: string)
    ensures ToneOf(style) == Playful ==> r == DropG(verb) + " like crazy"
    ensures ToneOf(style) == Professional ==> r == "Actively " + Lower(verb)
    ensures ToneOf(style) == Pirate ==> r == DropG(verb) + ", arr"
    ensures ToneOf(style) == Plain ==> r == verb + " intensely"
  {
    match ToneOf(style)
    case Playful => DropG(verb) + " like crazy"
    case Professional => "Actively " + Lower(verb)
    case Pirate => DropG(verb) + ", arr"
    case Plain => verb + " intensely"
  }

  /** Dropping the g changes at most one character: a g becomes an
      apostrophe. */
  lemma DropGChangesOnlyG(verb: string)
    ensures forall j :: 0 <= j < |verb| && verb[j] != DropG(verb)[j] ==> verb[j] == 'g' && DropG(verb)[j] == '\''
  {
    if Contains(verb, "ing") {
      var i := IndexOf(verb, "ing").value;
      assert verb[i..i + 3] == "ing";
      assert verb[i + 2] == verb[i..i + 3][2];
    }
  }

  /** Every mock rewrite keeps the verb and adds a fixed suffix or prefix;
      the playful and pirate rewrites differ from the verb only at the g of
      its first "ing". */
  lemma RefinedMockShape(verb: string, style: string)
    ensures var r := RefinedMock(verb, style);
      && (ToneOf(style) == Playful ==> |r| == |verb| + 11 && r[|verb|..] == " like crazy")
      && (ToneOf(style) == Pirate ==> |r| == |verb| + 5 && r[|verb|..] == ", arr")
      && (ToneOf(style) == Professional ==> |r| == |verb| + 9 && r[..9] == "Actively ")
      && (ToneOf(style) == Plain ==> r[..|verb|] == verb)
      && ((ToneOf(style) == Playful || ToneOf(style) == Pirate) ==>
            forall j :: 0 <= j < |verb| && verb[j] != r[j] ==> verb[j] == 'g' && r[j] == '\'')
  {
    var r := RefinedMock(verb, style);
    if ToneOf(style) == Playful || ToneOf(style) == Pirate {
      var d := DropG(verb);
      DropGChangesOnlyG(verb);
      assert forall j :: 0 <= j < |verb| ==> r[j] == d[j];
    }
  }

  /** `getAlternativesMock(verb, style)`: three rewrites, whatever the style. */
  function AlternativesMock(verb: string, style: string): (r: seq<string>)
    ensures |r| == 3
    ensures r[0] == verb + " away" && r[1] == "Super " + Lower(verb) && r[2] == verb + " hard"
  {
    [verb + " away", "Super " + Lower(verb), verb + " hard"]
  }

  /** A truthy string: `!v || typeof v !== 'string'` fails. */
  predicate NonEmptyString(v: Option<Json>) {
    v.Some? && v.value.JStr? && v.value.s != ""
  }

  function MockBody(verb: string, style: string): Json {
    JObj(map["refined" := JStr(RefinedMock(verb, style)),
             "alternatives" := JArr(Strings(AlternativesMock(verb, style)))])
  }

  /** The live answer: `{ refined: content.refined, alternatives:
      content.alternatives.slice(0, 3) }`. */
  function LiveAnswer(content: Json): (r: Option<Json>)
    ensures r.Some? ==> r.value.JObj? && "alternatives" in r.value.fields
    ensures r.Some? && r.value.fields["alternatives"].JArr? ==> |r.value.fields["alternatives"].items| <= 3
    ensures r.Some? ==> ("refined" in r.value.fields <==> Get(content, "refined").Some?)
  {
    match Http.SliceOf(content, "alternatives", 3)
    case None => None
    case Some(alternatives) => Some(JObj(Http.Put(map["alternatives" := alternatives], "refined", Get(content, "refined"))))
  }

  /** The handler. `hasApiKey` is whether `OPENAI_API_KEY` is set;
      `upstream` is the model's reply, used only when it is. */
  function Handle(req: Http.EdgeRequest, hasApiKey: bool, upstream: Http.Upstream): (r: Http.Response)
    ensures Http.EdgeGate(req).Some? ==> r == Http.EdgeGate(req).value
    ensures Http.EdgeGate(req).None? && (req.body.None? || req.body == Some(JNull)) ==> r == Http.InternalError
  {
    match Http.EdgeGate(req)
    case Some(answer) => answer
    case None =>
      if req.body.None? || req.body.value == JNull then Http.InternalError
      else
        var body := req.body.value;
        var verb := Get(body, "verb");
        var style := Get(body, "style");
        if !NonEmptyString(verb) then Http.Error(400, "Invalid verb")
        else if !NonEmptyString(style) then Http.Error(400, "Invalid style")
        else if !hasApiKey then Http.Ok(MockBody(verb.value.s, style.value.s))
        else Http.Relay(upstream, "Failed to refine verb", LiveAnswer)
  }

  /** The gating order: preflight first, then 401, then the verb's check,
      then the style's: a body with neither gets "Invalid verb". */
  lemma HandleGating(req: Http.EdgeRequest, hasApiKey: bool, upstream: Http.Upstream)
    ensures req.methodName == "OPTIONS" ==> Handle(req, hasApiKey, upstream) == Http.Preflight
    ensures Handle(req, hasApiKey, upstream).status == 401 <==>
      req.methodName != "OPTIONS" && (req.authorization.None? || req.authorization == Some("") || !req.signedIn)
    ensures Http.IsError(Handle(req, hasApiKey, upstream), 400, "Invalid verb") <==>
      && Http.EdgeGate(req).None? && req.body.Some? && req.body.value != JNull
      && !NonEmptyString(Get(req.body.value, "verb"))
    ensures Http.IsError(Handle(req, hasApiKey, upstream), 400, "Invalid style") <==>
      && Http.EdgeGate(req).None? && req.body.Some? && req.body.value != JNull
      && NonEmptyString(Get(req.body.value, "verb")) && !NonEmptyString(Get(req.body.value, "style"))
  {
  }

  /** Without an API key an accepted request gets the mock rewrite and its
      three alternatives; with one, at most three of the model's
      alternatives, or a 500. */
  lemma AnswerShape(req: Http.EdgeRequest, upstream: Http.Upstream)
    requires Http.EdgeGate(req).None? && req.body.Some? && req.body.value.JObj?
    requires NonEmptyString(Get(req.body.value, "verb")) && NonEmptyString(Get(req.body.value, "style"))
    ensures var verb := req.body.value.fields["verb"].s;
      var style := req.body.value.fields["style"].s;
      Handle(req, false, upstream) == Http.Ok(MockBody(verb, style))
    ensures var r := Handle(req, true, upstream);
      && (upstream.NotOk? ==> r == Http.Error(500, "Failed to refine verb"))
      && (r.status == 200 ==>
            && r.body.JsonBody? && r.body.value.JObj? && "alternatives" in r.body.value.fields
            && (r.body.value.fields["alternatives"].JArr? ==> |r.body.value.fields["alternatives"].items| <= 3))
      && (r.status != 200 ==> r.status == 500)
  {
  }
}

=== FILE: edge_suggest.dfy ===
/** The `suggest-verbs` edge function: preflight and authorization, a check
    that `existingVerbs` is a non-empty array, then a fixed list of
    suggestions without the posted verbs (no model API key) or the model's
    suggestions cut to `count`. */
module EdgeSuggest {
  import opened Wrappers
  import opened Js
  import Seqs
  import Http

  /** `allSuggestions`. */
  const AllSuggestions: seq<string> := [
    "Conjuring", "Manifesting", "Brewing", "Summoning", "Crafting",
    "Weaving", "Channeling", "Invoking", "Orchestrating", "Synthesizing",
    "Calibrating", "Optimizing", "Processing", "Analyzing", "Computing",
    "Transforming", "Evolving", "Expanding", "Connecting", "Harmonizing"
  ]

  /** `count` when the body has none. */
  const DefaultCount := 5

  /** `existingVerbs.includes(s)`: strict equality, so only a string element
      with exactly the same characters counts. */
  predicate Posted(existing: seq<Json>, s: string) {
    JStr(s) in existing
  }

  /** `list.filter(s => !existingVerbs.includes(s)).slice(0, count)`. */
  function Unposted(list: seq<string>, existing: seq<Json>, count: int): (r: seq<string>)
    ensures 0 <= count ==> |r| <= count
    ensures forall i :: 0 <= i < |r| ==> !Posted(existing, r[i])
    ensures Seqs.IsSubseq(r, list)
  {
    var left := Seqs.Filter(list, s => !Posted(existing, s));
    Seqs.FilterIsSubseq(list, s => !Posted(existing, s));
    var r := Take(left, count);
    Seqs.SubseqPrefix(left, list, |r|);
    assert forall i :: 0 <= i < |r| ==> r[i] in left;
    r
  }

  /** Only posted verbs are skipped: an entry of the list that was not
      posted is missing from the answer only when the answer already has
      `count` entries. */
  lemma UnpostedFillsUp(list: seq<string>, existing: seq<Json>, count: nat)
    ensures var r := Unposted(list, existing, count);
      forall i :: (0 <= i < |list| && !Posted(existing, list[i]) && list[i] !in r) ==> |r| == count
  {
    var left := Seqs.Filter(list, s => !Posted(existing, s));
    var r := Unposted(list, existing, count);
    assert r == Take(left, count);
    if |r| < count {
      assert r == left;
    }
  }

  /** `getMockSuggestions(existingVerbs, count)`. */
  function MockSuggest(existing: seq<Json>, count: int): seq<string> {
    Unposted(AllSuggestions, existing, count)
  }

  /** Matching is case-sensitive: a verb posted in lower case does not keep
      its capitalised suggestion out. */
  lemma MatchIsCaseSensitive()
    ensures "Conjuring" in MockSuggest([JStr("conjuring")], 1)
  {
    assert AllSuggestions == ["Conjuring"] + AllSuggestions[1..];
    Seqs.FilterCons("Conjuring", AllSuggestions[1..], s => !Posted([JStr("conjuring")], s));
  }

  /** The body's `existingVerbs`, when it is a non-empty array. */
  predicate ValidExisting(v: Option<Json>) {
    v.Some? && v.value.JArr? && v.value.items != []
  }

  function CountOf(count: Option<Json>): int {
    if count.None? then DefaultCount else SliceArgument(count.value)
  }

  function SuggestionsBody(suggestions: Json): Json {
    JObj(map["suggestions" := suggestions])
  }

  /** The live answer: `{ suggestions: content.suggestions.slice(0, count) }`. */
  function LiveAnswer(content: Json, count: int): (r: Option<Json>)
    ensures r.Some? ==> r.value.JObj? && "suggestions" in r.value.fields
    ensures r.Some? && r.value.fields["suggestions"].JArr? && 0 <= count ==>
      |r.value.fields["suggestions"].items| <= count
  {
    match Http.SliceOf(content, "suggestions", count)
    case None => None
    case Some(v) => Some(SuggestionsBody(v))
  }

  /** The handler. `hasApiKey` is whether `OPENAI_API_KEY` is set;
      `upstream` is the model's reply, used only when it is. */
  function Handle(req: Http.EdgeRequest, hasApiKey: bool, upstream: Http.Upstream): (r: Http.Response)
    ensures Http.EdgeGate(req).Some? ==> r == Http.EdgeGate(req).value
    ensures Http.EdgeGate(req).None? && (req.body.None? || req.body == Some(JNull)) ==> r == Http.InternalError
  {
    match Http.EdgeGate(req)
    case Some(answer) => answer
    case None =>
      if req.body.None? || req.body.value == JNull then Http.InternalError
      else
        var body := req.body.value;
        var existing := Get(body, "existingVerbs");
        if !ValidExisting(existing) then Http.Error(400, "Invalid existing verbs")
        else
          var count := CountOf(Get(body, "count"));
          if !hasApiKey then Http.Ok(SuggestionsBody(JArr(Strings(MockSuggest(existing.value.items, count)))))
          else Http.Relay(upstream, "Failed to suggest verbs", c => LiveAnswer(c, count))
  }

  /** The gating order: preflight first, then 401, then 400 exactly when
      the JSON body's `existingVerbs` is not a non-empty array (its elements
      are not checked). */
  lemma HandleGating(req: Http.EdgeRequest, hasApiKey: bool, upstream: Http.Upstream)
    ensures req.methodName == "OPTIONS" ==> Handle(req, hasApiKey, upstream) == Http.Preflight
    ensures Handle(req, hasApiKey, upstream).status == 401 <==>
      req.methodName != "OPTIONS" && (req.authorization.None? || req.authorization == Some("") || !req.signedIn)
    ensures Handle(req, hasApiKey, upstream).status == 400 <==>
      && Http.EdgeGate(req).None? && req.body.Some? && req.body.value != JNull
      && !ValidExisting(Get(req.body.value, "existingVerbs"))
  {
  }

  /** Without an API key an accepted request gets at most `count` (5 when
      absent) of the fixed suggestions, in their order, none of them posted. */
  lemma MockAnswerShape(req: Http.EdgeRequest, upstream: Http.Upstream)
    requires Http.EdgeGate(req).None? && req.body.Some? && req.body.value.JObj?
    requires ValidExisting(Get(req.body.value, "existingVerbs"))
    ensures var body := req.body.value;
      var existing := body.fields["existingVerbs"].items;
      var count := CountOf(Get(body, "count"));
      var s := MockSuggest(existing, count);
      && Handle(req, false, upstream) == Http.Ok(SuggestionsBody(JArr(Strings(s))))
      && ("count" !in body.fields ==> |s| <= 5)
      && (0 <= count ==> |s| <= count)
      && (forall i :: 0 <= i < |s| ==> JStr(s[i]) !in existing)
      && Seqs.IsSubseq(s, AllSuggestions)
  {
  }

  /** With an API key an accepted request gets the model's suggestions cut
      to `count`; otherwise a 500. */
  lemma LiveAnswerShape(req: Http.EdgeRequest, upstream: Http.Upstream)
    requires Http.EdgeGate(req).None? && req.body.Some? && req.body.value.JObj?
    requires ValidExisting(Get(req.body.value, "existingVerbs"))
    ensures var count := CountOf(Get(req.body.value, "count"));
      var r := Handle(req, true, upstream);
      && (upstream.NotOk? ==> r == Http.Error(500, "Failed to suggest verbs"))
      && (r.status == 200 ==>
            && r.body.JsonBody? && r.body.value.JObj? && "suggestions" in r.body.value.fields
            && (r.body.value.fields["suggestions"].JArr? && 0 <= count ==>
                  |r.body.value.fields["suggestions"].items| <= count))
      && (r.status != 200 ==> r.status == 500)
  {
  }
}

=== FILE: generate_modal.dfy ===
/** The AI generation dialog as a state machine: the prompt guard, the
    request it sends, the selection of generated verbs (a JavaScript `Set`,
    kept here as a duplicate-free sequence in insertion order), select-all,
    apply and reset. The network call is a parameter: the reply. */
module GenerateModal {
  import opened Wrappers
  import opened Js
  import opened Text
  import Seqs
  import Schemas

  datatype Modal = Modal(prompt: string, generating: bool, generated: seq<string>, name: string,
                         selected: seq<string>)

  const Closed := Modal("", false, [], "", [])

  /** The count the dialog always asks for. */
  const RequestedCount := 50

  /** The JSON body `handleGenerate` posts. */
  function RequestBody(prompt: string): (r: Json)
    ensures r.JObj? && r.fields.Keys == {"prompt", "count"}
    ensures r.fields["prompt"] == JStr(Trim(prompt)) && r.fields["count"] == JNum(RequestedCount as real)
  {
    JObj(map["prompt" := JStr(Trim(prompt)), "count" := JNum(RequestedCount as real)])
  }

  /** The first half of `handleGenerate`: a blank prompt sends nothing;
      otherwise the dialog clears its verbs and selection, shows progress,
      and sends the request. */
  function StartGenerate(m: Modal): (r: (Modal, Option<Json>))
    ensures Trim(m.prompt) == [] ==> r == (m, None)
    ensures Trim(m.prompt) != [] ==>
      && r.1 == Some(RequestBody(m.prompt))
      && r.0 == m.(generating := true, generated := [], selected := [])
  {
    if Trim(m.prompt) == [] then (m, None)
    else (m.(generating := true, generated := [], selected := []), Some(RequestBody(m.prompt)))
  }

  /** What comes back: the generated verbs and name, or an error (a non-OK
      status or a network failure). */
  datatype Reply = Generated(verbs: seq<string>, name: string) | GenerationFailed

  /** The second half of `handleGenerate`: on success every generated verb is
      selected (`new Set(data.verbs)`); either way progress ends. */
  function FinishGenerate(m: Modal, reply: Reply): (r: Modal)
    ensures !r.generating && r.prompt == m.prompt
    ensures reply.GenerationFailed? ==> r == m.(generating := false)
  {
    match reply
    case Generated(verbs, name) => m.(generating := false, generated := verbs, name := name, selected := Seqs.Dedup(verbs))
    case GenerationFailed => m.(generating := false)
  }

  /** After a successful generation every generated verb is selected, and
      nothing else is. */
  lemma GeneratedAllSelected(m: Modal, verbs: seq<string>, name: string)
    ensures var r := FinishGenerate(m, Generated(verbs, name));
      && r.generated == verbs
      && (forall i :: 0 <= i < |verbs| ==> verbs[i] in r.selected)
      && (forall i :: 0 <= i < |r.selected| ==> r.selected[i] in verbs)
      && Seqs.NoDuplicates(r.selected)
  {
  }

  /** A blank prompt sends no request and leaves the dialog as it was. */
  lemma BlankPromptSendsNothing(m: Modal)
    requires AllSpace(m.prompt)
    ensures StartGenerate(m) == (m, None)
  {
  }

  /** The request passes the generate route's schema exactly when the trimmed
      prompt has 5 to 500 UTF-16 code units: a prompt of 1 to 4 visible characters
      gets past the dialog's guard and is then rejected by the route. */
  lemma RequestMeetsSchema(prompt: string)
    requires Trim(prompt) != []
    ensures Schemas.ParseGenerate(RequestBody(prompt)).Valid? <==> 5 <= Utf16Length(Trim(prompt)) <= 500
    ensures Schemas.ParseGenerate(RequestBody(prompt)).Valid? ==>
      Schemas.ParseGenerate(RequestBody(prompt)).value == Schemas.GenerateRequest(Trim(prompt), 50)
  {
    Schemas.GenerateSchemaIff(RequestBody(prompt));
    assert IsInteger(50.0);
  }

  /** `selected` without `verb`, order kept. */
  function Without(selected: seq<string>, verb: string): (r: seq<string>)
    ensures verb !in r
    ensures forall x :: x != verb ==> (x in r <==> x in selected)
  {
    Seqs.Filter(selected, x => x != verb)
  }

  /** `toggleVerb(verb)`: delete it when selected, otherwise add it at the end. */
  function Toggle(selected: seq<string>, verb: string): (r: seq<string>)
    ensures verb in selected ==> r == Without(selected, verb)
    ensures verb !in selected ==> r == selected + [verb]
  {
    if verb in selected then Without(selected, verb) else selected + [verb]
  }

  /** Toggling flips the membership of exactly one verb and keeps the
      selection duplicate-free. */
  lemma ToggleFlipsOne(selected: seq<string>, verb: string)
    requires Seqs.NoDuplicates(selected)
    ensures forall x :: x in Toggle(selected, verb) <==> (if x == verb then verb !in selected else x in selected)
    ensures Seqs.NoDuplicates(Toggle(selected, verb))
  {
    if verb in selected {
      FilterNoDuplicates(selected, x => x != verb);
    }
  }

  /** Toggling the same verb twice gives back the same set; when the verb was
      not selected, the very same sequence. */
  lemma ToggleTwice(selected: seq<string>, verb: string)
    requires Seqs.NoDuplicates(selected)
    ensures forall x :: x in Toggle(Toggle(selected, verb), verb) <==> x in selected
    ensures verb !in selected ==> Toggle(Toggle(selected, verb), verb) == selected
  {
    ToggleFlipsOne(selected, verb);
    ToggleFlipsOne(Toggle(selected, verb), verb);
    if verb !in selected {
      var t := selected + [verb];
      Seqs.FilterAppend(selected, [verb], x => x != verb);
      Seqs.FilterKeepsAll(selected, x => x != verb);
      assert Seqs.Filter([verb], x => x != verb) == [] by {
        assert [verb][1..] == [];
      }
      assert Without(t, verb) == selected + [];
    }
  }

  /** A filter of a duplicate-free sequence is duplicate-free. */
  lemma {:induction false} FilterNoDuplicates(s: seq<string>, keep: string -> bool)
    requires Seqs.NoDuplicates(s)
    ensures Seqs.NoDuplicates(Seqs.Filter(s, keep))
  {
    if s != [] {
      assert Seqs.NoDuplicates(s[1..]) by {
        forall i, j | 0 <= i < j < |s[1..]| ensures s[1..][i] != s[1..][j] {
          assert s[1..][i] == s[i + 1] && s[1..][j] == s[j + 1];
        }
      }
      FilterNoDuplicates(s[1..], keep);
      Seqs.FilterCons(s[0], s[1..], keep);
      assert [s[0]] + s[1..] == s;
      var rest := Seqs.Filter(s[1..], keep);
      assert s[0] !in s[1..];
      assert s[0] !in rest;
    }
  }

  /** The select-all button (also the deselect-all button). */
  function SelectAll(m: Modal): (r: Modal)
    ensures r == m.(selected := r.selected)
    ensures |m.selected| == |m.generated| ==> r.selected == []
    ensures |m.selected| != |m.generated| ==> r.selected == Seqs.Dedup(m.generated)
  {
    if |m.selected| == |m.generated| then m.(selected := []) else m.(selected := Seqs.Dedup(m.generated))
  }

  /** Elements of a duplicate-free sequence, counted as a set. */
  lemma {:induction false} DistinctCount(s: seq<string>)
    requires Seqs.NoDuplicates(s)
    ensures |set x | x in s| == |s|
  {
    if s != [] {
      var init := s[..|s| - 1];
      assert Seqs.NoDuplicates(init);
      DistinctCount(init);
      assert (set x | x in s) == (set x | x in init) + {s[|s| - 1]} by {
        assert s == init + [s[|s| - 1]];
      }
      assert s[|s| - 1] !in init;
    }
  }

  /** With duplicate-free generated verbs and a selection drawn from them,
      comparing sizes is comparing with "everything selected": the button
      clears a full selection and fills any other. */
  lemma SelectAllIsAllOrNothing(m: Modal)
    requires Seqs.NoDuplicates(m.generated) && Seqs.NoDuplicates(m.selected)
    requires forall i :: 0 <= i < |m.selected| ==> m.selected[i] in m.generated
    ensures |m.selected| == |m.generated| <==> forall i :: 0 <= i < |m.generated| ==> m.generated[i] in m.selected
    ensures var r := SelectAll(m).selected;
      (forall i :: 0 <= i < |m.generated| ==> m.generated[i] in m.selected) ==> r == []
    ensures var r := SelectAll(m).selected;
      !(forall i :: 0 <= i < |m.generated| ==> m.generated[i] in m.selected) ==> r == m.generated
  {
    var sel := set x | x in m.selected;
    var gen := set x | x in m.generated;
    DistinctCount(m.selected);
    DistinctCount(m.generated);
    assert sel <= gen;
    if |m.selected| == |m.generated| {
      assert gen == sel + (gen - sel);
      assert sel * (gen - sel) == {};
      assert |gen - sel| == 0;
      forall i | 0 <= i < |m.generated| ensures m.generated[i] in m.selected {
        assert m.generated[i] in gen;
        assert m.generated[i] !in gen - sel;
      }
    }
    if forall i :: 0 <= i < |m.generated| ==> m.generated[i] in m.selected {
      assert gen <= sel;
      assert sel == gen;
    }
  }

  /** `handleApply`: hands the selection, in insertion order, and the name to
      the caller, then `resetState` clears prompt, verbs, name and selection. */
  function Apply(m: Modal): (r: (seq<string>, string, Modal))
    ensures r.0 == m.selected && r.1 == m.name
    ensures r.2 == Reset(m)
  {
    (m.selected, m.name, Reset(m))
  }

  /** `resetState`; the progress flag is not part of it. */
  function Reset(m: Modal): (r: Modal)
    ensures r.prompt == [] && r.generated == [] && r.name == [] && r.selected == []
    ensures r.generating == m.generating
  {
    Modal("", m.generating, [], "", [])
  }

  /** "Try Again": back to the prompt, which is kept. */
  function TryAgain(m: Modal): (r: Modal)
    ensures r.prompt == m.prompt && r.name == m.name && r.generated == [] && r.selected == []
    ensures r.generating == m.generating
  {
    m.(generated := [], selected := [])
  }

  /** The prompt survives "Try Again" so that it can be sent again: generating
      from there sends the same request, and ends in the same state, as
      generating straight away. */
  lemma TryAgainResends(m: Modal)
    ensures StartGenerate(TryAgain(m)).1 == StartGenerate(m).1
    ensures Trim(m.prompt) != [] ==> StartGenerate(TryAgain(m)) == StartGenerate(m)
  {
  }

  /** Applying twice hands over nothing the second time. */
  lemma ApplyThenApply(m: Modal)
    ensures Apply(Apply(m).2).0 == [] && Apply(Apply(m).2).2 == Apply(m).2
  {
  }
}

=== FILE: generate_route.dfy ===
/** The web app's theme-generation route (`POST /api/ai/generate`): sign-in,
    then the shared generate schema, then either a canned theme chosen by
    keywords in the prompt (no model API key) or the model's theme with its
    verbs cut to `count`. */
module GenerateRoute {
  import opened Wrappers
  import opened Js
  import opened Text
  import Schemas
  import Http
  import Dispatch
  import GenerateModal

  const PirateTheme := Http.Theme(
    "Pirate's Treasure", "Set sail for adventure with these swashbuckling verbs!",
    [ "Plunderin'", "Swashbucklin'", "Sailing", "Hoisting", "Anchoring", "Navigating", "Charting",
      "Commandeering", "Pillaging", "Boarding", "Mutinying", "Treasure Hunting", "Yo-ho-ing",
      "Parleying", "Keelhauling", "Shanty Singing", "Rum Running", "Map Reading", "Sword Fighting",
      "Gold Counting" ],
    ["pirate", "fantasy", "funny"])

  const SpaceTheme := Http.Theme(
    "Cosmic Explorer", "Explore the final frontier with these stellar verbs!",
    [ "Launching", "Orbiting", "Terraforming", "Warping", "Docking", "Scanning", "Navigating",
      "Transmitting", "Calibrating", "Engaging", "Hyperjumping", "Beaming", "Probing", "Analyzing",
      "Calculating", "Exploring", "Discovering", "Mapping", "Communicating", "Decoding" ],
    ["space", "sci-fi", "tech"])

  const ZenTheme := Http.Theme(
    "Zen Garden", "Find your inner peace with these calming verbs.",
    [ "Breathing", "Meditating", "Centering", "Flowing", "Balancing", "Harmonizing", "Grounding",
      "Releasing", "Embracing", "Reflecting", "Contemplating", "Awakening", "Nurturing",
      "Accepting", "Surrendering", "Aligning", "Listening", "Being", "Becoming", "Transcending" ],
    ["zen", "minimalist", "nature"])

  const CoffeeTheme := Http.Theme(
    "Coffee Culture", "Fuel your code with these caffeinated verbs!",
    [ "Brewing", "Grinding", "Steaming", "Pouring", "Sipping", "Roasting", "Extracting",
      "Frothing", "Tamping", "Pulling", "Dripping", "Percolating", "Espressoing", "Latte Art-ing",
      "Caffeinating", "Bean Counting", "Cupping", "Blending", "Filtering", "Awakening" ],
    ["food", "funny", "professional"])

  /** The default, for prompts that mention none of the themes. */
  const CreativeTheme := Http.Theme(
    "Creative Flow", "A versatile collection of creative action verbs.",
    [ "Creating", "Building", "Designing", "Crafting", "Imagining", "Exploring", "Discovering",
      "Learning", "Growing", "Transforming", "Connecting", "Inspiring", "Dreaming", "Manifesting",
      "Evolving", "Innovating", "Orchestrating", "Synthesizing", "Channeling", "Weaving" ],
    ["professional", "minimalist"])

  const PirateWords: seq<string> := ["pirate", "treasure"]
  const SpaceWords: seq<string> := ["space", "sci-fi"]
  const ZenWords: seq<string> := ["zen", "meditation"]
  const CoffeeWords: seq<string> := ["coffee"]

  /** The `if` chain of `mockGenerateTheme`, in order. */
  const Rules: seq<Dispatch.Rule<Http.Theme>> := [
    Dispatch.Rule(PirateWords, PirateTheme),
    Dispatch.Rule(SpaceWords, SpaceTheme),
    Dispatch.Rule(ZenWords, ZenTheme),
    Dispatch.Rule(CoffeeWords, CoffeeTheme)
  ]

  /** Every theme the mock can answer with. */
  const CannedThemes: seq<Http.Theme> := [PirateTheme, SpaceTheme, ZenTheme, CoffeeTheme, CreativeTheme]

  /** The canned theme for a prompt, read from its lower-cased text. */
  function Chosen(prompt: string): Http.Theme {
    Dispatch.FirstMatch(Lower(prompt), Rules, CreativeTheme)
  }

  /** The theme is chosen by the first keyword group in the lower-cased
      prompt: pirate/treasure, then space/sci-fi, then zen/meditation, then
      coffee, else Creative Flow. */
  lemma ChosenByKeyword(prompt: string)
    ensures var p := Lower(prompt);
      && (Dispatch.Mentions(p, PirateWords) ==> Chosen(prompt) == PirateTheme)
      && (!Dispatch.Mentions(p, PirateWords) && Dispatch.Mentions(p, SpaceWords) ==> Chosen(prompt) == SpaceTheme)
      && ((!Dispatch.Mentions(p, PirateWords) && !Dispatch.Mentions(p, SpaceWords) && Dispatch.Mentions(p, ZenWords)) ==>
            Chosen(prompt) == ZenTheme)
      && ((!Dispatch.Mentions(p, PirateWords) && !Dispatch.Mentions(p, SpaceWords) && !Dispatch.Mentions(p, ZenWords)
           && Dispatch.Mentions(p, CoffeeWords)) ==> Chosen(prompt) == CoffeeTheme)
      && ((!Dispatch.Mentions(p, PirateWords) && !Dispatch.Mentions(p, SpaceWords) && !Dispatch.Mentions(p, ZenWords)
           && !Dispatch.Mentions(p, CoffeeWords)) ==> Chosen(prompt) == CreativeTheme)
  {
    var p := Lower(prompt);
    assert Dispatch.NoneBefore(p, Rules, 0);
    assert !Dispatch.Mentions(p, PirateWords) ==> Dispatch.NoneBefore(p, Rules, 1);
    assert !Dispatch.Mentions(p, PirateWords) && !Dispatch.Mentions(p, SpaceWords) ==> Dispatch.NoneBefore(p, Rules, 2);
    assert !Dispatch.Mentions(p, PirateWords) && !Dispatch.Mentions(p, SpaceWords) && !Dispatch.Mentions(p, ZenWords) ==>
      Dispatch.NoneBefore(p, Rules, 3);
    assert (!Dispatch.Mentions(p, PirateWords) && !Dispatch.Mentions(p, SpaceWords) && !Dispatch.Mentions(p, ZenWords)
            && !Dispatch.Mentions(p, CoffeeWords)) ==> Dispatch.NoneBefore(p, Rules, 4);
  }

  /** Whatever the prompt, the answer is one of the five canned themes. */
  lemma ChosenIsCanned(prompt: string)
    ensures Chosen(prompt) in CannedThemes
  {
    Dispatch.FirstMatchIsFiring(Lower(prompt), Rules, CreativeTheme);
  }

  /** Every canned theme has 20 verbs and tags from the shared tag list. */
  lemma CannedThemesWellFormed()
    ensures forall t :: t in CannedThemes ==>
      |t.verbs| == 20 && forall i :: 0 <= i < |t.tags| ==> t.tags[i] in Schemas.ThemeTags
  {
  }

  /** `mockGenerateTheme(prompt, count)`: the chosen theme with its verbs
      cut by `slice(0, count)`. */
  function MockGenerate(prompt: string, count: int): (r: Http.Theme)
    ensures r.name == Chosen(prompt).name && r.description == Chosen(prompt).description
    ensures r.tags == Chosen(prompt).tags
    ensures |r.verbs| <= |Chosen(prompt).verbs| && r.verbs == Chosen(prompt).verbs[..|r.verbs|]
    ensures 0 <= count ==> |r.verbs| == if count < |Chosen(prompt).verbs| then count else |Chosen(prompt).verbs|
  {
    var t := Chosen(prompt);
    t.(verbs := Take(t.verbs, count))
  }

  /** The mock answers with the first `min(count, 20)` verbs of a canned
      theme, and only with tags from the shared tag list. */
  lemma MockGenerateShape(prompt: string, count: nat)
    ensures var r := MockGenerate(prompt, count);
      && |r.verbs| == (if count < 20 then count else 20)
      && (forall i :: 0 <= i < |r.tags| ==> r.tags[i] in Schemas.ThemeTags)
  {
    ChosenIsCanned(prompt);
    CannedThemesWellFormed();
  }

  /** The route handler. `hasApiKey` is whether `OPENAI_API_KEY` is set;
      `upstream` is the model's reply, used only when it is. */
  function Post(req: Http.RouteRequest, hasApiKey: bool, upstream: Http.Upstream): (r: Http.Response)
    ensures !req.signedIn ==> r == Http.Error(401, "Unauthorized")
    ensures req.signedIn && req.body.None? ==> r == Http.InternalError
    ensures req.signedIn && req.body.Some? && Schemas.ParseGenerate(req.body.value).Invalid? ==>
      r == Http.InvalidRequest(Schemas.IssuesOf(Schemas.ParseGenerate(req.body.value)))
    ensures req.signedIn && req.body.Some? && Schemas.ParseGenerate(req.body.value).Valid? && !hasApiKey ==>
      var q := Schemas.ParseGenerate(req.body.value).value;
      r == Http.Ok(Http.ThemeJson(MockGenerate(q.prompt, q.count)))
  {
    if !req.signedIn then Http.Error(401, "Unauthorized")
    else if req.body.None? then Http.InternalError
    else
      match Schemas.ParseGenerate(req.body.value)
      case Invalid(first, rest) => Http.InvalidRequest([first] + rest)
      case Valid(q) =>
        if !hasApiKey then Http.Ok(Http.ThemeJson(MockGenerate(q.prompt, q.count)))
        else Http.Relay(upstream, "Failed to generate theme", c => Http.LiveTheme(c, q.count))
  }

  /** The gating order as seen from outside: 401 exactly for a missing user;
      400 exactly for a signed-in JSON body without a prompt of 5 to 500 UTF-16
      code units or with a count that is not an integer in 5..50. */
  lemma PostGating(req: Http.RouteRequest, hasApiKey: bool, upstream: Http.Upstream)
    ensures Post(req, hasApiKey, upstream).status == 401 <==> !req.signedIn
    ensures Post(req, hasApiKey, upstream).status == 400 <==>
      && req.signedIn && req.body.Some?
      && !(var body := req.body.value;
           && body.JObj?
           && "prompt" in body.fields && body.fields["prompt"].JStr? && 5 <= Utf16Length(body.fields["prompt"].s) <= 500
           && ("count" in body.fields ==>
                 body.fields["count"].JNum? && IsInteger(body.fields["count"].n)
                 && 5.0 <= body.fields["count"].n <= 50.0))
  {
    if req.signedIn && req.body.Some? {
      Schemas.GenerateSchemaIff(req.body.value);
    }
  }

  /** Without an API key an accepted request gets a canned theme with
      `count` verbs, at most 20; with no count in the body the schema's
      default applies, so 15 verbs (the handler's own default of 50 is never
      used). */
  lemma MockAnswerShape(req: Http.RouteRequest, upstream: Http.Upstream)
    requires req.signedIn && req.body.Some? && Schemas.ParseGenerate(req.body.value).Valid?
    ensures var body := req.body.value;
      var q := Schemas.ParseGenerate(body).value;
      var t := MockGenerate(q.prompt, q.count);
      && Post(req, false, upstream) == Http.Ok(Http.ThemeJson(t))
      && q.prompt == body.fields["prompt"].s
      && |t.verbs| == (if q.count < 20 then q.count else 20)
      && 5 <= |t.verbs| <= 20
      && ("count" !in body.fields ==> |t.verbs| == 15)
      && (forall i :: 0 <= i < |t.tags| ==> t.tags[i] in Schemas.ThemeTags)
  {
    Schemas.GenerateSchemaIff(req.body.value);
    var q := Schemas.ParseGenerate(req.body.value).value;
    MockGenerateShape(q.prompt, q.count);
  }

  /** With an API key an accepted request gets the model's theme with at
      most `count` verbs, a non-OK reply gets "Failed to generate theme",
      and a reply without sliceable `verbs` the internal error. */
  lemma LiveAnswerShape(req: Http.RouteRequest, upstream: Http.Upstream)
    requires req.signedIn && req.body.Some? && Schemas.ParseGenerate(req.body.value).Valid?
    ensures var q := Schemas.ParseGenerate(req.body.value).value;
      var r := Post(req, true, upstream);
      && (upstream.NotOk? ==> r == Http.Error(500, "Failed to generate theme"))
      && (r.status == 200 ==>
            && upstream.Content? && upstream.content.Some?
            && r.body.JsonBody? && r.body.value.JObj? && "verbs" in r.body.value.fields
            && (r.body.value.fields["verbs"].JArr? ==> |r.body.value.fields["verbs"].items| <= q.count))
      && (r.status != 200 ==> r.status == 500)
  {
    Schemas.GenerateSchemaIff(req.body.value);
  }

  /** What the generation dialog's request gets back from this route
      without an API key: for a trimmed prompt of 5 to 500 UTF-16 code units, the
      canned theme for that prompt with all 20 of its verbs (the dialog asks
      for 50). */
  lemma DialogRequestGetsTwenty(prompt: string, upstream: Http.Upstream)
    requires 5 <= Utf16Length(Trim(prompt)) <= 500
    ensures var r := Post(Http.RouteRequest(true, Some(GenerateModal.RequestBody(prompt))), false, upstream);
      r == Http.Ok(Http.ThemeJson(Chosen(Trim(prompt)))) && |Chosen(Trim(prompt)).verbs| == 20
  {
    GenerateModal.RequestMeetsSchema(prompt);
    ChosenIsCanned(Trim(prompt));
    CannedThemesWellFormed();
    var t := Chosen(Trim(prompt));
    assert Take(t.verbs, 50) == t.verbs;
    assert MockGenerate(Trim(prompt), 50) == t;
  }
}

=== FILE: http.dfy ===
/** What the AI routes and edge functions answer, and the request handling
    they share: error bodies, the validation-error body, the preflight
    answer and authorization gate of the edge functions, and the upstream
    model call, which is an input here (its reply), not a computation. */
module Http {
  import opened Wrappers
  import opened Js
  import Schemas

  /** A response body: JSON, or plain text (the preflight's "ok"). */
  datatype Body = JsonBody(value: Json) | TextBody(text: string)

  /** Status and body. CORS and content-type headers are not represented. */
  datatype Response = Response(status: int, body: Body)

  /** A JSON response with the default status 200. */
  function Ok(value: Json): (r: Response)
    ensures r.status == 200 && r.body == JsonBody(value)
  {
    Response(200, JsonBody(value))
  }

  /** `{ error: message }` with the given status. */
  function Error(status: int, message: string): (r: Response)
    ensures IsError(r, status, message)
  {
    Response(status, JsonBody(JObj(map["error" := JStr(message)])))
  }

  predicate IsError(r: Response, status: int, message: string) {
    r.status == status && r.body.JsonBody? && Get(r.body.value, "error") == Some(JStr(message))
  }

  /** What every handler's `catch` answers. */
  const InternalError := Error(500, "Internal server error")

  /** The name zod reports for an issue code; a failed `.int()` is reported
      as a type error (an integer expected, a float received). */
  function CodeName(c: Schemas.Code): string {
    match c
    case InvalidType => "invalid_type"
    case TooSmall => "too_small"
    case TooBig => "too_big"
    case InvalidString => "invalid_string"
    case Custom => "custom"
    case InvalidEnumValue => "invalid_enum_value"
    case NotInteger => "invalid_type"
  }

  function StepJson(s: Schemas.Step): Json {
    match s
    case Key(k) => JStr(k)
    case Index(i) => JNum(i as real)
  }

  /** One element of `error.errors`: its code and path (messages are not
      represented). */
  function IssueJson(i: Schemas.Issue): (r: Json)
    ensures r.JObj? && r.fields.Keys == {"code", "path"}
    ensures r.fields["path"].JArr? && |r.fields["path"].items| == |i.path|
  {
    JObj(map["code" := JStr(CodeName(i.code)),
             "path" := JArr(seq(|i.path|, k requires 0 <= k < |i.path| => StepJson(i.path[k])))])
  }

  /** The 400 answer to a body the schema rejects:
      `{ error: 'Invalid request', details: result.error.errors }`. */
  function InvalidRequest(issues: seq<Schemas.Issue>): (r: Response)
    ensures IsError(r, 400, "Invalid request")
    ensures Get(r.body.value, "details").Some? && Get(r.body.value, "details").value.JArr?
    ensures |Get(r.body.value, "details").value.items| == |issues|
  {
    var details := seq(|issues|, k requires 0 <= k < |issues| => IssueJson(issues[k]));
    Response(400, JsonBody(JObj(map["error" := JStr("Invalid request"), "details" := JArr(details)])))
  }

  /** The model call: the fetch failed (it throws), the reply was not OK, or
      the reply's message content parsed to a JSON value. `Content(None)` is
      a reply without `choices[0].message.content` or with content that is
      not JSON: reading or parsing it throws. */
  datatype Upstream = Unreachable | NotOk | Content(content: Option<Json>)

  /** The live path: the handler turns the parsed content into the answer
      (`None` where it throws), a non-OK reply gets `failure` with status
      500, and whatever throws gets the internal error. */
  function Relay(upstream: Upstream, failure: string, answer: Json -> Option<Json>): (r: Response)
    ensures upstream.NotOk? ==> r == Error(500, failure)
    ensures upstream.Unreachable? || upstream == Content(None) ==> r == InternalError
    ensures r.status == 200 <==> upstream.Content? && upstream.content.Some? && answer(upstream.content.value).Some?
    ensures r.status == 200 ==> r == Ok(answer(upstream.content.value).value)
  {
    match upstream
    case Unreachable => InternalError
    case NotOk => Error(500, failure)
    case Content(None) => InternalError
    case Content(Some(c)) =>
      match answer(c)
      case None => InternalError
      case Some(body) => Ok(body)
  }

  /** `content.key.slice(0, end)`: arrays and strings are sliced; reading the
      key of `null`, or calling `slice` on anything else (`undefined`
      included), throws. */
  function SliceOf(content: Json, key: string, end: int): (r: Option<Json>)
    ensures r.Some? <==> content != JNull && Get(content, key).Some? && (Get(content, key).value.JArr? || Get(content, key).value.JStr?)
    ensures r.Some? && Get(content, key).value.JArr? ==>
      r.value.JArr? && r.value.items == Take(Get(content, key).value.items, end)
    ensures r.Some? && Get(content, key).value.JStr? ==>
      r.value.JStr? && r.value.s == Take(Get(content, key).value.s, end)
  {
    match OptGet(Some(content), key)
    case Some(JArr(items)) => Some(JArr(Take(items, end)))
    case Some(JStr(s)) => Some(JStr(Take(s, end)))
    case _ => None
  }

  /** An object literal's property after `JSON.stringify`: an `undefined`
      value leaves the key out. */
  function Put(m: map<string, Json>, key: string, v: Option<Json>): (r: map<string, Json>)
    ensures key in r <==> key in m || v.Some?
    ensures v.Some? ==> r[key] == v.value
    ensures forall k :: k in m && k != key ==> k in r && r[k] == m[k]
    ensures forall k :: k in r && k != key ==> k in m
  {
    if v.Some? then m[key := v.value] else m
  }

  /** The theme object the generators answer with. */
  datatype Theme = Theme(name: string, description: string, verbs: seq<string>, tags: seq<string>)

  function ThemeJson(t: Theme): (r: Json)
    ensures r.JObj? && r.fields.Keys == {"name", "description", "verbs", "tags"}
    ensures r.fields["verbs"] == JArr(Strings(t.verbs)) && r.fields["tags"] == JArr(Strings(t.tags))
    ensures r.fields["name"] == JStr(t.name) && r.fields["description"] == JStr(t.description)
  {
    JObj(map["name" := JStr(t.name), "description" := JStr(t.description),
             "verbs" := JArr(Strings(t.verbs)), "tags" := JArr(Strings(t.tags))])
  }

  /** The generators' live answer, `{ name: content.name, description:
      content.description, verbs: content.verbs.slice(0, count), tags:
      content.tags }`: name, description and tags as the model gave them
      (left out when undefined), the verbs cut to `count`. */
  function LiveTheme(content: Json, count: int): (r: Option<Json>)
    ensures r.Some? <==> SliceOf(content, "verbs", count).Some?
    ensures r.Some? ==> r.value.JObj? && "verbs" in r.value.fields && r.value.fields["verbs"] == SliceOf(content, "verbs", count).value
    ensures r.Some? && r.value.fields["verbs"].JArr? && 0 <= count ==> |r.value.fields["verbs"].items| <= count
    ensures r.Some? ==> forall k :: k in {"name", "description", "tags"} ==> (k in r.value.fields <==> Get(content, k).Some?)
  {
    match SliceOf(content, "verbs", count)
    case None => None
    case Some(verbs) =>
      var m := Put(Put(map[], "name", Get(content, "name")), "description", Get(content, "description"));
      Some(JObj(Put(m["verbs" := verbs], "tags", Get(content, "tags"))))
  }

  /** A request to one of the web API routes: whether the session has a
      user, and the body (`None` when it is not JSON: `request.json()`
      throws). */
  datatype RouteRequest = RouteRequest(signedIn: bool, body: Option<Json>)

  /** A request to an edge function: its HTTP method, its `Authorization`
      header, whether the user lookup with that header found a user without
      error, and the body (`None` when it is not JSON: `req.json()` throws). */
  datatype EdgeRequest = EdgeRequest(methodName: string, authorization: Option<string>, signedIn: bool, body: Option<Json>)

  /** The CORS preflight answer. */
  const Preflight := Response(200, TextBody("ok"))

  /** The part every edge function shares: a preflight is answered before
      anything else, then a missing (or empty) header and then a failed user
      lookup get 401. `None` means the request may proceed. */
  function EdgeGate(req: EdgeRequest): (r: Option<Response>)
    ensures req.methodName == "OPTIONS" ==> r == Some(Preflight)
    ensures req.methodName != "OPTIONS" && (req.authorization.None? || req.authorization == Some("")) ==>
      r == Some(Error(401, "Missing authorization header"))
    ensures req.methodName != "OPTIONS" && req.authorization.Some? && req.authorization != Some("") && !req.signedIn ==>
      r == Some(Error(401, "Unauthorized"))
    ensures r.None? <==> req.methodName != "OPTIONS" && req.authorization.Some? && req.authorization != Some("") && req.signedIn
  {
    if req.methodName == "OPTIONS" then Some(Preflight)
    else if req.authorization.None? || req.authorization == Some("") then Some(Error(401, "Missing authorization header"))
    else if !req.signedIn then Some(Error(401, "Unauthorized"))
    else None
  }

  /** `const { key } = body`: destructuring `null` throws (`None`), any other
      value yields the property or `undefined` (`Some(None)`). */
  function Destructure(body: Json, key: string): (r: Option<Option<Json>>)
    ensures body == JNull <==> r.None?
    ensures body.JObj? ==> r == Some(if key in body.fields then Some(body.fields[key]) else None)
  {
    if body == JNull then None else Some(Get(body, key))
  }
}

=== FILE: install.dfy ===
/** `verbvault install <slug> [--force]`: fetch the theme, read the
    settings, stop at the conflict gate unless forced, replace the active
    verbs under `spinnerVerbs`, upsert the installed-theme record under
    `_verbvault.installedThemes`, and write the document back once.

    JavaScript's TypeErrors are kept: a truthy non-object `spinnerVerbs`
    cannot take the `mode` property (ES modules run in strict mode), and the
    record list must be an array whose entries are not `null`. */
module Install {
  import opened Wrappers
  import opened Js
  import opened SettingsStore
  import opened SettingsDoc
  import Seqs
  import Catalog

  /** `settings.spinnerVerbs?.verbs && settings.spinnerVerbs.verbs.length > 0`. */
  predicate HasExistingVerbs(doc: Doc) {
    match OptGet(Lookup(doc, "spinnerVerbs"), "verbs")
    case Some(v) => Truthy(v) && LengthIsPositive(v)
    case None => false
  }

  /** `spinnerVerbs` is a truthy value that is neither an object nor an
      array: `true`, a non-zero number, or a non-empty string. */
  predicate SpinnerVerbsIsPrimitive(doc: Doc) {
    "spinnerVerbs" in doc && Truthy(doc["spinnerVerbs"])
      && !doc["spinnerVerbs"].JObj? && !doc["spinnerVerbs"].JArr?
  }

  /** `spinnerVerbs` is an array: the assignments to `mode` and `verbs`
      succeed, but `JSON.stringify` writes only the array's elements. */
  predicate SpinnerVerbsIsArray(doc: Doc) {
    "spinnerVerbs" in doc && doc["spinnerVerbs"].JArr?
  }

  /** The members `spinnerVerbs` already had, when it was an object. */
  function PriorSpinnerVerbs(doc: Doc): map<string, Json> {
    match Lookup(doc, "spinnerVerbs")
    case Some(JObj(m)) => m
    case _ => map[]
  }

  /** An object whose `mode` is "replace" and whose `verbs` are exactly `verbs`. */
  predicate ReplaceMode(v: Json, verbs: seq<string>) {
    && v.JObj?
    && "mode" in v.fields && v.fields["mode"] == JStr("replace")
    && "verbs" in v.fields && v.fields["verbs"] == JArr(Strings(verbs))
  }

  const ModeOnPrimitiveMessage := "Cannot create property 'mode' on a primitive value"
  const NoListMessage := "Cannot read properties of undefined (reading 'filter')"
  const NotArrayMessage := "installedThemes.filter is not a function"
  const NullRecordMessage := "Cannot read properties of null (reading 'slug')"

  /** `settings.spinnerVerbs = settings.spinnerVerbs || {}`, then
      `spinnerVerbs.mode = 'replace'` and `spinnerVerbs.verbs = verbs`. */
  function ReplaceVerbs(doc: Doc, verbs: seq<string>): (r: Result<Doc>)
    ensures r.Failure? <==> SpinnerVerbsIsPrimitive(doc)
    ensures r.Success? ==> r.value.Keys == doc.Keys + {"spinnerVerbs"}
    ensures r.Success? ==> forall k :: k in doc && k != "spinnerVerbs" ==> r.value[k] == doc[k]
    ensures r.Success? && !SpinnerVerbsIsArray(doc) ==>
      var v := r.value["spinnerVerbs"];
      && ReplaceMode(v, verbs)
      && v.fields.Keys == PriorSpinnerVerbs(doc).Keys + {"mode", "verbs"}
      && forall k :: k in PriorSpinnerVerbs(doc) && k != "mode" && k != "verbs" ==>
           v.fields[k] == PriorSpinnerVerbs(doc)[k]
    ensures r.Success? && SpinnerVerbsIsArray(doc) ==> r.value == doc
  {
    match Or(Lookup(doc, "spinnerVerbs"), JObj(map[]))
    case JObj(m) =>
      Success(doc["spinnerVerbs" := JObj(m["mode" := JStr("replace")]["verbs" := JArr(Strings(verbs))])])
    case JArr(a) =>
      assert doc["spinnerVerbs" := JArr(a)] == doc;
      Success(doc)
    case _ => Failure(ModeOnPrimitiveMessage)
  }

  const EmptyVerbvault := JObj(map["installedThemes" := JArr([])])

  /** `settings._verbvault || { installedThemes: [] }`. */
  function Verbvault(doc: Doc): Json {
    Or(Lookup(doc, "_verbvault"), EmptyVerbvault)
  }

  /** `installedThemes` is present and is an array, so `.filter` can run. */
  predicate HasRecordList(doc: Doc) {
    var vv := Verbvault(doc);
    vv.JObj? && "installedThemes" in vv.fields && vv.fields["installedThemes"].JArr?
  }

  /** The installed-theme records the filter runs over. */
  function Records(doc: Doc): seq<Json>
    requires HasRecordList(doc)
  {
    Verbvault(doc).fields["installedThemes"].items
  }

  /** The record pushed for a freshly installed theme. */
  function InstallRecord(theme: Catalog.Theme, installedAt: string): (r: Json)
    ensures HasSlug(r, theme.slug) && SlugOf(r) == Some(theme.slug) && r != JNull
  {
    JObj(map[
      "slug" := JStr(theme.slug),
      "name" := JStr(theme.name),
      "installedAt" := JStr(installedAt),
      "verbCount" := JNum(|theme.verbs| as real)])
  }

  /** `list.filter((t) => t.slug !== slug)` followed by `push(record)`. */
  function Upsert(list: seq<Json>, record: Json, slug: string): seq<Json> {
    Seqs.Filter(list, KeepOther(slug)) + [record]
  }

  /** `settings._verbvault = settings._verbvault || { installedThemes: [] }`,
      then the filter and the push. */
  function RecordInstall(doc: Doc, theme: Catalog.Theme, installedAt: string): (r: Result<Doc>)
    ensures r.Success? <==> HasRecordList(doc) && JNull !in Records(doc)
    ensures r.Success? ==> r.value.Keys == doc.Keys + {"_verbvault"}
    ensures r.Success? ==> forall k :: k in doc && k != "_verbvault" ==> r.value[k] == doc[k]
    ensures r.Success? ==>
      var vv := r.value["_verbvault"];
      && vv.JObj?
      && vv.fields.Keys == Verbvault(doc).fields.Keys
      && (forall k :: k in vv.fields && k != "installedThemes" ==> vv.fields[k] == Verbvault(doc).fields[k])
      && vv.fields["installedThemes"] == JArr(Upsert(Records(doc), InstallRecord(theme, installedAt), theme.slug))
  {
    match Verbvault(doc)
    case JObj(m) =>
      if "installedThemes" !in m then Failure(NoListMessage)
      else if !m["installedThemes"].JArr? then Failure(NotArrayMessage)
      else
        var list := m["installedThemes"].items;
        if JNull in list then Failure(NullRecordMessage)
        else
          var updated := Upsert(list, InstallRecord(theme, installedAt), theme.slug);
          Success(doc["_verbvault" := JObj(m["installedThemes" := JArr(updated)])])
    case _ => Failure(NoListMessage)
  }

  /** The settings document after an install: either the conflict gate
      stopped it, or the document to write. */
  datatype Applied = Conflict | Updated(doc: Doc)

  /** The part of `installCommand` between reading and writing the settings. */
  function ApplyInstall(doc: Doc, theme: Catalog.Theme, force: bool, installedAt: string): (r: Result<Applied>)
    ensures r == Success(Conflict) <==> HasExistingVerbs(doc) && !force
    ensures r.Failure? <==>
      (!(HasExistingVerbs(doc) && !force)
       && (SpinnerVerbsIsPrimitive(doc) || !HasRecordList(doc) || JNull in Records(doc)))
  {
    if HasExistingVerbs(doc) && !force then Success(Conflict)
    else
      match ReplaceVerbs(doc, theme.verbs)
      case Failure(e) => Failure(e)
      case Success(withVerbs) =>
        assert Verbvault(withVerbs) == Verbvault(doc);
        match RecordInstall(withVerbs, theme, installedAt)
        case Failure(e) => Failure(e)
        case Success(withRecord) => Success(Updated(withRecord))
  }

  /** What a successful install does to the document: `spinnerVerbs` holds
      mode "replace" and exactly the theme's verbs (replace, not union) and
      keeps its other members; no other top-level key changes. */
  lemma InstallEffects(doc: Doc, theme: Catalog.Theme, force: bool, installedAt: string)
    requires ApplyInstall(doc, theme, force, installedAt).Success?
    requires ApplyInstall(doc, theme, force, installedAt).value.Updated?
    ensures var d := ApplyInstall(doc, theme, force, installedAt).value.doc;
      && d.Keys == doc.Keys + {"spinnerVerbs", "_verbvault"}
      && (forall k :: k in doc && k != "spinnerVerbs" && k != "_verbvault" ==> d[k] == doc[k])
      && (!SpinnerVerbsIsArray(doc) ==> ReplaceMode(d["spinnerVerbs"], theme.verbs))
      && (SpinnerVerbsIsArray(doc) ==> d["spinnerVerbs"] == doc["spinnerVerbs"])
      && (forall k :: k in PriorSpinnerVerbs(doc) && k != "mode" && k != "verbs" && d["spinnerVerbs"].JObj? ==>
            k in d["spinnerVerbs"].fields && d["spinnerVerbs"].fields[k] == PriorSpinnerVerbs(doc)[k])
  {
    var v := ReplaceVerbs(doc, theme.verbs).value;
    assert Verbvault(v) == Verbvault(doc);
    var d := RecordInstall(v, theme, installedAt).value;
    assert d == ApplyInstall(doc, theme, force, installedAt).value.doc;
    assert d["spinnerVerbs"] == v["spinnerVerbs"];
  }

  /** After a successful install, `_verbvault` is an object whose
      `installedThemes` is the upsert of the old records with the new one. */
  lemma InstallRecordsEffect(doc: Doc, theme: Catalog.Theme, force: bool, installedAt: string)
    requires ApplyInstall(doc, theme, force, installedAt).Success?
    requires ApplyInstall(doc, theme, force, installedAt).value.Updated?
    ensures var d := ApplyInstall(doc, theme, force, installedAt).value.doc;
      && "_verbvault" in d && d["_verbvault"].JObj?
      && "installedThemes" in d["_verbvault"].fields
      && d["_verbvault"].fields["installedThemes"]
           == JArr(Upsert(Records(doc), InstallRecord(theme, installedAt), theme.slug))
      && JNull !in Records(doc)
  {
    var v := ReplaceVerbs(doc, theme.verbs).value;
    assert Verbvault(v) == Verbvault(doc);
  }

  /** What the command reports, and with which exit code it ends. */
  datatype InstallOutcome =
    | ThemeNotFound
    | ConflictPending
    | Installed(name: string, verbCount: nat, sample: Sample<string>)
    | InstallFailed(message: string)

  function ExitCode(o: InstallOutcome): (code: nat)
    ensures code == 0 <==> o.ConflictPending? || o.Installed?
  {
    match o
    case ThemeNotFound => 1
    case ConflictPending => 0
    case Installed(_, _, _) => 0
    case InstallFailed(_) => 1
  }

  /** `installCommand(slug, { force })`: the outcome and the file system
      afterwards. `reply` is what the catalog service answered, and
      `installedAt` is the current time as ISO-8601 text. */
  function InstallCommand(
    env: Env, fs: FileSystem, reply: Catalog.ThemeReply, development: bool,
    slug: string, force: bool, installedAt: string): (r: (InstallOutcome, FileSystem))
    ensures !r.0.Installed? ==> r.1.files == fs.files
    ensures r.1 != fs ==>
      && Catalog.FetchTheme(reply, development, slug).Found?
      && ReadSettings(env, fs).Success?
      && var theme := Catalog.FetchTheme(reply, development, slug).theme;
         var applied := ApplyInstall(ReadSettings(env, fs).value, theme, force, installedAt);
         && applied.Success? && applied.value.Updated?
         && WriteSettings(env, fs, applied.value.doc).1 == r.1
    ensures r.0.Installed? ==>
      && Catalog.FetchTheme(reply, development, slug).Found?
      && ReadSettings(env, fs).Success?
      && var theme := Catalog.FetchTheme(reply, development, slug).theme;
         var applied := ApplyInstall(ReadSettings(env, fs).value, theme, force, installedAt);
         && applied.Success? && applied.value.Updated?
         && WriteSettings(env, fs, applied.value.doc) == (Success(()), r.1)
         && r.0 == Installed(theme.name, |theme.verbs|, SampleOf(theme.verbs))
    ensures
      (&& Catalog.FetchTheme(reply, development, slug).Found?
       && ReadSettings(env, fs).Success?
       && var theme := Catalog.FetchTheme(reply, development, slug).theme;
          var applied := ApplyInstall(ReadSettings(env, fs).value, theme, force, installedAt);
          applied.Success? && applied.value.Updated? && WriteSettings(env, fs, applied.value.doc).0.Success?)
      ==> r.0.Installed?
    ensures r.0.ConflictPending? <==>
      && Catalog.FetchTheme(reply, development, slug).Found?
      && ReadSettings(env, fs).Success?
      && HasExistingVerbs(ReadSettings(env, fs).value) && !force
    ensures r.0.ThemeNotFound? <==> Catalog.FetchTheme(reply, development, slug).NotFound?
  {
    match Catalog.FetchTheme(reply, development, slug)
    case NotFound => (ThemeNotFound, fs)
    case FetchFailed(m) => (InstallFailed(m), fs)
    case Found(theme) =>
      match ReadSettings(env, fs)
      case Failure(e) => (InstallFailed(e), fs)
      case Success(doc) =>
        match ApplyInstall(doc, theme, force, installedAt)
        case Failure(e) => (InstallFailed(e), fs)
        case Success(Conflict) => (ConflictPending, fs)
        case Success(Updated(d)) =>
          match WriteSettings(env, fs, d)
          case (Failure(e), fs2) => (InstallFailed(e), fs2)
          case (Success(_), fs2) => (Installed(theme.name, |theme.verbs|, SampleOf(theme.verbs)), fs2)
  }

  /** Whatever the outcome, the only directories the command can add are
      the settings directory and its parents, and the faults the disk will
      raise are unchanged. */
  lemma InstallDiskBound(env: Env, fs: FileSystem, reply: Catalog.ThemeReply, development: bool,
                         slug: string, force: bool, installedAt: string)
    ensures var r := InstallCommand(env, fs, reply, development, slug, force, installedAt);
      && fs.dirs <= r.1.dirs <= fs.dirs + WithParents(DirName(SettingsPath(env)))
      && r.1.readFaults == fs.readFaults && r.1.writeFaults == fs.writeFaults
      && r.1.mkdirFaults == fs.mkdirFaults
  {
  }

  /** A failed write after the settings directory was created fails the
      install (exit code 1), keeps every file, and leaves the directory. */
  lemma FailedWriteLeavesDirectory(env: Env, fs: FileSystem, reply: Catalog.ThemeReply, development: bool,
                                   slug: string, force: bool, installedAt: string,
                                   theme: Catalog.Theme, doc: Doc, d: Doc)
    requires Catalog.FetchTheme(reply, development, slug) == Catalog.Found(theme)
    requires ReadSettings(env, fs) == Success(doc)
    requires ApplyInstall(doc, theme, force, installedAt) == Success(Updated(d))
    requires !Exists(fs, DirName(SettingsPath(env)))
    requires MakeDirs(fs, DirName(SettingsPath(env))).Success?
    requires SettingsPath(env) in fs.writeFaults
    ensures var r := InstallCommand(env, fs, reply, development, slug, force, installedAt);
      && r.0.InstallFailed? && ExitCode(r.0) == 1
      && r.1.files == fs.files
      && DirName(SettingsPath(env)) in r.1.dirs
  {
    FailedWriteKeepsDirectory(env, fs, d);
    InstallWritesThrough(env, fs, reply, development, slug, force, installedAt, theme, doc, d);
  }

  /** Once the install has computed the new document, the command's disk
      is whatever writing it leaves, and it fails exactly when that write
      fails. */
  lemma InstallWritesThrough(env: Env, fs: FileSystem, reply: Catalog.ThemeReply, development: bool,
                             slug: string, force: bool, installedAt: string,
                             theme: Catalog.Theme, doc: Doc, d: Doc)
    requires Catalog.FetchTheme(reply, development, slug) == Catalog.Found(theme)
    requires ReadSettings(env, fs) == Success(doc)
    requires ApplyInstall(doc, theme, force, installedAt) == Success(Updated(d))
    ensures var r := InstallCommand(env, fs, reply, development, slug, force, installedAt);
      && r.1 == WriteSettings(env, fs, d).1
      && (r.0.InstallFailed? <==> WriteSettings(env, fs, d).0.Failure?)
  {
  }

  /** A settings path ending in a separator never completes an install. */
  lemma TrailingSlashNeverInstalls(env: Env, fs: FileSystem, reply: Catalog.ThemeReply, development: bool,
                                   slug: string, force: bool, installedAt: string)
    requires EndsInSlash(SettingsPath(env))
    ensures !InstallCommand(env, fs, reply, development, slug, force, installedAt).0.Installed?
    ensures InstallCommand(env, fs, reply, development, slug, force, installedAt).1.files == fs.files
  {
    var r := InstallCommand(env, fs, reply, development, slug, force, installedAt);
    if r.0.Installed? {
      var theme := Catalog.FetchTheme(reply, development, slug).theme;
      TrailingSlashWriteFails(env, fs, ApplyInstall(ReadSettings(env, fs).value, theme, force, installedAt).value.doc);
      assert false;
    }
  }

  /** No theme: exit code 1, whatever the file system holds (so it is
      neither read nor written). */
  lemma NotFoundTouchesNothing(env: Env, reply: Catalog.ThemeReply, development: bool,
                               slug: string, force: bool, installedAt: string)
    requires Catalog.FetchTheme(reply, development, slug).NotFound?
    ensures forall fs :: InstallCommand(env, fs, reply, development, slug, force, installedAt) == (ThemeNotFound, fs)
    ensures ExitCode(ThemeNotFound) == 1
  {
  }

  /** The conflict gate: existing `spinnerVerbs.verbs` without `--force`
      ends with exit code 0 and nothing written. */
  lemma ConflictWritesNothing(env: Env, fs: FileSystem, reply: Catalog.ThemeReply, development: bool,
                              slug: string, installedAt: string)
    requires Catalog.FetchTheme(reply, development, slug).Found?
    requires ReadSettings(env, fs).Success? && HasExistingVerbs(ReadSettings(env, fs).value)
    ensures InstallCommand(env, fs, reply, development, slug, false, installedAt) == (ConflictPending, fs)
    ensures ExitCode(ConflictPending) == 0
  {
  }

  /** An absent `spinnerVerbs`, an absent `verbs`, or an empty verb list
      never triggers the gate. */
  lemma NoVerbsNoGate(doc: Doc, theme: Catalog.Theme, force: bool, installedAt: string)
    requires || "spinnerVerbs" !in doc
             || (doc["spinnerVerbs"].JObj? && "verbs" !in doc["spinnerVerbs"].fields)
             || (doc["spinnerVerbs"].JObj? && doc["spinnerVerbs"].fields["verbs"] == JArr([]))
    ensures !HasExistingVerbs(doc)
    ensures ApplyInstall(doc, theme, force, installedAt) != Success(Conflict)
  {
  }

  /** With `_verbvault` present but no `installedThemes` array, the filter
      throws: exit code 1 and nothing written. */
  lemma MissingRecordListFails(env: Env, fs: FileSystem, reply: Catalog.ThemeReply, development: bool,
                               slug: string, force: bool, installedAt: string)
    requires Catalog.FetchTheme(reply, development, slug).Found?
    requires ReadSettings(env, fs).Success?
    requires var doc := ReadSettings(env, fs).value;
      && "_verbvault" in doc && doc["_verbvault"].JObj?
      && ("installedThemes" !in doc["_verbvault"].fields || !doc["_verbvault"].fields["installedThemes"].JArr?)
      && !(HasExistingVerbs(doc) && !force)
    ensures var r := InstallCommand(env, fs, reply, development, slug, force, installedAt);
      r.0.InstallFailed? && r.1 == fs && ExitCode(r.0) == 1
  {
    var doc := ReadSettings(env, fs).value;
    var theme := Catalog.FetchTheme(reply, development, slug).theme;
    assert Verbvault(doc) == doc["_verbvault"];
    assert !HasRecordList(doc);
    assert ApplyInstall(doc, theme, force, installedAt).Failure?;
  }

  lemma {:induction false} FilterCountsOthers(list: seq<Json>, slug: string)
    ensures |Seqs.Filter(list, KeepOther(slug))| + CountSlug(list, slug) == |list|
  {
    if list != [] {
      FilterCountsOthers(list[1..], slug);
      Seqs.HeadTail(list, []);
      Seqs.FilterCons(list[0], list[1..], KeepOther(slug));
    }
  }

  lemma UniqueSlugsCons(x: Json, list: seq<Json>)
    requires UniqueSlugs(list)
    requires SlugOf(x).Some? ==> forall i :: 0 <= i < |list| ==> SlugOf(list[i]) != SlugOf(x)
    ensures UniqueSlugs([x] + list)
  {
    var l := [x] + list;
    forall i, j | 0 <= i < j < |l| && SlugOf(l[i]).Some? ensures SlugOf(l[i]) != SlugOf(l[j]) {
      if i > 0 {
        assert l[i] == list[i - 1] && l[j] == list[j - 1];
      } else {
        assert l[j] == list[j - 1];
      }
    }
  }

  lemma UniqueSlugsTail(list: seq<Json>)
    requires list != [] && UniqueSlugs(list)
    ensures UniqueSlugs(list[1..])
    ensures SlugOf(list[0]).Some? ==> forall i :: 1 <= i < |list| ==> SlugOf(list[i]) != SlugOf(list[0])
  {
    forall i, j | 0 <= i < j < |list[1..]| && SlugOf(list[1..][i]).Some?
      ensures SlugOf(list[1..][i]) != SlugOf(list[1..][j])
    {
      assert list[1..][i] == list[i + 1] && list[1..][j] == list[j + 1];
    }
  }

  /** A filter of a list with unique slugs has unique slugs. */
  lemma {:induction false} FilterKeepsUnique(list: seq<Json>, keep: Json -> bool)
    requires UniqueSlugs(list)
    ensures UniqueSlugs(Seqs.Filter(list, keep))
  {
    if list != [] {
      UniqueSlugsTail(list);
      FilterKeepsUnique(list[1..], keep);
      Seqs.HeadTail(list, []);
      Seqs.FilterCons(list[0], list[1..], keep);
      var rest := Seqs.Filter(list[1..], keep);
      if keep(list[0]) && SlugOf(list[0]).Some? {
        forall i | 0 <= i < |rest| ensures SlugOf(rest[i]) != SlugOf(list[0]) {
          var k :| 0 <= k < |list[1..]| && list[1..][k] == rest[i];
          assert list[k + 1] == rest[i];
        }
      }
      if keep(list[0]) {
        UniqueSlugsCons(list[0], rest);
      }
    }
  }

  /** The upsert: the record is last and is the only one with the slug; the
      other records keep their relative order; unique slugs stay unique; the
      list grows by one exactly when the slug was new. */
  lemma UpsertProperties(list: seq<Json>, record: Json, slug: string)
    requires HasSlug(record, slug)
    ensures var u := Upsert(list, record, slug);
      && u[|u| - 1] == record
      && CountSlug(u, slug) == 1
      && Seqs.IsSubseq(u[..|u| - 1], list)
      && (forall i :: 0 <= i < |list| && !HasSlug(list[i], slug) ==> list[i] in u[..|u| - 1])
      && |u| == |list| + 1 - CountSlug(list, slug)
      && (UniqueSlugs(list) ==> UniqueSlugs(u))
      && (UniqueSlugs(list) ==> (|u| == |list| + 1 <==> CountSlug(list, slug) == 0))
      && (UniqueSlugs(list) ==> (|u| == |list| <==> CountSlug(list, slug) == 1))
  {
    UpsertShape(list, record, slug);
    if UniqueSlugs(list) {
      UpsertWithUniqueSlugs(list, record, slug);
    }
  }

  /** The record goes last and is the only one with its slug; before it
      come, in their old order, exactly the records with other slugs. */
  lemma UpsertShape(list: seq<Json>, record: Json, slug: string)
    requires HasSlug(record, slug)
    ensures var u := Upsert(list, record, slug);
      && u[|u| - 1] == record
      && CountSlug(u, slug) == 1
      && Seqs.IsSubseq(u[..|u| - 1], list)
      && (forall i :: 0 <= i < |list| && !HasSlug(list[i], slug) ==> list[i] in u[..|u| - 1])
      && |u| == |list| + 1 - CountSlug(list, slug)
  {
    var f := Seqs.Filter(list, KeepOther(slug));
    var u := f + [record];
    assert u[..|u| - 1] == f;
    Seqs.FilterIsSubseq(list, KeepOther(slug));
    CountSlugAppend(f, [record], slug);
    assert CountSlug([record], slug) == 1;
    FilterCountsOthers(list, slug);
  }

  /** With unique slugs beforehand they stay unique, and the list grows by
      one exactly when the slug was new and keeps its size exactly when the
      theme was installed already. */
  lemma UpsertWithUniqueSlugs(list: seq<Json>, record: Json, slug: string)
    requires HasSlug(record, slug) && UniqueSlugs(list)
    ensures var u := Upsert(list, record, slug);
      && UniqueSlugs(u)
      && (|u| == |list| + 1 <==> CountSlug(list, slug) == 0)
      && (|u| == |list| <==> CountSlug(list, slug) == 1)
  {
    FilterCountsOthers(list, slug);
    UniqueSlugsCount(list, slug);
    UpsertKeepsUnique(list, record, slug);
  }

  /** The record appended last is the only one with its slug, so unique
      slugs stay unique. */
  lemma UpsertKeepsUnique(list: seq<Json>, record: Json, slug: string)
    requires HasSlug(record, slug) && UniqueSlugs(list)
    ensures UniqueSlugs(Upsert(list, record, slug))
  {
    var f := Seqs.Filter(list, KeepOther(slug));
    var u := f + [record];
    FilterKeepsUnique(list, KeepOther(slug));
    forall i, j | 0 <= i < j < |u| && SlugOf(u[i]).Some? ensures SlugOf(u[i]) != SlugOf(u[j]) {
      if j == |u| - 1 {
        assert u[i] == f[i];
        HasSlugIff(f[i], slug);
        HasSlugIff(record, slug);
      } else {
        assert u[i] == f[i] && u[j] == f[j];
      }
    }
  }

  /** Upserting the same slug twice keeps only the second record. */
  lemma UpsertTwice(list: seq<Json>, r1: Json, r2: Json, slug: string)
    requires HasSlug(r1, slug)
    ensures Upsert(Upsert(list, r1, slug), r2, slug) == Upsert(list, r2, slug)
  {
    var keep := KeepOther(slug);
    var f := Seqs.Filter(list, keep);
    Seqs.FilterAppend(f, [r1], keep);
    Seqs.FilterIdempotent(list, keep);
    Seqs.FilterCons(r1, [], keep);
    assert [r1] + [] == [r1];
    assert f + [] == f;
  }

  /** Replacing the verbs of a document whose `spinnerVerbs` already holds
      them changes nothing. */
  lemma ReplaceVerbsFixpoint(d: Doc, verbs: seq<string>)
    requires "spinnerVerbs" in d && (ReplaceMode(d["spinnerVerbs"], verbs) || d["spinnerVerbs"].JArr?)
    ensures ReplaceVerbs(d, verbs) == Success(d)
  {
    if !d["spinnerVerbs"].JArr? {
      var m := d["spinnerVerbs"].fields;
      assert m["mode" := JStr("replace")]["verbs" := JArr(Strings(verbs))] == m;
      assert d["spinnerVerbs" := JObj(m)] == d;
    }
  }

  /** Recording the same theme twice leaves only the second record. */
  lemma RecordTwice(v: Doc, theme: Catalog.Theme, t1: string, t2: string)
    requires RecordInstall(v, theme, t1).Success?
    ensures RecordInstall(RecordInstall(v, theme, t1).value, theme, t2) == RecordInstall(v, theme, t2)
  {
    var d1 := RecordInstall(v, theme, t1).value;
    var m0 := Verbvault(v).fields;
    var u2 := Upsert(Records(v), InstallRecord(theme, t2), theme.slug);
    UpsertTwice(Records(v), InstallRecord(theme, t1), InstallRecord(theme, t2), theme.slug);
    assert Verbvault(d1) == d1["_verbvault"];
    assert JNull !in Records(d1);
    assert d1["_verbvault"].fields["installedThemes" := JArr(u2)] == m0["installedThemes" := JArr(u2)];
    assert d1["_verbvault" := JObj(m0["installedThemes" := JArr(u2)])]
        == v["_verbvault" := JObj(m0["installedThemes" := JArr(u2)])];
  }

  /** A forced reinstall of the same theme gives the document a single
      install at the later time would give: only `installedAt` differs. */
  lemma ReinstallIdempotent(doc: Doc, theme: Catalog.Theme, force: bool, t1: string, t2: string)
    requires ApplyInstall(doc, theme, force, t1).Success? && ApplyInstall(doc, theme, force, t1).value.Updated?
    ensures ApplyInstall(ApplyInstall(doc, theme, force, t1).value.doc, theme, true, t2)
         == ApplyInstall(doc, theme, true, t2)
  {
    InstallEffects(doc, theme, force, t1);
    var d1 := ApplyInstall(doc, theme, force, t1).value.doc;
    var v0 := ReplaceVerbs(doc, theme.verbs).value;
    assert Verbvault(v0) == Verbvault(doc);
    assert d1 == RecordInstall(v0, theme, t1).value;
    ReplaceVerbsFixpoint(d1, theme.verbs);
    RecordTwice(v0, theme, t1, t2);
  }
}

=== FILE: json.dfy ===
/** JSON values as the JavaScript code sees them after `JSON.parse`, with the
    few pieces of JavaScript semantics the modelled code depends on:
    truthiness, property reads (`v.key`, `v?.key`), `v || fallback`,
    `Object.keys(v).length`, and `slice(0, end)`. */
module Js {
  import opened Wrappers

  /** Numbers are reals: JSON has no NaN or Infinity, and integrality
      (`z.number().int()`) is a property of the value. Object key order is
      not represented. */
  datatype Json =
    | JNull
    | JBool(b: bool)
    | JNum(n: real)
    | JStr(s: string)
    | JArr(items: seq<Json>)
    | JObj(fields: map<string, Json>)

  /** JavaScript truthiness: `null`, `false`, `0` and `""` are falsy. */
  predicate Truthy(v: Json) {
    match v
    case JNull => false
    case JBool(b) => b
    case JNum(n) => n != 0.0
    case JStr(s) => s != ""
    case _ => true
  }

  /** UTF-16 code units JavaScript spends on one character: two for a
      character outside the Basic Multilingual Plane (a surrogate pair). */
  function CodeUnits(c: char): nat {
    if c as int > 0xFFFF then 2 else 1
  }

  /** `s.length` of a JavaScript string: UTF-16 code units, not characters. */
  function Utf16Length(s: string): (n: nat)
    ensures |s| <= n <= 2 * |s|
    ensures n == 0 <==> s == []
  {
    if s == [] then 0 else CodeUnits(s[0]) + Utf16Length(s[1..])
  }

  lemma {:induction false} Utf16LengthAppend(a: string, b: string)
    ensures Utf16Length(a + b) == Utf16Length(a) + Utf16Length(b)
  {
    if a == [] {
      assert a + b == b;
    } else {
      assert (a + b)[0] == a[0] && (a + b)[1..] == a[1..] + b;
      Utf16LengthAppend(a[1..], b);
    }
  }

  /** On text inside the Basic Multilingual Plane (every ASCII string, for
      one) `length` and the character count agree. */
  lemma {:induction false} Utf16LengthOfBmp(s: string)
    requires forall i :: 0 <= i < |s| ==> s[i] as int <= 0xFFFF
    ensures Utf16Length(s) == |s|
  {
    if s != [] {
      Utf16LengthOfBmp(s[1..]);
    }
  }

  /** Characters outside the Basic Multilingual Plane (emoji, for one) count
      twice. */
  lemma {:induction false} Utf16LengthOfAstral(s: string)
    requires forall i :: 0 <= i < |s| ==> s[i] as int > 0xFFFF
    ensures Utf16Length(s) == 2 * |s|
  {
    if s != [] {
      Utf16LengthOfAstral(s[1..]);
    }
  }

  /** `v.key` on a value that is not null: own keys of objects, and the
      `length` of arrays and strings. `None` is `undefined`. */
  function Get(v: Json, key: string): (r: Option<Json>)
    ensures v.JObj? ==> (r.Some? <==> key in v.fields)
    ensures v.JObj? && key in v.fields ==> r == Some(v.fields[key])
    ensures (v.JNull? || v.JBool? || v.JNum?) ==> r.None?
  {
    match v
    case JObj(m) => if key in m then Some(m[key]) else None
    case JArr(a) => if key == "length" then Some(JNum(|a| as real)) else None
    case JStr(s) => if key == "length" then Some(JNum(Utf16Length(s) as real)) else None
    case _ => None
  }

  /** `v?.key`, where `v` may be undefined (`None`) or null. */
  function OptGet(v: Option<Json>, key: string): (r: Option<Json>)
    ensures v.None? || v == Some(JNull) ==> r.None?
  {
    match v
    case None => None
    case Some(JNull) => None
    case Some(x) => Get(x, key)
  }

  /** `v || fallback`. */
  function Or(v: Option<Json>, fallback: Json): (r: Json)
    ensures v.Some? && Truthy(v.value) ==> r == v.value
    ensures v.None? || !Truthy(v.value) ==> r == fallback
  {
    if v.Some? && Truthy(v.value) then v.value else fallback
  }

  /** `v.length === 0`. */
  predicate LengthIsZero(v: Json) {
    Get(v, "length") == Some(JNum(0.0))
  }

  /** `v.length > 0`: the relational comparison applies ToNumber to
      `length`, so `true` counts as 1 and `null` as 0; a missing `length`
      (NaN) and an object (NaN) compare false. A string or an array
      `length` is read as not positive. */
  predicate LengthIsPositive(v: Json) {
    match Get(v, "length")
    case Some(JNum(n)) => n > 0.0
    case Some(JBool(b)) => b
    case _ => false
  }

  lemma ArrayLength(a: seq<Json>)
    ensures LengthIsZero(JArr(a)) <==> a == []
    ensures LengthIsPositive(JArr(a)) <==> a != []
  {
  }

  /** `Object.keys(v).length`: own keys of objects, indices of arrays and
      strings, none for numbers, booleans and null. */
  function OwnKeyCount(v: Json): nat {
    match v
    case JObj(m) => |m|
    case JArr(a) => |a|
    case JStr(s) => Utf16Length(s)
    case _ => 0
  }

  /** A JavaScript array of strings. */
  function Strings(vs: seq<string>): (r: seq<Json>)
    ensures |r| == |vs|
    ensures forall i :: 0 <= i < |vs| ==> r[i] == JStr(vs[i])
  {
    seq(|vs|, i requires 0 <= i < |vs| => JStr(vs[i]))
  }

  /** Truncation toward zero (ToIntegerOrInfinity on a finite number). */
  function Trunc(r: real): (k: int)
    ensures r >= 0.0 ==> k as real <= r < k as real + 1.0
    ensures r < 0.0 ==> k as real - 1.0 < r <= k as real
  {
    if r >= 0.0 then r.Floor else -((-r).Floor)
  }

  /** Number of elements `slice(0, end)` keeps from a sequence of length
      `len`: a negative `end` counts from the end. */
  function SliceEnd(len: nat, end: int): (k: nat)
    ensures k <= len
    ensures 0 <= end ==> k == if end < len then end else len
    ensures end < 0 ==> k == if len + end < 0 then 0 else len + end
  {
    if end < 0 then (if len + end < 0 then 0 else len + end)
    else if end < len then end
    else len
  }

  /** `s.slice(0, end)` on an array or a string. */
  function Take<T>(s: seq<T>, end: int): (r: seq<T>)
    ensures 0 <= end ==> |r| == if end < |s| then end else |s|
    ensures |r| <= |s| && r == s[..|r|]
  {
    s[..SliceEnd(|s|, end)]
  }

  /** The integer `slice` makes of a JSON value passed as its end argument:
      numbers are truncated toward zero, `true` is 1, `false` and `null` are 0.
      Strings, arrays and objects are read as 0 (JavaScript would apply
      ToNumber to them). */
  function SliceArgument(v: Json): int {
    match v
    case JNum(n) => Trunc(n)
    case JBool(b) => if b then 1 else 0
    case _ => 0
  }

  predicate IsInteger(n: real) {
    n == n.Floor as real
  }
}

=== FILE: lifecycle.dfy ===
/** How the CLI commands compose over one settings file: slugs stay unique,
    foreign keys survive, a forced install replaces the verbs, and removing
    an installed theme leaves the verbs `install` wrote in place, because
    the two commands use different keys. */
module Lifecycle {
  import opened Wrappers
  import opened Js
  import opened SettingsStore
  import opened SettingsDoc
  import Seqs
  import Catalog
  import Install
  import Remove

  /** Installing keeps the installed-theme slugs unique. */
  lemma InstallKeepsSlugsUnique(doc: Doc, theme: Catalog.Theme, force: bool, at: string)
    requires Install.ApplyInstall(doc, theme, force, at).Success?
    requires Install.ApplyInstall(doc, theme, force, at).value.Updated?
    requires UniqueSlugs(Install.Records(doc))
    ensures var d := Install.ApplyInstall(doc, theme, force, at).value.doc;
      Install.HasRecordList(d) && UniqueSlugs(Install.Records(d))
  {
    Install.InstallRecordsEffect(doc, theme, force, at);
    var d := Install.ApplyInstall(doc, theme, force, at).value.doc;
    assert Install.Verbvault(d) == d["_verbvault"];
    Install.UpsertProperties(Install.Records(doc), Install.InstallRecord(theme, at), theme.slug);
  }

  /** Removing keeps the installed-theme slugs unique. */
  lemma RemoveKeepsSlugsUnique(doc: Doc, slug: string)
    requires Remove.ApplyRemove(doc, slug).Success? && Remove.ApplyRemove(doc, slug).value.Removed?
    requires UniqueSlugs(Remove.RecordList(doc).value)
    ensures var d := Remove.ApplyRemove(doc, slug).value.doc;
      Remove.RecordList(d).Success? && UniqueSlugs(Remove.RecordList(d).value)
  {
    Remove.RemovedRecordList(doc, slug);
    var list := Remove.RecordList(doc).value;
    RemoveAtKeepsUnique(list, Remove.FindSlug(list, slug).value.value);
  }

  /** Splicing one record out of a list with unique slugs leaves them unique. */
  lemma RemoveAtKeepsUnique(list: seq<Json>, i: nat)
    requires i < |list| && UniqueSlugs(list)
    ensures UniqueSlugs(Seqs.RemoveAt(list, i))
  {
    var rest := Seqs.RemoveAt(list, i);
    forall a, b | 0 <= a < b < |rest| && SlugOf(rest[a]).Some? ensures SlugOf(rest[a]) != SlugOf(rest[b]) {
      var a', b' := if a < i then a else a + 1, if b < i then b else b + 1;
      assert rest[a] == list[a'] && rest[b] == list[b'];
    }
  }

  /** A successful install, read back, keeps every key other than
      `spinnerVerbs` and `_verbvault` with its value. */
  lemma InstallPreservesForeignKeys(env: Env, fs: FileSystem, reply: Catalog.ThemeReply, development: bool,
                                    slug: string, force: bool, at: string)
    requires SettingsPath(env) !in fs.readFaults
    requires Install.InstallCommand(env, fs, reply, development, slug, force, at).0.Installed?
    ensures var fs2 := Install.InstallCommand(env, fs, reply, development, slug, force, at).1;
      var before := ReadSettings(env, fs).value;
      && ReadSettings(env, fs2).Success?
      && forall k :: k in before && k != "spinnerVerbs" && k != "_verbvault" ==>
           k in ReadSettings(env, fs2).value && ReadSettings(env, fs2).value[k] == before[k]
  {
    var theme := Catalog.FetchTheme(reply, development, slug).theme;
    var before := ReadSettings(env, fs).value;
    Install.InstallEffects(before, theme, force, at);
    var d := Install.ApplyInstall(before, theme, force, at).value.doc;
    ReadAfterWrite(env, fs, d);
  }

  /** Removing the theme just installed takes out exactly its record, and
      leaves `spinnerVerbs` (the verbs the install put in place) as it was. */
  lemma InstallThenRemoveKeepsVerbs(doc: Doc, theme: Catalog.Theme, force: bool, at: string)
    requires Install.ApplyInstall(doc, theme, force, at).Success?
    requires Install.ApplyInstall(doc, theme, force, at).value.Updated?
    ensures var d1 := Install.ApplyInstall(doc, theme, force, at).value.doc;
      var r := Remove.ApplyRemove(d1, theme.slug);
      && r.Success? && r.value.Removed?
      && r.value.record == Install.InstallRecord(theme, at)
      && "spinnerVerbs" in r.value.doc && r.value.doc["spinnerVerbs"] == d1["spinnerVerbs"]
      && (!Install.SpinnerVerbsIsArray(doc) ==> Install.ReplaceMode(r.value.doc["spinnerVerbs"], theme.verbs))
  {
    var d1 := Install.ApplyInstall(doc, theme, force, at).value.doc;
    var kept := Seqs.Filter(Install.Records(doc), KeepOther(theme.slug));
    InstallAppendsRecord(doc, theme, force, at);
    RemoveAppendedRecord(d1, kept, Install.InstallRecord(theme, at), theme.slug);
  }

  /** After an install the record list is the other themes' records
      followed by the new one, which the scan for its slug finds. */
  lemma InstallAppendsRecord(doc: Doc, theme: Catalog.Theme, force: bool, at: string)
    requires Install.ApplyInstall(doc, theme, force, at).Success?
    requires Install.ApplyInstall(doc, theme, force, at).value.Updated?
    ensures var d1 := Install.ApplyInstall(doc, theme, force, at).value.doc;
      var kept := Seqs.Filter(Install.Records(doc), KeepOther(theme.slug));
      && Remove.RecordList(d1) == Success(kept + [Install.InstallRecord(theme, at)])
      && Remove.FindSlug(kept + [Install.InstallRecord(theme, at)], theme.slug) == Success(Some(|kept|))
      && "spinnerVerbs" in d1
      && (!Install.SpinnerVerbsIsArray(doc) ==> Install.ReplaceMode(d1["spinnerVerbs"], theme.verbs))
  {
    Install.InstallEffects(doc, theme, force, at);
    Install.InstallRecordsEffect(doc, theme, force, at);
    var d1 := Install.ApplyInstall(doc, theme, force, at).value.doc;
    var rec := Install.InstallRecord(theme, at);
    var kept := Seqs.Filter(Install.Records(doc), KeepOther(theme.slug));
    Remove.RecordListOfObject(d1, kept + [rec]);
    FindsAppendedRecord(kept, rec, theme.slug);
  }

  /** Removing a slug whose only record was appended last removes that
      record and keeps `spinnerVerbs`. */
  lemma RemoveAppendedRecord(d: Doc, kept: seq<Json>, rec: Json, slug: string)
    requires Remove.RecordList(d) == Success(kept + [rec])
    requires Remove.FindSlug(kept + [rec], slug) == Success(Some(|kept|))
    ensures var r := Remove.ApplyRemove(d, slug);
      && r.Success? && r.value.Removed? && r.value.record == rec
      && ("spinnerVerbs" in r.value.doc <==> "spinnerVerbs" in d)
      && ("spinnerVerbs" in d ==> r.value.doc["spinnerVerbs"] == d["spinnerVerbs"])
  {
    var list := kept + [rec];
    var r := Remove.ApplyRemove(d, slug);
    assert r.Success? && r.value.Removed?;
    assert r.value.record == list[|kept|] == rec;
    Remove.RemoveEffects(d, slug);
    var k := "spinnerVerbs";
    assert k != "_verbvault" && k != "spinner";
    assert k in d ==> k in r.value.doc && r.value.doc[k] == d[k];
  }

  /** The scan for a slug no earlier record carries stops at the record
      appended last. */
  lemma FindsAppendedRecord(kept: seq<Json>, rec: Json, slug: string)
    requires JNull !in kept && forall j :: 0 <= j < |kept| ==> !HasSlug(kept[j], slug)
    requires HasSlug(rec, slug)
    ensures Remove.FindSlug(kept + [rec], slug) == Success(Some(|kept|))
  {
    var list := kept + [rec];
    var found := Remove.FindSlug(list, slug);
    assert JNull !in list by {
      forall j | 0 <= j < |list| ensures list[j] != JNull {
        if j < |kept| { assert list[j] == kept[j]; }
      }
    }
    assert found.Success? && found.value.Some? by {
      assert HasSlug(list[|list| - 1], slug);
    }
  }
}

=== FILE: list.dfy ===
/** `verbvault list`: a read-only view of the settings document. The view is
    chosen from `_verbvault.installedThemes` and `spinner.verbs` (not the
    `spinnerVerbs` key `install` writes). The command returns a view and no
    file system: it never writes. */
module ListCommand {
  import opened Wrappers
  import opened Js
  import opened SettingsStore
  import opened SettingsDoc

  /** One installed theme as listed: its 1-based number and the record's
      `name`, `slug`, `verbCount` and `installedAt` (`None` when undefined). */
  datatype Entry = Entry(number: nat, name: Option<Json>, slug: Option<Json>,
                         verbCount: Option<Json>, installedAt: Option<Json>)

  datatype ListView =
    | NothingInstalled
    | InstalledList(entries: seq<Entry>)
    | CustomVerbs(total: nat, sample: Sample<Json>)
    | PathOnly
    | ListFailed(message: string)

  const NotIterableMessage := "forEach is not a function"
  const NullRecordMessage := "Cannot read properties of null (reading 'name')"

  /** The `forEach` over the records: numbered from 1 in stored order. */
  function Entries(records: seq<Json>): (r: seq<Entry>)
    ensures |r| == |records|
    ensures forall i :: 0 <= i < |r| ==> r[i].number == i + 1
    ensures forall i :: 0 <= i < |r| ==>
      r[i].name == Get(records[i], "name") && r[i].slug == Get(records[i], "slug")
      && r[i].verbCount == Get(records[i], "verbCount") && r[i].installedAt == Get(records[i], "installedAt")
  {
    seq(|records|, i requires 0 <= i < |records| =>
      Entry(i + 1, Get(records[i], "name"), Get(records[i], "slug"),
            Get(records[i], "verbCount"), Get(records[i], "installedAt")))
  }

  /** The view `listCommand` prints for a settings document. */
  function View(doc: Doc): (r: ListView)
    ensures r.InstalledList? ==> InstalledThemesValue(doc).JArr? && |r.entries| == |InstalledThemesValue(doc).items| > 0
    ensures r.CustomVerbs? ==> !LengthIsPositive(InstalledThemesValue(doc))
    ensures r.CustomVerbs? ==> SpinnerVerbsValue(doc).JArr? && r.total == |SpinnerVerbsValue(doc).items| > 0
  {
    var installed := InstalledThemesValue(doc);
    var current := SpinnerVerbsValue(doc);
    if LengthIsZero(installed) && LengthIsZero(current) then NothingInstalled
    else if LengthIsPositive(installed) then
      match installed
      case JArr(records) =>
        if JNull in records then ListFailed(NullRecordMessage) else InstalledList(Entries(records))
      case _ => ListFailed(NotIterableMessage)
    else if LengthIsPositive(current) then
      match current
      case JArr(verbs) => CustomVerbs(|verbs|, SampleOf(verbs))
      case _ => ListFailed(NotIterableMessage)
    else PathOnly
  }

  function ExitCode(v: ListView): (code: nat)
    ensures code == 0 <==> !v.ListFailed?
  {
    if v.ListFailed? then 1 else 0
  }

  /** `listCommand()`: the view of what `readClaudeSettings` returns. */
  function List(env: Env, fs: FileSystem): (r: ListView)
    ensures ReadSettings(env, fs).Failure? ==> r == ListFailed(ReadSettings(env, fs).error)
    ensures ReadSettings(env, fs).Success? ==> r == View(ReadSettings(env, fs).value)
  {
    match ReadSettings(env, fs)
    case Failure(e) => ListFailed(e)
    case Success(doc) => View(doc)
  }

  /** With both lists arrays, the empty state shows exactly when both are
      empty; `_verbvault` and `spinner` both missing is the empty state. */
  lemma EmptyStateIff(doc: Doc)
    requires InstalledThemesValue(doc).JArr? && SpinnerVerbsValue(doc).JArr?
    ensures View(doc) == NothingInstalled <==>
      InstalledThemesValue(doc).items == [] && SpinnerVerbsValue(doc).items == []
    ensures "_verbvault" !in doc && "spinner" !in doc ==> View(doc) == NothingInstalled
  {
    ArrayLength(InstalledThemesValue(doc).items);
    ArrayLength(SpinnerVerbsValue(doc).items);
  }

  /** Installed themes take precedence over `spinner.verbs`; they are listed
      in stored order, numbered from 1. */
  lemma InstalledTakesPrecedence(doc: Doc)
    requires InstalledThemesValue(doc).JArr?
    requires var records := InstalledThemesValue(doc).items; records != [] && JNull !in records
    ensures var records := InstalledThemesValue(doc).items;
      && View(doc).InstalledList?
      && |View(doc).entries| == |records|
      && forall i :: 0 <= i < |records| ==>
           View(doc).entries[i].number == i + 1 && View(doc).entries[i].name == Get(records[i], "name")
  {
    ArrayLength(InstalledThemesValue(doc).items);
  }

  /** The custom-verbs view: the first min(5, n) verbs, and "n - 5 more" only
      when n > 5. */
  lemma CustomVerbsView(doc: Doc)
    requires InstalledThemesValue(doc) == JArr([])
    requires SpinnerVerbsValue(doc).JArr? && SpinnerVerbsValue(doc).items != []
    ensures var verbs := SpinnerVerbsValue(doc).items;
      && View(doc).CustomVerbs?
      && View(doc).total == |verbs|
      && View(doc).sample.shown == verbs[..if |verbs| < 5 then |verbs| else 5]
      && (View(doc).sample.more.Some? <==> |verbs| > 5)
      && (|verbs| > 5 ==> View(doc).sample.more == Some(|verbs| - 5))
  {
    ArrayLength(SpinnerVerbsValue(doc).items);
  }

  /** The view never depends on `spinnerVerbs`. */
  lemma IgnoresSpinnerVerbs(doc: Doc, v: Json)
    ensures View(doc["spinnerVerbs" := v]) == View(doc)
    ensures View(doc - {"spinnerVerbs"}) == View(doc)
  {
    assert Lookup(doc["spinnerVerbs" := v], "spinner") == Lookup(doc, "spinner");
    assert Lookup(doc["spinnerVerbs" := v], "_verbvault") == Lookup(doc, "_verbvault");
    assert Lookup(doc - {"spinnerVerbs"}, "spinner") == Lookup(doc, "spinner");
    assert Lookup(doc - {"spinnerVerbs"}, "_verbvault") == Lookup(doc, "_verbvault");
  }
}

=== FILE: remove.dfy ===
/** `verbvault remove <slug>`: find the first installed-theme record with the
    slug, splice it out, and, when no record is left, clear the active verb
    override. This command reads and clears `spinner.verbs`, not the
    `spinnerVerbs` key `install` writes, so the verbs an install put in place
    stay active after their theme is removed. */
module Remove {
  import opened Wrappers
  import opened Js
  import opened SettingsStore
  import opened SettingsDoc
  import Seqs

  const NotSearchableMessage := "installedThemes.findIndex is not a function"
  const NullRecordMessage := "Cannot read properties of null (reading 'slug')"

  /** `settings._verbvault?.installedThemes || []`, which must be an array
      for `findIndex` to run. */
  function RecordList(doc: Doc): (r: Result<seq<Json>>)
    ensures r.Success? <==> InstalledThemesValue(doc).JArr?
    ensures r.Success? ==> r.value == InstalledThemesValue(doc).items
    ensures "_verbvault" !in doc ==> r == Success([])
  {
    match InstalledThemesValue(doc)
    case JArr(a) => Success(a)
    case _ => Failure(NotSearchableMessage)
  }

  /** An `installedThemes` array under an object `_verbvault` is the list
      the command searches. */
  lemma RecordListOfObject(doc: Doc, list: seq<Json>)
    requires "_verbvault" in doc && doc["_verbvault"].JObj?
    requires "installedThemes" in doc["_verbvault"].fields
    requires doc["_verbvault"].fields["installedThemes"] == JArr(list)
    ensures RecordList(doc) == Success(list)
  {
  }

  /** `list.findIndex((t) => t.slug === slug)` from position `from`: the scan
      throws on a `null` entry it reaches before a match. */
  function FindSlugFrom(list: seq<Json>, slug: string, from: nat): (r: Result<Option<nat>>)
    requires from <= |list|
    ensures r.Success? && r.value.Some? ==>
      && from <= r.value.value < |list|
      && HasSlug(list[r.value.value], slug)
      && forall j :: from <= j < r.value.value ==> list[j] != JNull && !HasSlug(list[j], slug)
    ensures r == Success(None) <==> forall j :: from <= j < |list| ==> list[j] != JNull && !HasSlug(list[j], slug)
    ensures r.Failure? ==> r.error == NullRecordMessage
    ensures r.Failure? ==> exists j :: from <= j < |list| && list[j] == JNull
    decreases |list| - from
  {
    if from == |list| then Success(None)
    else if list[from] == JNull then Failure(NullRecordMessage)
    else if HasSlug(list[from], slug) then Success(Some(from))
    else FindSlugFrom(list, slug, from + 1)
  }

  /** `list.findIndex((t) => t.slug === slug)`, with `None` for -1. */
  function FindSlug(list: seq<Json>, slug: string): (r: Result<Option<nat>>)
    ensures r.Success? && r.value.Some? ==>
      && r.value.value < |list|
      && HasSlug(list[r.value.value], slug)
      && forall j :: 0 <= j < r.value.value ==> list[j] != JNull && !HasSlug(list[j], slug)
    ensures r == Success(None) <==> forall j :: 0 <= j < |list| ==> list[j] != JNull && !HasSlug(list[j], slug)
    ensures r.Failure? ==> r.error == NullRecordMessage
    ensures JNull !in list ==> r.Success?
  {
    FindSlugFrom(list, slug, 0)
  }

  /** The scan from `from` throws exactly when a `null` record comes before
      any record with the slug. */
  lemma {:induction false} FindSlugFromFails(list: seq<Json>, slug: string, from: nat)
    requires from <= |list|
    ensures FindSlugFrom(list, slug, from).Failure? <==>
      exists j :: from <= j < |list| && list[j] == JNull && forall k :: from <= k < j ==> !HasSlug(list[k], slug)
    decreases |list| - from
  {
    if from < |list| && list[from] != JNull && !HasSlug(list[from], slug) {
      FindSlugFromFails(list, slug, from + 1);
      if FindSlugFrom(list, slug, from + 1).Failure? {
        var j :| from + 1 <= j < |list| && list[j] == JNull && forall k :: from + 1 <= k < j ==> !HasSlug(list[k], slug);
        assert forall k :: from <= k < j ==> !HasSlug(list[k], slug);
      }
    } else if from < |list| && list[from] == JNull {
      assert list[from] == JNull;
    }
  }

  /** `findIndex` throws exactly when a `null` record comes before any
      record with the slug; a `null` after the match is never reached. */
  lemma FindSlugFails(list: seq<Json>, slug: string)
    ensures FindSlug(list, slug).Failure? <==>
      exists j :: 0 <= j < |list| && list[j] == JNull && forall k :: 0 <= k < j ==> !HasSlug(list[k], slug)
  {
    FindSlugFromFails(list, slug, 0);
  }

  /** `delete settings.spinner?.verbs`, then `delete settings.spinner` when it
      is truthy and has no own keys left. */
  function ClearSpinner(doc: Doc): (r: Doc)
    ensures "spinner" in r ==> "spinner" in doc
    ensures "spinner" in r && r["spinner"].JObj? ==> "verbs" !in r["spinner"].fields
    ensures "spinner" in r ==> !(Truthy(r["spinner"]) && OwnKeyCount(r["spinner"]) == 0)
    ensures "spinner" in doc && doc["spinner"].JObj? && doc["spinner"].fields.Keys - {"verbs"} != {} ==>
      "spinner" in r && r["spinner"] == JObj(doc["spinner"].fields - {"verbs"})
    ensures forall k :: k in doc && k != "spinner" ==> k in r && r[k] == doc[k]
    ensures forall k :: k in r ==> k in doc
  {
    var d := match Lookup(doc, "spinner")
      case Some(JObj(m)) => doc["spinner" := JObj(m - {"verbs"})]
      case _ => doc;
    if "spinner" in d && Truthy(d["spinner"]) && OwnKeyCount(d["spinner"]) == 0 then d - {"spinner"} else d
  }

  /** The settings document after a removal: nothing matched, or the record
      removed, how many records remain, and the document to write. */
  datatype Removal = NothingToRemove | Removed(record: Json, remaining: nat, doc: Doc)

  /** The part of `removeCommand` between reading and writing the settings. */
  function ApplyRemove(doc: Doc, slug: string): (r: Result<Removal>)
    ensures r == Success(NothingToRemove) <==>
      RecordList(doc).Success? && FindSlug(RecordList(doc).value, slug) == Success(None)
    ensures r.Success? && r.value.Removed? ==>
      && RecordList(doc).Success?
      && FindSlug(RecordList(doc).value, slug).Success?
      && FindSlug(RecordList(doc).value, slug).value.Some?
      && var list := RecordList(doc).value;
         var i := FindSlug(list, slug).value.value;
         && r.value.record == list[i]
         && r.value.remaining == |list| - 1
         && "_verbvault" in doc && doc["_verbvault"].JObj?
  {
    var list :- RecordList(doc);
    var found :- FindSlug(list, slug);
    match found
    case None => Success(NothingToRemove)
    case Some(i) =>
      var remaining := Seqs.RemoveAt(list, i);
      var vv := VerbvaultObject(doc, list);
      var d1 := doc["_verbvault" := JObj(vv["installedThemes" := JArr(remaining)])];
      var d2 := if remaining == [] then ClearSpinner(d1) else d1;
      Success(Removed(list[i], |remaining|, d2))
  }

  /** A non-empty record list can only have come from `_verbvault`, which is
      then an object. */
  function VerbvaultObject(doc: Doc, list: seq<Json>): (m: map<string, Json>)
    requires RecordList(doc) == Success(list) && list != []
    ensures "_verbvault" in doc && doc["_verbvault"] == JObj(m)
    ensures "installedThemes" in m && m["installedThemes"] == JArr(list)
  {
    var vv := doc["_verbvault"];
    assert Get(vv, "installedThemes").Some?;
    vv.fields
  }

  /** The document a removal writes: the record list with the match spliced
      out, and the spinner cleared when the list has become empty. Keys other
      than `_verbvault` and `spinner` are unchanged; `spinnerVerbs` in
      particular is never touched. */
  lemma RemoveEffects(doc: Doc, slug: string)
    requires ApplyRemove(doc, slug).Success? && ApplyRemove(doc, slug).value.Removed?
    ensures var list := RecordList(doc).value;
      var i := FindSlug(list, slug).value.value;
      var d := ApplyRemove(doc, slug).value.doc;
      && "_verbvault" in d && d["_verbvault"].JObj?
      && "installedThemes" in d["_verbvault"].fields
      && d["_verbvault"].fields["installedThemes"] == JArr(Seqs.RemoveAt(list, i))
      && d["_verbvault"].fields.Keys == doc["_verbvault"].fields.Keys
      && (forall k :: k in doc["_verbvault"].fields && k != "installedThemes" ==>
            d["_verbvault"].fields[k] == doc["_verbvault"].fields[k])
      && (forall k :: k in doc && k != "_verbvault" && k != "spinner" ==> k in d && d[k] == doc[k])
      && (forall k :: k in d ==> k in doc)
      && (|list| > 1 ==> ("spinner" in d <==> "spinner" in doc) && ("spinner" in doc ==> d["spinner"] == doc["spinner"]))
      && (|list| == 1 && "spinner" in d && d["spinner"].JObj? ==> "verbs" !in d["spinner"].fields)
      && (|list| == 1 && "spinner" in d ==> !(Truthy(d["spinner"]) && OwnKeyCount(d["spinner"]) == 0))
  {
  }

  /** The record list a removal writes, read back, is the old list with the
      found record spliced out. */
  lemma RemovedRecordList(doc: Doc, slug: string)
    requires ApplyRemove(doc, slug).Success? && ApplyRemove(doc, slug).value.Removed?
    ensures var list := RecordList(doc).value;
      RecordList(ApplyRemove(doc, slug).value.doc)
        == Success(Seqs.RemoveAt(list, FindSlug(list, slug).value.value))
  {
    RemoveEffects(doc, slug);
    var list := RecordList(doc).value;
    RecordListOfObject(ApplyRemove(doc, slug).value.doc, Seqs.RemoveAt(list, FindSlug(list, slug).value.value));
  }

  /** What the command reports, and with which exit code it ends. */
  datatype RemoveOutcome =
    | NotInstalled
    | ThemeRemoved(record: Json, remaining: nat)
    | RemoveFailed(message: string)

  function ExitCode(o: RemoveOutcome): (code: nat)
    ensures code == 0 <==> !o.RemoveFailed?
  {
    if o.RemoveFailed? then 1 else 0
  }

  /** `removeCommand(slug)`: the outcome and the file system afterwards. */
  function RemoveCommand(env: Env, fs: FileSystem, slug: string): (r: (RemoveOutcome, FileSystem))
    ensures !r.0.ThemeRemoved? ==> r.1.files == fs.files
    ensures r.1 != fs ==>
      && ReadSettings(env, fs).Success?
      && var applied := ApplyRemove(ReadSettings(env, fs).value, slug);
         && applied.Success? && applied.value.Removed?
         && WriteSettings(env, fs, applied.value.doc).1 == r.1
    ensures r.0.ThemeRemoved? ==>
      && ReadSettings(env, fs).Success?
      && var applied := ApplyRemove(ReadSettings(env, fs).value, slug);
         && applied.Success? && applied.value.Removed?
         && WriteSettings(env, fs, applied.value.doc) == (Success(()), r.1)
         && r.0 == ThemeRemoved(applied.value.record, applied.value.remaining)
    ensures
      (&& ReadSettings(env, fs).Success?
       && var applied := ApplyRemove(ReadSettings(env, fs).value, slug);
          applied.Success? && applied.value.Removed? && WriteSettings(env, fs, applied.value.doc).0.Success?)
      ==> r.0.ThemeRemoved?
    ensures r.0.NotInstalled? <==>
      ReadSettings(env, fs).Success? && ApplyRemove(ReadSettings(env, fs).value, slug) == Success(NothingToRemove)
  {
    match ReadSettings(env, fs)
    case Failure(e) => (RemoveFailed(e), fs)
    case Success(doc) =>
      match ApplyRemove(doc, slug)
      case Failure(e) => (RemoveFailed(e), fs)
      case Success(NothingToRemove) => (NotInstalled, fs)
      case Success(Removed(record, remaining, d)) =>
        match WriteSettings(env, fs, d)
        case (Failure(e), fs2) => (RemoveFailed(e), fs2)
        case (Success(_), fs2) => (ThemeRemoved(record, remaining), fs2)
  }

  /** Whatever the outcome, the only directories the command can add are
      the settings directory and its parents, and the faults the disk will
      raise are unchanged. */
  lemma RemoveDiskBound(env: Env, fs: FileSystem, slug: string)
    ensures var r := RemoveCommand(env, fs, slug);
      && fs.dirs <= r.1.dirs <= fs.dirs + WithParents(DirName(SettingsPath(env)))
      && r.1.readFaults == fs.readFaults && r.1.writeFaults == fs.writeFaults
      && r.1.mkdirFaults == fs.mkdirFaults
  {
  }

  /** No record with the slug (and no `null` record in the way): the command
      returns normally and writes nothing. Without `_verbvault` this is
      always the case. */
  lemma NoMatchWritesNothing(env: Env, fs: FileSystem, slug: string)
    requires ReadSettings(env, fs).Success?
    requires var doc := ReadSettings(env, fs).value;
      || "_verbvault" !in doc
      || (RecordList(doc).Success? && forall j :: 0 <= j < |RecordList(doc).value| ==>
            RecordList(doc).value[j] != JNull && !HasSlug(RecordList(doc).value[j], slug))
    ensures RemoveCommand(env, fs, slug) == (NotInstalled, fs)
    ensures ExitCode(NotInstalled) == 0
  {
  }

  lemma {:induction false} CountSlugRemoveAt(list: seq<Json>, i: nat, slug: string)
    requires i < |list| && HasSlug(list[i], slug)
    ensures CountSlug(Seqs.RemoveAt(list, i), slug) == CountSlug(list, slug) - 1
  {
    var a, b := list[..i], list[i + 1..];
    assert list == a + ([list[i]] + b);
    CountSlugAppend(a, [list[i]] + b, slug);
    CountSlugAppend([list[i]], b, slug);
    CountSlugAppend(a, b, slug);
    assert CountSlug([list[i]], slug) == 1;
  }

  /** Exactly the first matching record goes; the others keep their order;
      with unique slugs beforehand, no record with the slug is left. */
  lemma RemovesFirstMatch(doc: Doc, slug: string)
    requires ApplyRemove(doc, slug).Success? && ApplyRemove(doc, slug).value.Removed?
    ensures var list := RecordList(doc).value;
      var i := FindSlug(list, slug).value.value;
      var rest := Seqs.RemoveAt(list, i);
      && HasSlug(list[i], slug)
      && (forall j :: 0 <= j < i ==> !HasSlug(list[j], slug))
      && |rest| == |list| - 1
      && Seqs.IsSubseq(rest, list)
      && (UniqueSlugs(list) ==> forall j :: 0 <= j < |rest| ==> !HasSlug(rest[j], slug))
  {
    var list := RecordList(doc).value;
    var i := FindSlug(list, slug).value.value;
    Seqs.RemoveAtIsSubseq(list, i);
    if UniqueSlugs(list) {
      UniqueSlugsCount(list, slug);
      CountSlugRemoveAt(list, i, slug);
    }
  }
}

=== FILE: schemas.dfy ===
/** The shared zod input schemas, as zod evaluates them. A schema check
    either accepts the input, yielding the parsed value (with defaults filled
    in), or rejects it with the list of every issue found, in the order the
    checks run. Each schema also has a declarative validity predicate over
    plain strings, lists and numbers, and a lemma ties the two together. */
module Schemas {
  import opened Wrappers
  import opened Js
  import opened Text

  /** Where an issue was found: object keys and array indices, outermost first. */
  datatype Step = Key(key: string) | Index(index: nat)

  /** The zod issue codes these schemas can raise. The messages are not
      modelled. */
  datatype Code = InvalidType | TooSmall | TooBig | InvalidString | Custom | InvalidEnumValue | NotInteger

  datatype Issue = Issue(path: seq<Step>, code: Code)

  /** A `safeParse` result. A rejection always carries at least one issue. */
  datatype Outcome<+T> = Valid(value: T) | Invalid(first: Issue, rest: seq<Issue>)

  function IssuesOf<T>(o: Outcome<T>): (r: seq<Issue>)
    ensures r == [] <==> o.Valid?
  {
    match o
    case Valid(_) => []
    case Invalid(first, rest) => [first] + rest
  }

  function Reject<T>(issues: seq<Issue>): (r: Outcome<T>)
    requires issues != []
    ensures r.Invalid? && IssuesOf(r) == issues
  {
    Invalid(issues[0], issues[1..])
  }

  // ---------------------------------------------------------------------
  // Strings

  /** One check of a string schema: `.min(n)`, `.max(n)`, `.regex(/^[cls]+$/)`,
      the verb schema's `.refine(val => val.trim().length > 0)`, and
      `z.enum(values)`. Lengths are JavaScript `length`s: UTF-16 code units. */
  datatype StrCheck =
    | MinLen(min: nat)
    | MaxLen(max: nat)
    | Matches(cls: char -> bool)
    | NotBlank
    | OneOf(values: seq<string>)

  /** `/^[cls]+$/.test(s)`, consuming one character at a time. */
  predicate MatchesOneOrMore(s: string, cls: char -> bool) {
    |s| >= 1 && cls(s[0]) && (|s| == 1 || MatchesOneOrMore(s[1..], cls))
  }

  /** A one-or-more character-class pattern matches exactly the non-empty
      strings drawn from the class. */
  lemma {:induction false} MatchesOneOrMoreIff(s: string, cls: char -> bool)
    ensures MatchesOneOrMore(s, cls) <==> s != [] && forall i :: 0 <= i < |s| ==> cls(s[i])
  {
    if |s| > 1 {
      MatchesOneOrMoreIff(s[1..], cls);
      assert forall i :: 1 <= i < |s| ==> s[i] == s[1..][i - 1];
    }
  }

  predicate Passes(s: string, c: StrCheck) {
    match c
    case MinLen(n) => Utf16Length(s) >= n
    case MaxLen(n) => Utf16Length(s) <= n
    case Matches(cls) => MatchesOneOrMore(s, cls)
    case NotBlank => |Trim(s)| > 0
    case OneOf(values) => s in values
  }

  predicate AllPass(s: string, checks: seq<StrCheck>) {
    forall i :: 0 <= i < |checks| ==> Passes(s, checks[i])
  }

  lemma AllPass1(s: string, a: StrCheck)
    ensures AllPass(s, [a]) <==> Passes(s, a)
  {
    assert [a][0] == a;
  }

  lemma AllPass2(s: string, a: StrCheck, b: StrCheck)
    ensures AllPass(s, [a, b]) <==> Passes(s, a) && Passes(s, b)
  {
    assert [a, b][0] == a && [a, b][1] == b;
  }

  lemma AllPass3(s: string, a: StrCheck, b: StrCheck, c: StrCheck)
    ensures AllPass(s, [a, b, c]) <==> Passes(s, a) && Passes(s, b) && Passes(s, c)
  {
    assert [a, b, c][0] == a && [a, b, c][1] == b && [a, b, c][2] == c;
  }

  function CodeOf(c: StrCheck): Code {
    match c
    case MinLen(_) => TooSmall
    case MaxLen(_) => TooBig
    case Matches(_) => InvalidString
    case NotBlank => Custom
    case OneOf(_) => InvalidEnumValue
  }

  /** The codes of the failing checks, in check order: zod runs every check
      of a string, not only up to the first failure. */
  function StringCodes(s: string, checks: seq<StrCheck>): (r: seq<Code>)
    ensures |r| <= |checks|
    ensures r == [] <==> AllPass(s, checks)
  {
    if checks == [] then []
    else
      assert forall i :: 1 <= i < |checks| ==> checks[i] == checks[1..][i - 1];
      (if Passes(s, checks[0]) then [] else [CodeOf(checks[0])]) + StringCodes(s, checks[1..])
  }

  function AtPath(path: seq<Step>, codes: seq<Code>): (r: seq<Issue>)
    ensures |r| == |codes|
    ensures forall i :: 0 <= i < |r| ==> r[i].path == path
  {
    seq(|codes|, i requires 0 <= i < |codes| => Issue(path, codes[i]))
  }

  /** A string schema applied to a JSON value: anything but a string is an
      `invalid_type` and runs no check. */
  function ParseString(v: Json, checks: seq<StrCheck>, path: seq<Step>): (r: Outcome<string>)
    ensures r.Valid? <==> v.JStr? && AllPass(v.s, checks)
    ensures r.Valid? ==> r.value == v.s
    ensures !v.JStr? ==> IssuesOf(r) == [Issue(path, InvalidType)]
  {
    match v
    case JStr(s) =>
      var codes := StringCodes(s, checks);
      if codes == [] then Valid(s) else Reject(AtPath(path, codes))
    case _ => Reject([Issue(path, InvalidType)])
  }

  /** Every element of an array through the same string schema, from
      position `from`; element issues carry the element's index. */
  function ParseStringsFrom(items: seq<Json>, checks: seq<StrCheck>, path: seq<Step>, from: nat): (r: Outcome<seq<string>>)
    requires from <= |items|
    ensures r.Valid? <==> forall i :: from <= i < |items| ==>
      items[i].JStr? && AllPass(items[i].s, checks)
    ensures r.Valid? ==>
      && |r.value| == |items| - from
      && forall i :: from <= i < |items| ==> items[i] == JStr(r.value[i - from])
    decreases |items| - from
  {
    if from == |items| then Valid([])
    else
      var head := ParseString(items[from], checks, path + [Index(from)]);
      var tail := ParseStringsFrom(items, checks, path, from + 1);
      if head.Valid? && tail.Valid? then Valid([head.value] + tail.value)
      else Reject(IssuesOf(head) + IssuesOf(tail))
  }

  /** `z.array(element).min(min).max(max)`: the length checks run first, then
      every element. */
  function ParseStringArray(v: Json, min: nat, max: Option<nat>, checks: seq<StrCheck>, path: seq<Step>)
    : (r: Outcome<seq<string>>)
    ensures r.Valid? <==>
      && v.JArr? && min <= |v.items| && (max.Some? ==> |v.items| <= max.value)
      && forall i :: 0 <= i < |v.items| ==>
           v.items[i].JStr? && AllPass(v.items[i].s, checks)
    ensures r.Valid? ==> |r.value| == |v.items| && forall i :: 0 <= i < |v.items| ==> v.items[i] == JStr(r.value[i])
  {
    match v
    case JArr(items) =>
      var small := if |items| < min then [Issue(path, TooSmall)] else [];
      var big := if max.Some? && |items| > max.value then [Issue(path, TooBig)] else [];
      var elements := ParseStringsFrom(items, checks, path, 0);
      if small == [] && big == [] && elements.Valid? then elements
      else Reject(small + big + IssuesOf(elements))
    case _ => Reject([Issue(path, InvalidType)])
  }

  // ---------------------------------------------------------------------
  // Numbers

  /** `.int()`, `.min(n)` and `.max(n)` on `z.number()`; bounds are inclusive. */
  datatype NumCheck = IsInt | AtLeast(lo: int) | AtMost(hi: int)

  predicate NumPasses(n: real, c: NumCheck) {
    match c
    case IsInt => IsInteger(n)
    case AtLeast(lo) => n >= lo as real
    case AtMost(hi) => n <= hi as real
  }

  predicate AllNumPass(n: real, checks: seq<NumCheck>) {
    forall i :: 0 <= i < |checks| ==> NumPasses(n, checks[i])
  }

  /** `z.number().int().min(lo).max(hi)` accepts exactly the integers from
      `lo` to `hi`. */
  lemma IntRange(n: real, lo: int, hi: int)
    ensures AllNumPass(n, [IsInt, AtLeast(lo), AtMost(hi)]) <==> IsInteger(n) && lo as real <= n <= hi as real
  {
    var cs := [IsInt, AtLeast(lo), AtMost(hi)];
    assert cs[0] == IsInt && cs[1] == AtLeast(lo) && cs[2] == AtMost(hi);
  }

  /** `z.number().int().min(lo)` accepts exactly the integers from `lo` up. */
  lemma IntFrom(n: real, lo: int)
    ensures AllNumPass(n, [IsInt, AtLeast(lo)]) <==> IsInteger(n) && lo as real <= n
  {
    var cs := [IsInt, AtLeast(lo)];
    assert cs[0] == IsInt && cs[1] == AtLeast(lo);
  }

  function NumCodes(n: real, checks: seq<NumCheck>): (r: seq<Code>)
    ensures |r| <= |checks|
    ensures r == [] <==> AllNumPass(n, checks)
  {
    if checks == [] then []
    else
      assert forall i :: 1 <= i < |checks| ==> checks[i] == checks[1..][i - 1];
      var code := match checks[0] case IsInt => NotInteger case AtLeast(_) => TooSmall case AtMost(_) => TooBig;
      (if NumPasses(n, checks[0]) then [] else [code]) + NumCodes(n, checks[1..])
  }

  /** `z.number().int()...`: an accepted number is an integer and is returned
      as one. */
  function ParseInt(v: Json, checks: seq<NumCheck>, path: seq<Step>): (r: Outcome<int>)
    requires IsInt in checks
    ensures r.Valid? <==> v.JNum? && AllNumPass(v.n, checks)
    ensures r.Valid? ==> r.value as real == v.n
  {
    match v
    case JNum(n) =>
      var codes := NumCodes(n, checks);
      if codes == [] then Valid(n.Floor) else Reject(AtPath(path, codes))
    case _ => Reject([Issue(path, InvalidType)])
  }

  // ---------------------------------------------------------------------
  // Object fields

  /** `obj[key]`, with `None` for a missing key (`undefined`). */
  function Field(m: map<string, Json>, key: string): (r: Option<Json>)
    ensures r.Some? <==> key in m
    ensures key in m ==> r.value == m[key]
  {
    if key in m then Some(m[key]) else None
  }

  /** A required string field: a missing key is an `invalid_type`. */
  function StringField(m: map<string, Json>, key: string, checks: seq<StrCheck>): (r: Outcome<string>)
    ensures r.Valid? <==> key in m && m[key].JStr? && AllPass(m[key].s, checks)
    ensures r.Valid? ==> m[key] == JStr(r.value)
  {
    match Field(m, key)
    case None => Reject([Issue([Key(key)], InvalidType)])
    case Some(v) => ParseString(v, checks, [Key(key)])
  }

  /** `.optional()` string field: a missing key is accepted as `undefined`;
      `null` is not. */
  function OptStringField(m: map<string, Json>, key: string, checks: seq<StrCheck>): (r: Outcome<Option<string>>)
    ensures r.Valid? <==> key !in m || (m[key].JStr? && AllPass(m[key].s, checks))
    ensures r.Valid? ==> (r.value.None? <==> key !in m) && (key in m ==> m[key] == JStr(r.value.value))
  {
    match Field(m, key)
    case None => Valid(None)
    case Some(v) =>
      match ParseString(v, checks, [Key(key)])
      case Valid(s) => Valid(Some(s))
      case Invalid(f, rest) => Invalid(f, rest)
  }

  /** `.default(d)` integer field: a missing key gives `d`. */
  function IntField(m: map<string, Json>, key: string, checks: seq<NumCheck>, default: int): (r: Outcome<int>)
    requires IsInt in checks
    ensures r.Valid? <==> key !in m || (m[key].JNum? && AllNumPass(m[key].n, checks))
    ensures r.Valid? && key !in m ==> r.value == default
    ensures r.Valid? && key in m ==> m[key] == JNum(r.value as real)
  {
    match Field(m, key)
    case None => Valid(default)
    case Some(v) => ParseInt(v, checks, [Key(key)])
  }

  /** A required array-of-strings field. */
  function ArrayField(m: map<string, Json>, key: string, min: nat, max: Option<nat>, checks: seq<StrCheck>)
    : (r: Outcome<seq<string>>)
    ensures r.Valid? ==> key in m && m[key] == JArr(Strings(r.value))
  {
    match Field(m, key)
    case None => Reject([Issue([Key(key)], InvalidType)])
    case Some(v) => ParseStringArray(v, min, max, checks, [Key(key)])
  }

  /** An `.optional()` array-of-strings field. */
  function OptArrayField(m: map<string, Json>, key: string, min: nat, max: Option<nat>, checks: seq<StrCheck>)
    : (r: Outcome<Option<seq<string>>>)
    ensures r.Valid? ==> (r.value.None? <==> key !in m) && (key in m ==> m[key] == JArr(Strings(r.value.value)))
  {
    match Field(m, key)
    case None => Valid(None)
    case Some(v) =>
      match ParseStringArray(v, min, max, checks, [Key(key)])
      case Valid(s) => Valid(Some(s))
      case Invalid(f, rest) => Invalid(f, rest)
  }

  /** A string list held as a JSON array holds exactly those strings. */
  lemma StringsOfArray(items: seq<Json>, vs: seq<string>)
    requires |vs| == |items| && forall i :: 0 <= i < |items| ==> items[i] == JStr(vs[i])
    ensures items == Strings(vs)
  {
  }

  // ---------------------------------------------------------------------
  // The field schemas

  predicate UsernameChar(c: char) {
    IsAsciiUpper(c) || IsAsciiLower(c) || IsDigit(c) || c == '_' || c == '-'
  }

  predicate SlugChar(c: char) {
    IsAsciiLower(c) || IsDigit(c) || c == '-'
  }

  /** `THEME_TAGS`, the tags a theme may carry. */
  const ThemeTags: seq<string> := [
    "funny", "professional", "gaming", "pop-culture", "sci-fi", "fantasy", "nature", "food",
    "sports", "music", "movies", "tech", "retro", "minimalist", "chaotic", "zen", "pirate",
    "space", "medieval", "cyberpunk"
  ]

  const UsernameChecks: seq<StrCheck> := [MinLen(3), MaxLen(30), Matches(UsernameChar)]
  const VerbChecks: seq<StrCheck> := [MinLen(1), MaxLen(50), NotBlank]
  const SlugChecks: seq<StrCheck> := [MinLen(1), MaxLen(100), Matches(SlugChar)]
  const TagChecks: seq<StrCheck> := [OneOf(ThemeTags)]
  const SortOrders: seq<string> := ["recent", "popular", "downloads", "trending"]

  predicate ValidUsername(s: string) {
    3 <= |s| <= 30 && forall i :: 0 <= i < |s| ==> UsernameChar(s[i])
  }

  predicate ValidVerb(s: string) {
    1 <= Utf16Length(s) <= 50 && !AllSpace(s)
  }

  predicate ValidVerbList(vs: seq<string>) {
    1 <= |vs| <= 200 && forall i :: 0 <= i < |vs| ==> ValidVerb(vs[i])
  }

  predicate ValidSlug(s: string) {
    1 <= |s| <= 100 && forall i :: 0 <= i < |s| ==> SlugChar(s[i])
  }

  /** `usernameSchema` accepts exactly 3 to 30 characters from [A-Za-z0-9_-]. */
  lemma UsernameSchemaIff(s: string, path: seq<Step>)
    ensures ParseString(JStr(s), UsernameChecks, path).Valid? <==> ValidUsername(s)
  {
    AllPass3(s, MinLen(3), MaxLen(30), Matches(UsernameChar));
    MatchesOneOrMoreIff(s, UsernameChar);
    if forall i :: 0 <= i < |s| ==> UsernameChar(s[i]) {
      Utf16LengthOfBmp(s);
    }
  }

  /** `themeSlugSchema` accepts exactly 1 to 100 characters from [a-z0-9-]. */
  lemma SlugSchemaIff(s: string, path: seq<Step>)
    ensures ParseString(JStr(s), SlugChecks, path).Valid? <==> ValidSlug(s)
  {
    AllPass3(s, MinLen(1), MaxLen(100), Matches(SlugChar));
    MatchesOneOrMoreIff(s, SlugChar);
    if forall i :: 0 <= i < |s| ==> SlugChar(s[i]) {
      Utf16LengthOfBmp(s);
    }
  }

  /** `verbSchema` accepts exactly 1 to 50 UTF-16 code units that are not all white
      space. */
  lemma VerbSchemaIff(s: string, path: seq<Step>)
    ensures ParseString(JStr(s), VerbChecks, path).Valid? <==> ValidVerb(s)
  {
    AllPass3(s, MinLen(1), MaxLen(50), NotBlank);
  }

  /** 26 emoji are 26 characters but 52 UTF-16 code units: too long a verb. */
  lemma EmojiVerbTooLong(s: string, path: seq<Step>)
    requires |s| == 26 && forall i :: 0 <= i < |s| ==> s[i] == '\U{1F600}'
    ensures ParseString(JStr(s), VerbChecks, path).Invalid?
  {
    Utf16LengthOfAstral(s);
    VerbSchemaIff(s, path);
  }

  /** `verbsArraySchema` accepts exactly 1 to 200 valid verbs, and yields
      them unchanged. */
  lemma VerbsArraySchemaIff(vs: seq<string>, path: seq<Step>)
    ensures ParseStringArray(JArr(Strings(vs)), 1, Some(200), VerbChecks, path).Valid? <==> ValidVerbList(vs)
    ensures ParseStringArray(JArr(Strings(vs)), 1, Some(200), VerbChecks, path).Valid? ==>
      ParseStringArray(JArr(Strings(vs)), 1, Some(200), VerbChecks, path).value == vs
  {
    forall i | 0 <= i < |vs| ensures AllPass(vs[i], VerbChecks) <==> ValidVerb(vs[i]) {
      VerbSchemaIff(vs[i], path);
    }
  }

  /** `z.array(themeTagSchema).max(5)` accepts exactly at most five tags from
      `THEME_TAGS`, and yields them unchanged. */
  lemma TagsSchemaIff(vs: seq<string>, path: seq<Step>)
    ensures ParseStringArray(JArr(Strings(vs)), 0, Some(5), TagChecks, path).Valid? <==>
      |vs| <= 5 && forall i :: 0 <= i < |vs| ==> vs[i] in ThemeTags
    ensures ParseStringArray(JArr(Strings(vs)), 0, Some(5), TagChecks, path).Valid? ==>
      ParseStringArray(JArr(Strings(vs)), 0, Some(5), TagChecks, path).value == vs
  {
    forall i | 0 <= i < |vs| ensures AllPass(vs[i], TagChecks) <==> vs[i] in ThemeTags {
      TagSchemaIff(vs[i]);
    }
  }

  /** `themeTagSchema` accepts exactly the members of `THEME_TAGS`. */
  lemma TagSchemaIff(s: string)
    ensures AllPass(s, TagChecks) <==> s in ThemeTags
  {
    AllPass1(s, OneOf(ThemeTags));
  }

  // ---------------------------------------------------------------------
  // Object schemas

  /** Any object schema reads the body as an object; anything else is one
      `invalid_type` at the root. */
  function NotAnObject<T>(): (r: Outcome<T>)
    ensures IssuesOf(r) == [Issue([], InvalidType)]
  {
    Reject([Issue([], InvalidType)])
  }

  /** A required string field of `lo` to `hi` UTF-16 code units. */
  lemma BoundedStringField(m: map<string, Json>, key: string, lo: nat, hi: nat)
    ensures StringField(m, key, [MinLen(lo), MaxLen(hi)]).Valid? <==>
      key in m && m[key].JStr? && lo <= Utf16Length(m[key].s) <= hi
  {
    if key in m && m[key].JStr? {
      AllPass2(m[key].s, MinLen(lo), MaxLen(hi));
    }
  }

  /** An optional string field of at most `hi` UTF-16 code units. */
  lemma ShortOptStringField(m: map<string, Json>, key: string, hi: nat)
    ensures OptStringField(m, key, [MaxLen(hi)]).Valid? <==>
      key !in m || (m[key].JStr? && Utf16Length(m[key].s) <= hi)
  {
    if key in m && m[key].JStr? {
      AllPass1(m[key].s, MaxLen(hi));
    }
  }

  /** An integer field from `lo` to `hi` with a default. */
  lemma RangeIntField(m: map<string, Json>, key: string, lo: int, hi: int, default: int)
    ensures IntField(m, key, [IsInt, AtLeast(lo), AtMost(hi)], default).Valid? <==>
      key !in m || (m[key].JNum? && IsInteger(m[key].n) && lo as real <= m[key].n <= hi as real)
    ensures IntField(m, key, [IsInt, AtLeast(lo), AtMost(hi)], default).Valid? ==>
      lo <= IntField(m, key, [IsInt, AtLeast(lo), AtMost(hi)], default).value <= hi || key !in m
  {
    if key in m && m[key].JNum? {
      IntRange(m[key].n, lo, hi);
    }
  }

  /** What `createThemeSchema` yields. */
  datatype NewTheme = NewTheme(name: string, description: Option<string>, verbs: seq<string>,
                               tags: Option<seq<string>>, coverColor: Option<string>)

  /** `createThemeSchema.safeParse(body)`; unknown keys are dropped. */
  function ParseCreateTheme(body: Json): (r: Outcome<NewTheme>)
    ensures r.Valid? ==> body.JObj?
  {
    match body
    case JObj(m) =>
      var name := StringField(m, "name", [MinLen(1), MaxLen(100)]);
      var description := OptStringField(m, "description", [MaxLen(1000)]);
      var verbs := ArrayField(m, "verbs", 1, Some(200), VerbChecks);
      var tags := OptArrayField(m, "tags", 0, Some(5), TagChecks);
      var cover := OptStringField(m, "cover_color", []);
      if name.Valid? && description.Valid? && verbs.Valid? && tags.Valid? && cover.Valid? then
        Valid(NewTheme(name.value, description.value, verbs.value, tags.value, cover.value))
      else
        Reject(IssuesOf(name) + IssuesOf(description) + IssuesOf(verbs) + IssuesOf(tags) + IssuesOf(cover))
    case _ => NotAnObject()
  }

  /** A theme fit for creation, stated on the parsed value. */
  predicate ValidNewTheme(t: NewTheme) {
    && 1 <= Utf16Length(t.name) <= 100
    && (t.description.Some? ==> Utf16Length(t.description.value) <= 1000)
    && ValidVerbList(t.verbs)
    && (t.tags.Some? ==> |t.tags.value| <= 5 && forall i :: 0 <= i < |t.tags.value| ==> t.tags.value[i] in ThemeTags)
  }

  /** The JSON object a theme is sent as; absent optional fields are left out. */
  function NewThemeBody(t: NewTheme): (r: map<string, Json>)
    ensures "name" in r && r["name"] == JStr(t.name)
    ensures "verbs" in r && r["verbs"] == JArr(Strings(t.verbs))
    ensures ("description" in r <==> t.description.Some?) && (t.description.Some? ==> r["description"] == JStr(t.description.value))
    ensures ("tags" in r <==> t.tags.Some?) && (t.tags.Some? ==> r["tags"] == JArr(Strings(t.tags.value)))
    ensures ("cover_color" in r <==> t.coverColor.Some?) && (t.coverColor.Some? ==> r["cover_color"] == JStr(t.coverColor.value))
  {
    var m := map["name" := JStr(t.name), "verbs" := JArr(Strings(t.verbs))];
    var m := if t.description.Some? then m["description" := JStr(t.description.value)] else m;
    var m := if t.tags.Some? then m["tags" := JArr(Strings(t.tags.value))] else m;
    if t.coverColor.Some? then m["cover_color" := JStr(t.coverColor.value)] else m
  }

  /** Everything `createThemeSchema` accepts is a theme fit for creation. */
  lemma CreateThemeSound(body: Json)
    requires ParseCreateTheme(body).Valid?
    ensures ValidNewTheme(ParseCreateTheme(body).value)
  {
    var m := body.fields;
    var t := ParseCreateTheme(body).value;
    BoundedStringField(m, "name", 1, 100);
    ShortOptStringField(m, "description", 1000);
    VerbsArraySchemaIff(t.verbs, [Key("verbs")]);
    if t.tags.Some? {
      TagsSchemaIff(t.tags.value, [Key("tags")]);
    }
  }

  /** An optional list of theme tags, at most `max` of them when `max` is
      given. */
  lemma OptTagsField(m: map<string, Json>, key: string, max: Option<nat>)
    ensures OptArrayField(m, key, 0, max, TagChecks).Valid? <==>
      key !in m ||
      (&& m[key].JArr? && (max.Some? ==> |m[key].items| <= max.value)
       && forall i :: 0 <= i < |m[key].items| ==> m[key].items[i].JStr? && m[key].items[i].s in ThemeTags)
  {
    if key in m && m[key].JArr? {
      var items := m[key].items;
      forall i | 0 <= i < |items| && items[i].JStr?
        ensures AllPass(items[i].s, TagChecks) <==> items[i].s in ThemeTags
      {
        TagSchemaIff(items[i].s);
      }
    }
  }

  /** The bodies `createThemeSchema` accepts, stated on the JSON: a name of
      1 to 100 UTF-16 code units, an optional description of at most 1000, 1
      to 200 valid verbs, at most five known tags when tags are given, and a
      string cover colour when one is given. */
  predicate ValidCreateThemeBody(body: Json) {
    && body.JObj?
    && "name" in body.fields && body.fields["name"].JStr?
    && 1 <= Utf16Length(body.fields["name"].s) <= 100
    && ("description" in body.fields ==>
          body.fields["description"].JStr? && Utf16Length(body.fields["description"].s) <= 1000)
    && "verbs" in body.fields && body.fields["verbs"].JArr?
    && 1 <= |body.fields["verbs"].items| <= 200
    && (forall i :: 0 <= i < |body.fields["verbs"].items| ==>
          body.fields["verbs"].items[i].JStr? && ValidVerb(body.fields["verbs"].items[i].s))
    && ("tags" in body.fields ==>
          && body.fields["tags"].JArr? && |body.fields["tags"].items| <= 5
          && forall i :: 0 <= i < |body.fields["tags"].items| ==>
               body.fields["tags"].items[i].JStr? && body.fields["tags"].items[i].s in ThemeTags)
    && ("cover_color" in body.fields ==> body.fields["cover_color"].JStr?)
  }

  /** The verb checks hold of a string exactly when it is a valid verb. */
  lemma VerbPassesIff(s: string)
    ensures AllPass(s, VerbChecks) <==> ValidVerb(s)
  {
    AllPass3(s, MinLen(1), MaxLen(50), NotBlank);
  }

  /** `createThemeSchema` accepts exactly the bodies above. */
  lemma CreateThemeSchemaIff(body: Json)
    ensures ParseCreateTheme(body).Valid? <==> ValidCreateThemeBody(body)
  {
    if body.JObj? {
      var m := body.fields;
      BoundedStringField(m, "name", 1, 100);
      ShortOptStringField(m, "description", 1000);
      if "verbs" in m && m["verbs"].JArr? {
        var items := m["verbs"].items;
        forall i | 0 <= i < |items| && items[i].JStr?
          ensures AllPass(items[i].s, VerbChecks) <==> ValidVerb(items[i].s)
        {
          VerbPassesIff(items[i].s);
        }
      }
      OptTagsField(m, "tags", Some(5));
    }
  }

  /** A theme fit for creation, sent as JSON, is accepted and parsed back
      unchanged. */
  lemma CreateThemeRoundTrip(t: NewTheme)
    requires ValidNewTheme(t)
    ensures ParseCreateTheme(JObj(NewThemeBody(t))) == Valid(t)
  {
    var m := NewThemeBody(t);
    BoundedStringField(m, "name", 1, 100);
    assert StringField(m, "name", [MinLen(1), MaxLen(100)]) == Valid(t.name);
    ShortOptStringField(m, "description", 1000);
    assert OptStringField(m, "description", [MaxLen(1000)]) == Valid(t.description);
    VerbsArraySchemaIff(t.verbs, [Key("verbs")]);
    assert ArrayField(m, "verbs", 1, Some(200), VerbChecks) == Valid(t.verbs);
    if t.tags.Some? {
      TagsSchemaIff(t.tags.value, [Key("tags")]);
    }
    assert OptArrayField(m, "tags", 0, Some(5), TagChecks) == Valid(t.tags);
    assert OptStringField(m, "cover_color", []) == Valid(t.coverColor);
  }

  /** What `generateThemeSchema` yields. */
  datatype GenerateRequest = GenerateRequest(prompt: string, count: int)

  const DefaultGenerateCount := 15

  /** `generateThemeSchema.safeParse(body)`. */
  function ParseGenerate(body: Json): (r: Outcome<GenerateRequest>)
    ensures r.Valid? ==> body.JObj?
  {
    match body
    case JObj(m) =>
      var prompt := StringField(m, "prompt", [MinLen(5), MaxLen(500)]);
      var count := IntField(m, "count", [IsInt, AtLeast(5), AtMost(50)], DefaultGenerateCount);
      if prompt.Valid? && count.Valid? then Valid(GenerateRequest(prompt.value, count.value))
      else Reject(IssuesOf(prompt) + IssuesOf(count))
    case _ => NotAnObject()
  }

  /** A generate request is accepted iff the prompt has 5 to 500 UTF-16 code units
      and `count`, when given, is an integer from 5 to 50; a missing count
      becomes 15. */
  lemma GenerateSchemaIff(body: Json)
    ensures ParseGenerate(body).Valid? <==>
      && body.JObj?
      && "prompt" in body.fields && body.fields["prompt"].JStr? && 5 <= Utf16Length(body.fields["prompt"].s) <= 500
      && ("count" in body.fields ==>
            body.fields["count"].JNum? && IsInteger(body.fields["count"].n)
            && 5.0 <= body.fields["count"].n <= 50.0)
    ensures ParseGenerate(body).Valid? ==>
      && ParseGenerate(body).value.prompt == body.fields["prompt"].s
      && 5 <= ParseGenerate(body).value.count <= 50
      && ("count" !in body.fields ==> ParseGenerate(body).value.count == 15)
  {
    if body.JObj? {
      BoundedStringField(body.fields, "prompt", 5, 500);
      RangeIntField(body.fields, "count", 5, 50, DefaultGenerateCount);
    }
  }

  /** What `suggestVerbsSchema` yields. */
  datatype SuggestRequest = SuggestRequest(existingVerbs: seq<string>, count: int, style: Option<string>)

  const DefaultSuggestCount := 5

  /** `suggestVerbsSchema.safeParse(body)`. */
  function ParseSuggest(body: Json): (r: Outcome<SuggestRequest>)
    ensures r.Valid? ==> body.JObj?
  {
    match body
    case JObj(m) =>
      var existing := ArrayField(m, "existingVerbs", 1, Some(100), []);
      var count := IntField(m, "count", [IsInt, AtLeast(1), AtMost(20)], DefaultSuggestCount);
      var style := OptStringField(m, "style", [MaxLen(100)]);
      if existing.Valid? && count.Valid? && style.Valid? then
        Valid(SuggestRequest(existing.value, count.value, style.value))
      else Reject(IssuesOf(existing) + IssuesOf(count) + IssuesOf(style))
    case _ => NotAnObject()
  }

  /** A suggest request is accepted iff it has 1 to 100 existing verbs, all
      strings (of any length), a count from 1 to 20 when given, and a style
      of at most 100 UTF-16 code units when given; a missing count becomes 5. */
  lemma SuggestSchemaIff(body: Json)
    ensures ParseSuggest(body).Valid? <==>
      && body.JObj?
      && "existingVerbs" in body.fields && body.fields["existingVerbs"].JArr?
      && 1 <= |body.fields["existingVerbs"].items| <= 100
      && (forall i :: 0 <= i < |body.fields["existingVerbs"].items| ==> body.fields["existingVerbs"].items[i].JStr?)
      && ("count" in body.fields ==>
            body.fields["count"].JNum? && IsInteger(body.fields["count"].n)
            && 1.0 <= body.fields["count"].n <= 20.0)
      && ("style" in body.fields ==> body.fields["style"].JStr? && Utf16Length(body.fields["style"].s) <= 100)
    ensures ParseSuggest(body).Valid? ==>
      && body.fields["existingVerbs"] == JArr(Strings(ParseSuggest(body).value.existingVerbs))
      && 1 <= ParseSuggest(body).value.count <= 20
      && ("count" !in body.fields ==> ParseSuggest(body).value.count == 5)
  {
    if body.JObj? {
      RangeIntField(body.fields, "count", 1, 20, DefaultSuggestCount);
      ShortOptStringField(body.fields, "style", 100);
    }
  }

  /** What `refineVerbSchema` yields. */
  datatype RefineRequest = RefineRequest(verb: string, style: string, context: Option<string>)

  /** `refineVerbSchema.safeParse(body)`. */
  function ParseRefine(body: Json): (r: Outcome<RefineRequest>)
    ensures r.Valid? ==> body.JObj?
  {
    match body
    case JObj(m) =>
      var verb := StringField(m, "verb", [MinLen(1), MaxLen(50)]);
      var style := StringField(m, "style", [MinLen(1), MaxLen(100)]);
      var context := OptStringField(m, "context", [MaxLen(200)]);
      if verb.Valid? && style.Valid? && context.Valid? then Valid(RefineRequest(verb.value, style.value, context.value))
      else Reject(IssuesOf(verb) + IssuesOf(style) + IssuesOf(context))
    case _ => NotAnObject()
  }

  /** A refine request is accepted iff the verb has 1 to 50 UTF-16 code units, the
      style 1 to 100, and the context, when present, at most 200. */
  lemma RefineSchemaIff(body: Json)
    ensures ParseRefine(body).Valid? <==>
      && body.JObj?
      && "verb" in body.fields && body.fields["verb"].JStr? && 1 <= Utf16Length(body.fields["verb"].s) <= 50
      && "style" in body.fields && body.fields["style"].JStr? && 1 <= Utf16Length(body.fields["style"].s) <= 100
      && ("context" in body.fields ==> body.fields["context"].JStr? && Utf16Length(body.fields["context"].s) <= 200)
  {
    if body.JObj? {
      BoundedStringField(body.fields, "verb", 1, 50);
      BoundedStringField(body.fields, "style", 1, 100);
      ShortOptStringField(body.fields, "context", 200);
    }
  }

  /** What `searchThemesSchema` yields. */
  datatype SearchRequest = SearchRequest(query: Option<string>, tags: Option<seq<string>>, sort: string,
                                         page: int, pageSize: int)

  /** `z.enum([...]).default('recent')` under the key "sort". */
  function SortField(m: map<string, Json>): (r: Outcome<string>)
    ensures r.Valid? <==> "sort" !in m || (m["sort"].JStr? && m["sort"].s in SortOrders)
    ensures r.Valid? ==> r.value in SortOrders && ("sort" !in m ==> r.value == "recent")
  {
    match Field(m, "sort")
    case None => Valid("recent")
    case Some(v) =>
      if v.JStr? then AllPass1(v.s, OneOf(SortOrders)); ParseString(v, [OneOf(SortOrders)], [Key("sort")])
      else ParseString(v, [OneOf(SortOrders)], [Key("sort")])
  }

  /** `searchThemesSchema.safeParse(body)`. */
  function ParseSearch(body: Json): (r: Outcome<SearchRequest>)
    ensures r.Valid? ==> body.JObj?
  {
    match body
    case JObj(m) =>
      var query := OptStringField(m, "query", [MaxLen(100)]);
      var tags := OptArrayField(m, "tags", 0, None, TagChecks);
      var sort := SortField(m);
      var page := IntField(m, "page", [IsInt, AtLeast(1)], 1);
      var size := IntField(m, "page_size", [IsInt, AtLeast(1), AtMost(50)], 20);
      if query.Valid? && tags.Valid? && sort.Valid? && page.Valid? && size.Valid? then
        Valid(SearchRequest(query.value, tags.value, sort.value, page.value, size.value))
      else Reject(IssuesOf(query) + IssuesOf(tags) + IssuesOf(sort) + IssuesOf(page) + IssuesOf(size))
    case _ => NotAnObject()
  }

  /** An accepted search has page at least 1 (default 1), a page size from 1
      to 50 (default 20), a known sort order (default "recent"), and only
      known tags. */
  lemma SearchSchemaSound(body: Json)
    requires ParseSearch(body).Valid?
    ensures var q := ParseSearch(body).value;
      && q.page >= 1 && ("page" !in body.fields ==> q.page == 1)
      && 1 <= q.pageSize <= 50 && ("page_size" !in body.fields ==> q.pageSize == 20)
      && q.sort in SortOrders && ("sort" !in body.fields ==> q.sort == "recent")
      && (q.tags.Some? ==> forall i :: 0 <= i < |q.tags.value| ==> q.tags.value[i] in ThemeTags)
      && (q.query.Some? ==> Utf16Length(q.query.value) <= 100)
  {
    var m := body.fields;
    var q := ParseSearch(body).value;
    if "page" in m {
      IntFrom(m["page"].n, 1);
    }
    RangeIntField(m, "page_size", 1, 50, 20);
    ShortOptStringField(m, "query", 100);
    if q.tags.Some? {
      forall i | 0 <= i < |q.tags.value| ensures q.tags.value[i] in ThemeTags {
        assert m["tags"].items[i] == JStr(q.tags.value[i]);
        AllPass1(q.tags.value[i], OneOf(ThemeTags));
      }
    }
  }

  /** The bodies `searchThemesSchema` accepts, stated on the JSON: every
      field is optional; a query of at most 100 UTF-16 code units, known
      tags (any number of them), a known sort order, an integer page from 1
      up and an integer page size from 1 to 50. */
  predicate ValidSearchBody(body: Json) {
    && body.JObj?
    && ("query" in body.fields ==>
          body.fields["query"].JStr? && Utf16Length(body.fields["query"].s) <= 100)
    && ("tags" in body.fields ==>
          && body.fields["tags"].JArr?
          && forall i :: 0 <= i < |body.fields["tags"].items| ==>
               body.fields["tags"].items[i].JStr? && body.fields["tags"].items[i].s in ThemeTags)
    && ("sort" in body.fields ==> body.fields["sort"].JStr? && body.fields["sort"].s in SortOrders)
    && ("page" in body.fields ==>
          body.fields["page"].JNum? && IsInteger(body.fields["page"].n) && 1.0 <= body.fields["page"].n)
    && ("page_size" in body.fields ==>
          && body.fields["page_size"].JNum? && IsInteger(body.fields["page_size"].n)
          && 1.0 <= body.fields["page_size"].n <= 50.0)
  }

  /** `searchThemesSchema` accepts exactly the bodies above. */
  lemma SearchSchemaIff(body: Json)
    ensures ParseSearch(body).Valid? <==> ValidSearchBody(body)
  {
    if body.JObj? {
      var m := body.fields;
      ShortOptStringField(m, "query", 100);
      OptTagsField(m, "tags", None);
      if "page" in m && m["page"].JNum? {
        IntFrom(m["page"].n, 1);
      }
      RangeIntField(m, "page_size", 1, 50, 20);
    }
  }

  /** An empty search body is accepted with every default. */
  lemma EmptySearchDefaults()
    ensures ParseSearch(JObj(map[])) == Valid(SearchRequest(None, None, "recent", 1, 20))
  {
  }
}

=== FILE: seqs.dfy ===
/** Order-preserving list operations shared by the CLI commands and the
    generators: `Array.prototype.filter`, removal at an index (`splice(i, 1)`),
    de-duplication (`new Set(xs)`), and the subsequence relation that states
    "keeps the others in their relative order". */
module Seqs {

  /** `a` can be obtained from `b` by deleting elements (greedy matching). */
  predicate IsSubseq<T(==)>(a: seq<T>, b: seq<T>)
    decreases |b|
  {
    if a == [] then true
    else if b == [] then false
    else if a[0] == b[0] then IsSubseq(a[1..], b[1..])
    else IsSubseq(a, b[1..])
  }

  predicate NoDuplicates<T(==)>(s: seq<T>) {
    forall i, j :: 0 <= i < j < |s| ==> s[i] != s[j]
  }

  /** `s.filter(keep)`. */
  function Filter<T(==)>(s: seq<T>, keep: T -> bool): (r: seq<T>)
    ensures |r| <= |s|
    ensures forall i :: 0 <= i < |r| ==> r[i] in s && keep(r[i])
    ensures forall i :: 0 <= i < |s| && keep(s[i]) ==> s[i] in r
  {
    if s == [] then []
    else
      var rest := Filter(s[1..], keep);
      assert forall i :: 1 <= i < |s| ==> s[i] == s[1..][i - 1];
      if keep(s[0]) then [s[0]] + rest else rest
  }

  /** A filter keeps the surviving elements in their relative order. */
  lemma {:induction false} FilterIsSubseq<T>(s: seq<T>, keep: T -> bool)
    ensures IsSubseq(Filter(s, keep), s)
  {
    if s != [] {
      var rest := Filter(s[1..], keep);
      FilterIsSubseq(s[1..], keep);
      if keep(s[0]) {
        assert ([s[0]] + rest)[1..] == rest;
      } else {
        SubseqExtend(rest, s[1..], s[0]);
        assert [s[0]] + s[1..] == s;
      }
    }
  }

  /** A filter that rejects nothing returns its input. */
  lemma {:induction false} FilterKeepsAll<T>(s: seq<T>, keep: T -> bool)
    requires forall i :: 0 <= i < |s| ==> keep(s[i])
    ensures Filter(s, keep) == s
  {
    if s != [] {
      FilterKeepsAll(s[1..], keep);
      assert [s[0]] + s[1..] == s;
    }
  }

  /** A filter that rejects exactly position `i` removes exactly that element. */
  lemma {:induction false} FilterRejectsOne<T>(s: seq<T>, keep: T -> bool, i: nat)
    requires i < |s| && !keep(s[i])
    requires forall j :: 0 <= j < |s| && j != i ==> keep(s[j])
    ensures Filter(s, keep) == RemoveAt(s, i)
  {
    if i == 0 {
      FilterKeepsAll(s[1..], keep);
    } else {
      FilterRejectsOne(s[1..], keep, i - 1);
      assert [s[0]] + RemoveAt(s[1..], i - 1) == RemoveAt(s, i);
    }
  }

  /** Filtering distributes over concatenation. */
  lemma {:induction false} FilterAppend<T>(a: seq<T>, b: seq<T>, keep: T -> bool)
    ensures Filter(a + b, keep) == Filter(a, keep) + Filter(b, keep)
  {
    if a == [] {
      assert a + b == b;
    } else {
      FilterAppend(a[1..], b, keep);
      FilterCons(a[0], a[1..] + b, keep);
      FilterCons(a[0], a[1..], keep);
      HeadTail(a, b);
      if keep(a[0]) {
        Assoc([a[0]], Filter(a[1..], keep), Filter(b, keep));
      }
    }
  }

  lemma Assoc<T>(a: seq<T>, b: seq<T>, c: seq<T>)
    ensures a + (b + c) == (a + b) + c
  {
  }

  lemma HeadTail<T>(a: seq<T>, b: seq<T>)
    requires a != []
    ensures [a[0]] + a[1..] == a
    ensures [a[0]] + (a[1..] + b) == a + b
  {
  }

  lemma FilterCons<T>(x: T, s: seq<T>, keep: T -> bool)
    ensures Filter([x] + s, keep) == if keep(x) then [x] + Filter(s, keep) else Filter(s, keep)
  {
    assert ([x] + s)[1..] == s;
  }

  /** Filtering twice with the same predicate is filtering once. */
  lemma {:induction false} FilterIdempotent<T>(s: seq<T>, keep: T -> bool)
    ensures Filter(Filter(s, keep), keep) == Filter(s, keep)
  {
    var r := Filter(s, keep);
    FilterKeepsAll(r, keep);
  }

  /** `s.splice(i, 1)` applied to a copy of `s`. */
  function RemoveAt<T>(s: seq<T>, i: nat): (r: seq<T>)
    requires i < |s|
    ensures |r| == |s| - 1
    ensures forall j :: 0 <= j < i ==> r[j] == s[j]
    ensures forall j :: i <= j < |r| ==> r[j] == s[j + 1]
  {
    s[..i] + s[i + 1..]
  }

  lemma RemoveAtIsSubseq<T>(s: seq<T>, i: nat)
    requires i < |s|
    ensures IsSubseq(RemoveAt(s, i), s)
  {
    SubseqByIndexFilter(s, i);
  }

  lemma {:induction false} SubseqByIndexFilter<T>(s: seq<T>, i: nat)
    requires i < |s|
    ensures IsSubseq(s[..i] + s[i + 1..], s)
  {
    if i == 0 {
      assert s[..0] + s[1..] == s[1..];
      SubseqDropHead(s);
    } else {
      SubseqByIndexFilter(s[1..], i - 1);
      var r := s[..i] + s[i + 1..];
      assert r[0] == s[0];
      assert r[1..] == s[1..][..i - 1] + s[1..][i..];
    }
  }

  lemma {:induction false} SubseqRefl<T>(s: seq<T>)
    ensures IsSubseq(s, s)
  {
    if s != [] {
      SubseqRefl(s[1..]);
    }
  }

  lemma SubseqDropHead<T>(s: seq<T>)
    requires s != []
    ensures IsSubseq(s[1..], s)
  {
    SubseqRefl(s[1..]);
    SubseqExtend(s[1..], s[1..], s[0]);
    assert [s[0]] + s[1..] == s;
  }

  /** Putting one more element in front of the longer sequence keeps the relation. */
  lemma {:induction false} SubseqExtend<T>(a: seq<T>, b: seq<T>, x: T)
    requires IsSubseq(a, b)
    ensures IsSubseq(a, [x] + b)
    decreases |b|, 1
  {
    if a != [] && a[0] == x {
      assert b != [];
      if a[0] == b[0] {
        SubseqExtend(a[1..], b[1..], b[0]);
        assert [b[0]] + b[1..] == b;
      } else {
        SubseqTail(a, b);
      }
      assert ([x] + b)[1..] == b;
    } else {
      assert ([x] + b)[1..] == b;
    }
  }

  /** Dropping the head of the shorter sequence keeps the relation. */
  lemma {:induction false} SubseqTail<T>(a: seq<T>, b: seq<T>)
    requires a != [] && IsSubseq(a, b)
    ensures IsSubseq(a[1..], b)
    decreases |b|, 0
  {
    assert b != [];
    if a[0] == b[0] {
      SubseqExtend(a[1..], b[1..], b[0]);
      assert [b[0]] + b[1..] == b;
    } else {
      SubseqTail(a, b[1..]);
      SubseqExtend(a[1..], b[1..], b[0]);
      assert [b[0]] + b[1..] == b;
    }
  }

  /** Every prefix of a subsequence is a subsequence. */
  lemma {:induction false} SubseqPrefix<T>(a: seq<T>, b: seq<T>, k: nat)
    requires IsSubseq(a, b) && k <= |a|
    ensures IsSubseq(a[..k], b)
    decreases |b|
  {
    if k > 0 {
      if a[0] == b[0] {
        SubseqPrefix(a[1..], b[1..], k - 1);
        assert a[..k][1..] == a[1..][..k - 1];
      } else {
        SubseqPrefix(a, b[1..], k);
      }
    }
  }

  /** Elements of a subsequence are elements of the sequence. */
  lemma {:induction false} SubseqMembers<T>(a: seq<T>, b: seq<T>)
    requires IsSubseq(a, b)
    ensures forall i :: 0 <= i < |a| ==> a[i] in b
    decreases |b|
  {
    if a != [] {
      if a[0] == b[0] {
        SubseqMembers(a[1..], b[1..]);
        assert forall i :: 1 <= i < |a| ==> a[i] == a[1..][i - 1];
      } else {
        SubseqMembers(a, b[1..]);
      }
    }
  }

  /** `Array.from(new Set(s))`: the first occurrence of every element, in order. */
  function Dedup<T(==)>(s: seq<T>): (r: seq<T>)
    ensures NoDuplicates(r)
    ensures forall i :: 0 <= i < |r| ==> r[i] in s
    ensures forall i :: 0 <= i < |s| ==> s[i] in r
    ensures |r| <= |s|
    ensures NoDuplicates(s) ==> r == s
  {
    if s == [] then []
    else
      var init := s[..|s| - 1];
      var last := s[|s| - 1];
      var d := Dedup(init);
      assert s == init + [last];
      assert NoDuplicates(s) ==> NoDuplicates(init) && last !in init;
      if last in d then d else d + [last]
  }
}

=== FILE: settings_doc.dfy ===
/** Reading the parts of the settings document that the CLI commands use.
    The commands disagree on key names: `install` writes the active verbs
    under `spinnerVerbs`, while `remove` and `list` look at `spinner.verbs`.
    Both families of accessors are defined here, and each command uses the
    one its source uses. */
module SettingsDoc {
  import opened Wrappers
  import opened Js
  import opened SettingsStore

  /** `settings[key]`, with `None` for `undefined`. */
  function Lookup(doc: Doc, key: string): (r: Option<Json>)
    ensures r.Some? <==> key in doc
    ensures key in doc ==> r.value == doc[key]
  {
    if key in doc then Some(doc[key]) else None
  }

  /** `settings._verbvault?.installedThemes || []`, as `remove` and `list` read it. */
  function InstalledThemesValue(doc: Doc): Json {
    Or(OptGet(Lookup(doc, "_verbvault"), "installedThemes"), JArr([]))
  }

  /** `settings.spinner?.verbs || []`, as `list` reads it. */
  function SpinnerVerbsValue(doc: Doc): Json {
    Or(OptGet(Lookup(doc, "spinner"), "verbs"), JArr([]))
  }

  /** The slug an installed-theme record carries, when it is a string. */
  function SlugOf(t: Json): Option<string> {
    match Get(t, "slug")
    case Some(JStr(s)) => Some(s)
    case _ => None
  }

  /** `t.slug === slug`, for a record `t` that is not null. */
  predicate HasSlug(t: Json, slug: string) {
    Get(t, "slug") == Some(JStr(slug))
  }

  lemma HasSlugIff(t: Json, slug: string)
    ensures HasSlug(t, slug) <==> SlugOf(t) == Some(slug)
  {
  }

  /** The filter callback `(t) => t.slug !== slug`. */
  function KeepOther(slug: string): Json -> bool {
    t => !HasSlug(t, slug)
  }

  /** No two installed-theme records share a slug. */
  predicate UniqueSlugs(list: seq<Json>) {
    forall i, j :: 0 <= i < j < |list| && SlugOf(list[i]).Some? ==> SlugOf(list[i]) != SlugOf(list[j])
  }

  /** Number of records in `list` carrying `slug`. */
  function CountSlug(list: seq<Json>, slug: string): (n: nat)
    ensures n <= |list|
    ensures n == 0 <==> forall i :: 0 <= i < |list| ==> !HasSlug(list[i], slug)
  {
    if list == [] then 0
    else
      assert forall i :: 1 <= i < |list| ==> list[i] == list[1..][i - 1];
      (if HasSlug(list[0], slug) then 1 else 0) + CountSlug(list[1..], slug)
  }

  lemma {:induction false} CountSlugAppend(a: seq<Json>, b: seq<Json>, slug: string)
    ensures CountSlug(a + b, slug) == CountSlug(a, slug) + CountSlug(b, slug)
  {
    if a != [] {
      CountSlugAppend(a[1..], b, slug);
      assert (a + b)[1..] == a[1..] + b;
    } else {
      assert a + b == b;
    }
  }

  /** With unique slugs, a slug is carried by at most one record. */
  lemma {:induction false} UniqueSlugsCount(list: seq<Json>, slug: string)
    requires UniqueSlugs(list)
    ensures CountSlug(list, slug) <= 1
  {
    if list != [] {
      assert UniqueSlugs(list[1..]) by {
        forall i, j | 0 <= i < j < |list[1..]| && SlugOf(list[1..][i]).Some?
          ensures SlugOf(list[1..][i]) != SlugOf(list[1..][j])
        {
          assert list[1..][i] == list[i + 1] && list[1..][j] == list[j + 1];
        }
      }
      UniqueSlugsCount(list[1..], slug);
      if HasSlug(list[0], slug) {
        forall i | 0 <= i < |list[1..]| ensures !HasSlug(list[1..][i], slug) {
          assert list[1..][i] == list[i + 1];
          HasSlugIff(list[0], slug);
          HasSlugIff(list[i + 1], slug);
        }
      }
    }
  }

  /** The "Sample verbs" block `install` and `list` print: the first five
      entries (`slice(0, 5)`), and how many more there are when there are
      more than five. */
  datatype Sample<T> = Sample(shown: seq<T>, more: Option<nat>)

  function SampleOf<T>(items: seq<T>): (r: Sample<T>)
    ensures |r.shown| == if |items| < 5 then |items| else 5
    ensures r.shown == items[..|r.shown|]
    ensures r.more.Some? <==> |items| > 5
    ensures r.more.Some? ==> |r.shown| + r.more.value == |items|
  {
    Sample(Take(items, 5), if |items| > 5 then Some(|items| - 5) else None)
  }
}

=== FILE: settings_store.dfy ===
/** The CLI's settings store: locating the settings file, reading it (a
    missing file is the empty document), writing it (creating the parent
    directory first), and the best-effort backup. The disk is an abstract
    file system; JSON text is abstracted to the document it parses to. */
module SettingsStore {
  import opened Wrappers
  import opened Js
  import Text

  /** The settings document: a JSON object. */
  type Doc = map<string, Json>

  /** What the process sees of its environment: `CLAUDE_SETTINGS_PATH`
      (None when unset) and the home directory. */
  datatype Env = Env(settingsPathVar: Option<string>, home: string)

  /** A file's text: either JSON text of an object, represented by the
      object it parses to, or text `JSON.parse` rejects, with the parser's
      diagnostic. */
  datatype Content = Parsed(doc: Doc) | Unparseable(diagnostic: string)

  /** An error the operating system raises, with its code (`ENOENT`,
      `EACCES`, ...) and message. */
  datatype IoFault = IoFault(code: string, message: string)

  /** Files, directories, and the faults the operating system will raise
      when a given path is read, written, or created as a directory. */
  datatype FileSystem = FileSystem(
    files: map<string, Content>,
    dirs: set<string>,
    readFaults: map<string, IoFault>,
    writeFaults: map<string, IoFault>,
    mkdirFaults: map<string, IoFault>)

  const ReadErrorPrefix := "Failed to read settings file: "
  const WriteErrorPrefix := "Failed to write settings file: "
  const DefaultRelativePath := ".claude/settings.json"

  /** `existsSync(p)`. */
  predicate Exists(fs: FileSystem, p: string) {
    p in fs.files || p in fs.dirs
  }

  /** Index of the last `/` in `p`. */
  function LastSlash(p: string): (r: Option<nat>)
    ensures r.Some? ==> r.value < |p| && p[r.value] == '/' && forall j :: r.value < j < |p| ==> p[j] != '/'
    ensures r.None? ==> forall j :: 0 <= j < |p| ==> p[j] != '/'
  {
    if p == [] then None
    else if p[|p| - 1] == '/' then Some(|p| - 1)
    else LastSlash(p[..|p| - 1])
  }

  /** `p` without its trailing separators. */
  function TrimTrailingSlashes(p: string): (q: string)
    ensures |q| <= |p| && q == p[..|q|]
    ensures q == [] || q[|q| - 1] != '/'
    ensures forall j :: |q| <= j < |p| ==> p[j] == '/'
  {
    if p != [] && p[|p| - 1] == '/' then TrimTrailingSlashes(p[..|p| - 1]) else p
  }

  /** `path.dirname(p)`: trailing separators are ignored, so the parent of
      `/t/x/` is `/t`; a path of separators only has parent `/`. */
  function DirName(p: string): (d: string)
    ensures |d| <= |p| || d == "."
    ensures |p| >= 2 ==> |d| < |p|
  {
    var q := TrimTrailingSlashes(p);
    if q == [] then (if p == [] then "." else "/")
    else
      match LastSlash(q)
      case None => "."
      case Some(0) => "/"
      case Some(i) => q[..i]
  }

  /** `path.join(a, b)` for a relative `b` that needs no normalisation. */
  function JoinPath(a: string, b: string): string {
    if a == "" then b
    else if a[|a| - 1] == '/' then a + b
    else a + "/" + b
  }

  /** `getClaudeSettingsPath()`: the environment override when it is set and
      non-empty, otherwise `<home>/.claude/settings.json`. */
  function SettingsPath(env: Env): (p: string)
    ensures env.settingsPathVar.Some? && env.settingsPathVar.value != "" ==> p == env.settingsPathVar.value
    ensures env.settingsPathVar.None? || env.settingsPathVar.value == "" ==>
      p == JoinPath(env.home, DefaultRelativePath)
  {
    match env.settingsPathVar
    case Some(v) => if v != "" then v else JoinPath(env.home, DefaultRelativePath)
    case None => JoinPath(env.home, DefaultRelativePath)
  }

  /** With no override and a home directory that does not end in a
      separator, the settings file sits in `<home>/.claude`. */
  lemma DefaultSettingsDirectory(env: Env)
    requires env.settingsPathVar.None? || env.settingsPathVar.value == ""
    requires env.home != "" && env.home[|env.home| - 1] != '/'
    ensures SettingsPath(env) == env.home + "/.claude/settings.json"
    ensures DirName(SettingsPath(env)) == env.home + "/.claude"
  {
    var p := SettingsPath(env);
    var k := |env.home| + 8;
    assert p[k] == '/';
    assert forall j :: k < j < |p| ==> p[j] != '/';
    LastSlashIsUnique(p, k);
    assert p[..k] == env.home + "/.claude";
  }

  lemma LastSlashIsUnique(p: string, k: nat)
    requires k < |p| && p[k] == '/' && forall j :: k < j < |p| ==> p[j] != '/'
    ensures LastSlash(p) == Some(k)
  {
  }

  /** `path` together with every directory above it. */
  function WithParents(d: string): (r: set<string>)
    ensures d in r
    ensures forall x :: x in r ==> |x| <= |d| || |x| <= 1
    decreases |d|
  {
    var p := DirName(d);
    if |p| < |d| then {d} + WithParents(p) else {d}
  }

  datatype ReadOutcome = Read(content: Content) | ReadError(fault: IoFault)

  /** `readFile(p)`. */
  function ReadFile(fs: FileSystem, p: string): ReadOutcome {
    if p in fs.readFaults then ReadError(fs.readFaults[p])
    else if p in fs.files then Read(fs.files[p])
    else if p in fs.dirs then ReadError(IoFault("EISDIR", "EISDIR: illegal operation on a directory, read"))
    else ReadError(IoFault("ENOENT", "ENOENT: no such file or directory, open '" + p + "'"))
  }

  /** Whether `p` ends in a separator, which names a directory. */
  predicate EndsInSlash(p: string) {
    p != [] && p[|p| - 1] == '/'
  }

  /** `writeFile(p, c)`: the raw operating-system error on failure. The
      parent directory must exist; the file itself need not. A path ending
      in a separator can only name a directory, so it is never written. */
  function WriteFile(fs: FileSystem, p: string, c: Content): (r: Result<FileSystem>)
    ensures r.Success? ==> r.value == fs.(files := fs.files[p := c])
    ensures r.Success? <==>
      && p !in fs.writeFaults && !EndsInSlash(p) && p !in fs.dirs
      && DirName(p) !in fs.files && DirName(p) in fs.dirs
  {
    if p in fs.writeFaults then Failure(fs.writeFaults[p].message)
    else if EndsInSlash(p) then
      if TrimTrailingSlashes(p) in fs.files then Failure("ENOTDIR: not a directory, open '" + p + "'")
      else Failure("EISDIR: illegal operation on a directory, open '" + p + "'")
    else if p in fs.dirs then Failure("EISDIR: illegal operation on a directory, open '" + p + "'")
    else if DirName(p) in fs.files then Failure("ENOTDIR: not a directory, open '" + p + "'")
    else if DirName(p) !in fs.dirs then Failure("ENOENT: no such file or directory, open '" + p + "'")
    else Success(fs.(files := fs.files[p := c]))
  }

  /** `mkdir(d, { recursive: true })`: creates `d` and every missing
      directory above it. It fails when `d` is a regular file (EEXIST) or
      when a directory on the way is one (ENOTDIR). */
  function MakeDirs(fs: FileSystem, d: string): (r: Result<FileSystem>)
    ensures r.Success? ==> r.value.dirs == fs.dirs + WithParents(d)
    ensures r.Success? ==> r.value.files == fs.files && r.value.readFaults == fs.readFaults
    ensures r.Success? ==> r.value.writeFaults == fs.writeFaults && r.value.mkdirFaults == fs.mkdirFaults
    ensures r.Success? ==> r.value.dirs * r.value.files.Keys == fs.dirs * fs.files.Keys
    ensures r.Failure? <==> d in fs.mkdirFaults || WithParents(d) * fs.files.Keys != {}
  {
    if d in fs.mkdirFaults then Failure(fs.mkdirFaults[d].message)
    else if d in fs.files then
      assert d in WithParents(d) * fs.files.Keys;
      Failure("EEXIST: file already exists, mkdir '" + d + "'")
    else if WithParents(d) * fs.files.Keys != {} then Failure("ENOTDIR: not a directory, mkdir '" + d + "'")
    else Success(fs.(dirs := fs.dirs + WithParents(d)))
  }

  /** `readClaudeSettings()`. */
  function ReadSettings(env: Env, fs: FileSystem): (r: Result<Doc>)
    ensures !Exists(fs, SettingsPath(env)) ==> r == Success(map[])
    ensures var p := SettingsPath(env);
      p in fs.files && p !in fs.readFaults && fs.files[p].Parsed? ==> r == Success(fs.files[p].doc)
    ensures var p := SettingsPath(env);
      p in fs.files && p !in fs.readFaults && fs.files[p].Unparseable? ==>
        r == Failure(ReadErrorPrefix + fs.files[p].diagnostic)
    ensures var p := SettingsPath(env);
      Exists(fs, p) && p in fs.readFaults ==>
        r == if fs.readFaults[p].code == "ENOENT" then Success(map[])
             else Failure(ReadErrorPrefix + fs.readFaults[p].message)
    ensures var p := SettingsPath(env);
      r.Success? <==>
        || !Exists(fs, p)
        || (p in fs.readFaults && fs.readFaults[p].code == "ENOENT")
        || (p !in fs.readFaults && p in fs.files && fs.files[p].Parsed?)
    ensures r.Failure? ==> |r.error| >= |ReadErrorPrefix| && r.error[..|ReadErrorPrefix|] == ReadErrorPrefix
  {
    var path := SettingsPath(env);
    if !Exists(fs, path) then Success(map[])
    else
      match ReadFile(fs, path)
      case ReadError(f) =>
        if f.code == "ENOENT" then Success(map[]) else Failure(ReadErrorPrefix + f.message)
      case Read(Parsed(d)) => Success(d)
      case Read(Unparseable(diag)) => Failure(ReadErrorPrefix + diag)
  }

  /** `writeClaudeSettings(doc)`: creates the parent directory when it is
      missing (its error is raised unwrapped), then overwrites the file.
      The outcome comes with the disk afterwards: a directory the mkdir
      created stays even when the write then fails. */
  function WriteSettings(env: Env, fs: FileSystem, doc: Doc): (r: (Result<()>, FileSystem))
    ensures r.0.Success? ==> var p := SettingsPath(env);
      && r.1.files == fs.files[p := Parsed(doc)]
      && Exists(r.1, DirName(p))
    ensures r.0.Failure? ==> r.1.files == fs.files
    ensures var d := DirName(SettingsPath(env));
      Exists(fs, d) || MakeDirs(fs, d).Failure? ==> r.1.dirs == fs.dirs
    ensures var d := DirName(SettingsPath(env));
      !Exists(fs, d) && MakeDirs(fs, d).Success? ==> r.1.dirs == fs.dirs + WithParents(d)
    ensures r.1.readFaults == fs.readFaults && r.1.writeFaults == fs.writeFaults
    ensures r.1.mkdirFaults == fs.mkdirFaults
    ensures var d := DirName(SettingsPath(env));
      !Exists(fs, d) && MakeDirs(fs, d).Failure? ==> r == (Failure(MakeDirs(fs, d).error), fs)
    ensures var d := DirName(SettingsPath(env));
      r.0.Failure? && (Exists(fs, d) || MakeDirs(fs, d).Success?) ==>
        |r.0.error| >= |WriteErrorPrefix| && r.0.error[..|WriteErrorPrefix|] == WriteErrorPrefix
  {
    var path := SettingsPath(env);
    var dir := DirName(path);
    var made := if Exists(fs, dir) then Success(fs) else MakeDirs(fs, dir);
    match made
    case Failure(e) => (Failure(e), fs)
    case Success(fs1) =>
      match WriteFile(fs1, path, Parsed(doc))
      case Success(fs2) => (Success(()), fs2)
      case Failure(e) => (Failure(WriteErrorPrefix + e), fs1)
  }

  /** Reading back what was written gives the written document. */
  lemma ReadAfterWrite(env: Env, fs: FileSystem, doc: Doc)
    requires WriteSettings(env, fs, doc).0.Success?
    requires SettingsPath(env) !in fs.readFaults
    ensures ReadSettings(env, WriteSettings(env, fs, doc).1) == Success(doc)
  {
  }

  /** A write into a missing directory that can be created creates it. */
  lemma WriteCreatesDirectory(env: Env, fs: FileSystem, doc: Doc)
    requires !Exists(fs, DirName(SettingsPath(env)))
    requires MakeDirs(fs, DirName(SettingsPath(env))).Success?
    requires var p := SettingsPath(env); p !in fs.writeFaults && p !in fs.dirs && !EndsInSlash(p)
    requires |SettingsPath(env)| >= 2
    ensures WriteSettings(env, fs, doc).0.Success?
    ensures DirName(SettingsPath(env)) in WriteSettings(env, fs, doc).1.dirs
  {
    var p := SettingsPath(env);
    var dir := DirName(p);
    var fs1 := MakeDirs(fs, dir).value;
    assert dir in WithParents(dir);
    assert p !in WithParents(dir);
    assert WriteFile(fs1, p, Parsed(doc)).Success?;
  }

  /** The parent of a directory-style path is found past its separator. */
  lemma DirNameIgnoresTrailingSlash()
    ensures DirName("/t/x/") == "/t"
    ensures DirName("/") == "/"
    ensures DirName("a/") == "."
  {
    assert TrimTrailingSlashes("/t/x/") == "/t/x";
    assert LastSlash("/t/x") == Some(2);
    assert TrimTrailingSlashes("/") == [];
    assert TrimTrailingSlashes("a/") == "a";
    assert LastSlash("a") == None;
  }

  /** A settings path ending in a separator is never written: the write
      fails whether or not its directory had to be created. */
  lemma TrailingSlashWriteFails(env: Env, fs: FileSystem, doc: Doc)
    requires EndsInSlash(SettingsPath(env))
    ensures WriteSettings(env, fs, doc).0.Failure?
    ensures WriteSettings(env, fs, doc).1.files == fs.files
  {
  }

  /** A regular file on the way to the settings directory makes the
      recursive mkdir fail: the write is never attempted and the disk is
      unchanged. */
  lemma FileOnTheWayBlocksWrite(env: Env, fs: FileSystem, doc: Doc, a: string)
    requires !Exists(fs, DirName(SettingsPath(env)))
    requires a in WithParents(DirName(SettingsPath(env))) && a in fs.files
    ensures WriteSettings(env, fs, doc).0.Failure?
    ensures WriteSettings(env, fs, doc).1 == fs
  {
    assert a in WithParents(DirName(SettingsPath(env))) * fs.files.Keys;
  }

  /** When mkdir succeeds but the write fails, the new directory stays. */
  lemma FailedWriteKeepsDirectory(env: Env, fs: FileSystem, doc: Doc)
    requires !Exists(fs, DirName(SettingsPath(env)))
    requires MakeDirs(fs, DirName(SettingsPath(env))).Success?
    requires SettingsPath(env) in fs.writeFaults
    ensures WriteSettings(env, fs, doc).0.Failure?
    ensures DirName(SettingsPath(env)) in WriteSettings(env, fs, doc).1.dirs
    ensures WriteSettings(env, fs, doc).1 != fs
  {
  }

  /** `backupSettings(now)`: copies the settings file to
      `<path>.backup.<now>`; any failure yields `None` and changes nothing. */
  function BackupSettings(env: Env, fs: FileSystem, now: nat): (r: (Option<string>, FileSystem))
    ensures var p := SettingsPath(env); !Exists(fs, p) ==> r == (None, fs)
    ensures r.0.None? ==> r.1 == fs
    ensures var p := SettingsPath(env);
      var b := p + ".backup." + Text.NatToString(now);
      r.0.Some? <==>
        && p in fs.files && p !in fs.readFaults
        && b !in fs.writeFaults && b !in fs.dirs && DirName(b) !in fs.files && DirName(b) in fs.dirs
    ensures r.0.Some? ==> var p := SettingsPath(env);
      && r.0.value == p + ".backup." + Text.NatToString(now)
      && p in fs.files
      && r.1.files == fs.files[r.0.value := fs.files[p]]
  {
    var path := SettingsPath(env);
    if !Exists(fs, path) then (None, fs)
    else
      var backupPath := path + ".backup." + Text.NatToString(now);
      match ReadFile(fs, path)
      case ReadError(_) => (None, fs)
      case Read(c) =>
        match WriteFile(fs, backupPath, c)
        case Failure(_) => (None, fs)
        case Success(fs2) => (Some(backupPath), fs2)
  }

  /** The backup never alters the settings file itself. */
  lemma BackupKeepsOriginal(env: Env, fs: FileSystem, now: nat)
    requires SettingsPath(env) in fs.files
    ensures var r := BackupSettings(env, fs, now);
      SettingsPath(env) in r.1.files && r.1.files[SettingsPath(env)] == fs.files[SettingsPath(env)]
  {
    var p := SettingsPath(env);
    var s := Text.NatToString(now);
    assert |p + ".backup." + s| > |p|;
  }
}

=== FILE: spinner_preview.dfy ===
/** The spinner preview as a state machine: the verb index advanced by one
    timer, the trailing dots by another, and what is rendered. Timers are
    modelled as the sequence of their ticks. */
module SpinnerPreview {
  import opened Wrappers

  /** `currentIndex` and `dots`; both start at 0 and "". */
  datatype Preview = Preview(index: int, dots: string)

  const Initial := Preview(0, "")

  /** The verb timer exists only for a non-empty list. */
  predicate VerbTimerRuns(verbs: seq<string>) {
    |verbs| > 0
  }

  /** One tick of the verb timer: `(prev + 1) % verbs.length`. */
  function NextIndex(index: int, len: nat): (r: int)
    requires len > 0
    ensures 0 <= r < len
    ensures 0 <= index < len - 1 ==> r == index + 1
    ensures index == len - 1 ==> r == 0
  {
    (index + 1) % len
  }

  /** One tick of the dots timer: `prev.length >= 3 ? '' : prev + '.'`. */
  function NextDots(dots: string): (r: string)
    ensures |dots| < 3 ==> r == dots + "." && |r| == |dots| + 1
    ensures |dots| >= 3 ==> r == ""
  {
    if |dots| >= 3 then "" else dots + "."
  }

  /** The index after `k` verb ticks from 0. */
  function IndexAfter(k: nat, len: nat): (r: int)
    requires len > 0
  {
    if k == 0 then 0 else NextIndex(IndexAfter(k - 1, len), len)
  }

  /** From 0 the first `len` ticks count up through the list. */
  lemma {:induction false} IndexAfterCountsUp(k: nat, len: nat)
    requires 0 < len && k < len
    ensures IndexAfter(k, len) == k
  {
    if k > 0 {
      IndexAfterCountsUp(k - 1, len);
    }
  }

  /** The index from 0 has period `len`: after `k` ticks it is `k mod len`. */
  lemma {:induction false} IndexAfterPeriodic(k: nat, len: nat)
    requires len > 0
    ensures IndexAfter(k + len, len) == IndexAfter(k, len)
    ensures 0 <= IndexAfter(k, len) < len
  {
    if k == 0 {
      IndexAfterCountsUp(len - 1, len);
    } else {
      IndexAfterPeriodic(k - 1, len);
      assert k + len - 1 == (k - 1) + len;
    }
  }

  /** The dots after `k` ticks from "". */
  function DotsAfter(k: nat): string {
    if k == 0 then "" else NextDots(DotsAfter(k - 1))
  }

  /** The dots run "" . .. ... and back, period four, never longer than three. */
  lemma {:induction false} DotsCycle(k: nat)
    ensures DotsAfter(k) == "..."[..k % 4]
    ensures |DotsAfter(k)| <= 3
  {
    if k > 0 {
      DotsCycle(k - 1);
      var j := (k - 1) % 4;
      if j < 3 {
        assert k % 4 == j + 1;
        assert "..."[..j] + "." == "..."[..j + 1];
      } else {
        assert k % 4 == 0;
      }
    }
  }

  /** What the component renders. `None` for the verb is `verbs[i]` read
      out of range (`undefined`, which renders nothing). */
  datatype View = NoVerbsYet | Showing(verb: Option<string>, dots: Option<string>)

  function Render(verbs: seq<string>, p: Preview, showDots: bool): (r: View)
    ensures r == NoVerbsYet <==> verbs == []
    ensures r.Showing? && 0 <= p.index < |verbs| ==> r.verb == Some(verbs[p.index])
    ensures r.Showing? ==> (r.dots.Some? <==> showDots)
  {
    if verbs == [] then NoVerbsYet
    else Showing(if 0 <= p.index < |verbs| then Some(verbs[p.index]) else None,
                 if showDots then Some(p.dots) else None)
  }

  /** The indices shown from `start` on, one per tick, `n` of them. */
  function Walk(start: int, n: nat, len: nat): (r: seq<int>)
    requires len > 0
    ensures |r| == n
    decreases n
  {
    if n == 0 then [] else [start] + Walk(NextIndex(start, len), n - 1, len)
  }

  /** Without wrapping, the indices shown count up from `start`. */
  lemma {:induction false} WalkCountsUp(start: int, n: nat, len: nat)
    requires 0 <= start && start + n <= len
    ensures forall j :: 0 <= j < n ==> Walk(start, n, len)[j] == start + j
    decreases n
  {
    if n > 1 {
      WalkCountsUp(start + 1, n - 1, len);
      assert NextIndex(start, len) == start + 1;
    }
  }

  /** Past the end of the list the walk wraps to 0. */
  lemma {:induction false} WalkWraps(start: int, n: nat, len: nat)
    requires 0 <= start < len && n >= len - start
    ensures Walk(start, n, len) == Walk(start, len - start, len) + Walk(0, n - (len - start), len)
    decreases len - start
  {
    if start == len - 1 {
      assert Walk(start, 1, len) == [start];
    } else {
      WalkWraps(start + 1, n - 1, len);
      var a := Walk(start + 1, len - start - 1, len);
      var b := Walk(0, n - (len - start), len);
      assert Walk(start, n, len) == [start] + (a + b);
      assert Walk(start, len - start, len) == [start] + a;
      assert [start] + (a + b) == ([start] + a) + b;
    }
  }

  /** The verbs at the given indices. */
  function Pick(verbs: seq<string>, w: seq<int>): (r: seq<string>)
    requires forall j :: 0 <= j < |w| ==> 0 <= w[j] < |verbs|
    ensures |r| == |w|
  {
    seq(|w|, j requires 0 <= j < |w| => verbs[w[j]])
  }

  /** Any `len` consecutive ticks starting in range show the list rotated to
      the start: every verb exactly once, in list order. */
  lemma ShownWindowIsRotation(verbs: seq<string>, start: nat)
    requires start < |verbs|
    ensures var w := Walk(start, |verbs|, |verbs|);
      && (forall j :: 0 <= j < |w| ==> 0 <= w[j] < |verbs|)
      && Pick(verbs, w) == verbs[start..] + verbs[..start]
  {
    var len := |verbs|;
    var w := Walk(start, len, len);
    WalkWraps(start, len, len);
    WalkCountsUp(start, len - start, len);
    WalkCountsUp(0, start, len);
    assert forall j :: 0 <= j < len ==> w[j] == if j < len - start then start + j else j - (len - start);
  }
}

=== FILE: suggest_route.dfy ===
/** The web app's verb-suggestion route (`POST /api/ai/suggest`): sign-in,
    then the shared suggest schema, then either the canned suggestions (no
    model API key) or the model's answer cut to `count`. */
module SuggestRoute {
  import opened Wrappers
  import opened Js
  import opened Text
  import Seqs
  import Schemas
  import Http
  import Dispatch

  const PirateSuggestions: seq<string> := [
      "Walking the plank", "Burying treasure", "Raising the Jolly Roger", "Battening the hatches",
      "Shivering timbers", "Hoisting the mainsail", "Scanning the horizon", "Loading the cannons",
      "Weighing anchor", "Scrubbing the deck", "Rationing the rum", "Reading the stars",
      "Dodging the navy", "Recruiting crew", "Repairing the hull", "Trading cargo",
      "Exploring islands", "Decoding maps", "Evading storms", "Claiming bounty", "Striking colors",
      "Running the blockade", "Signaling ships", "Dividing the loot", "Celebrating victory"
    ]

  const SpaceSuggestions: seq<string> := [
      "Charting nebulae", "Establishing orbit", "Deploying satellites", "Running diagnostics",
      "Analyzing samples", "Initiating countdown", "Charging shields", "Aligning solar panels",
      "Processing data", "Contacting base", "Mapping coordinates", "Calibrating sensors",
      "Monitoring systems", "Adjusting trajectory", "Collecting specimens", "Synthesizing fuel",
      "Repairing modules", "Testing thrusters", "Broadcasting signals", "Documenting findings",
      "Preparing EVA", "Checking life support", "Computing vectors", "Stabilizing rotation",
      "Awaiting clearance"
    ]

  const ZenSuggestions: seq<string> := [
      "Finding stillness", "Cultivating awareness", "Practicing presence", "Observing thoughts",
      "Deepening breath", "Opening the heart", "Releasing tension", "Expanding consciousness",
      "Honoring the moment", "Softening resistance", "Inviting peace", "Acknowledging feelings",
      "Resting in being", "Trusting the process", "Welcoming change", "Letting go",
      "Returning home", "Dissolving boundaries", "Sensing energy", "Connecting deeply",
      "Simplifying", "Appreciating silence", "Settling the mind", "Attuning to nature",
      "Embracing impermanence"
    ]

  const CoffeeSuggestions: seq<string> := [
      "Selecting beans", "Heating water", "Timing the pour", "Adjusting grind",
      "Practicing latte art", "Cleaning equipment", "Tasting notes", "Storing properly",
      "Comparing roasts", "Perfecting ratios", "Preheating cups", "Blooming grounds",
      "Swirling the cup", "Appreciating aroma", "Savoring slowly", "Measuring precisely",
      "Experimenting boldly", "Sharing the ritual", "Refining technique", "Discovering origins",
      "Mastering temperature", "Balancing flavors", "Embracing the process", "Honoring tradition",
      "Creating moments"
    ]

  /** The default, for verbs that mention none of the themes. */
  const CreativeSuggestions: seq<string> := [
      "Brainstorming", "Prototyping", "Iterating", "Collaborating", "Researching", "Experimenting",
      "Analyzing", "Optimizing", "Documenting", "Reviewing", "Testing", "Deploying", "Monitoring",
      "Scaling", "Refactoring", "Debugging", "Integrating", "Automating", "Validating", "Shipping",
      "Celebrating", "Planning", "Strategizing", "Executing", "Delivering", "Measuring",
      "Learning", "Adapting", "Growing", "Succeeding", "Persevering", "Focusing", "Prioritizing",
      "Simplifying", "Streamlining", "Polishing", "Launching", "Releasing", "Announcing",
      "Sharing", "Connecting", "Networking", "Presenting", "Demonstrating", "Showcasing",
      "Inspiring", "Motivating", "Empowering", "Enabling", "Transforming"
    ]

  const PirateWords: seq<string> := ["pirate", "sail", "treasure"]
  const SpaceWords: seq<string> := ["space", "orbit", "launch"]
  const ZenWords: seq<string> := ["zen", "meditat", "breath"]
  const CoffeeWords: seq<string> := ["coffee", "brew", "espresso"]

  /** The `if` chain of `mockSuggestVerbs`, in order. */
  const Rules: seq<Dispatch.Rule<seq<string>>> := [
    Dispatch.Rule(PirateWords, PirateSuggestions),
    Dispatch.Rule(SpaceWords, SpaceSuggestions),
    Dispatch.Rule(ZenWords, ZenSuggestions),
    Dispatch.Rule(CoffeeWords, CoffeeSuggestions)
  ]

  function LowerAll(vs: seq<string>): (r: seq<string>)
    ensures |r| == |vs| && forall i :: 0 <= i < |vs| ==> r[i] == Lower(vs[i])
  {
    seq(|vs|, i requires 0 <= i < |vs| => Lower(vs[i]))
  }

  /** The text the theme is read from: the verbs lower-cased and joined
      with spaces. */
  function Haystack(existing: seq<string>): string {
    Join(LowerAll(existing), ' ')
  }

  /** The canned list the suggestions are drawn from. */
  function Candidates(existing: seq<string>): seq<string> {
    Dispatch.FirstMatch(Haystack(existing), Rules, CreativeSuggestions)
  }

  /** The theme is chosen by the first keyword group that occurs in the
      joined verbs: pirate, then space, then zen, then coffee, else the
      default list. */
  lemma CandidatesByKeyword(existing: seq<string>)
    ensures var h := Haystack(existing);
      && (Dispatch.Mentions(h, PirateWords) ==> Candidates(existing) == PirateSuggestions)
      && (!Dispatch.Mentions(h, PirateWords) && Dispatch.Mentions(h, SpaceWords) ==>
            Candidates(existing) == SpaceSuggestions)
      && (!Dispatch.Mentions(h, PirateWords) && !Dispatch.Mentions(h, SpaceWords) && Dispatch.Mentions(h, ZenWords) ==>
            Candidates(existing) == ZenSuggestions)
      && ((!Dispatch.Mentions(h, PirateWords) && !Dispatch.Mentions(h, SpaceWords) && !Dispatch.Mentions(h, ZenWords)
           && Dispatch.Mentions(h, CoffeeWords)) ==> Candidates(existing) == CoffeeSuggestions)
      && ((!Dispatch.Mentions(h, PirateWords) && !Dispatch.Mentions(h, SpaceWords) && !Dispatch.Mentions(h, ZenWords)
           && !Dispatch.Mentions(h, CoffeeWords)) ==> Candidates(existing) == CreativeSuggestions)
  {
    var h := Haystack(existing);
    assert Dispatch.NoneBefore(h, Rules, 0);
    assert !Dispatch.Mentions(h, PirateWords) ==> Dispatch.NoneBefore(h, Rules, 1);
    assert !Dispatch.Mentions(h, PirateWords) && !Dispatch.Mentions(h, SpaceWords) ==> Dispatch.NoneBefore(h, Rules, 2);
    assert !Dispatch.Mentions(h, PirateWords) && !Dispatch.Mentions(h, SpaceWords) && !Dispatch.Mentions(h, ZenWords) ==>
      Dispatch.NoneBefore(h, Rules, 3);
    assert (!Dispatch.Mentions(h, PirateWords) && !Dispatch.Mentions(h, SpaceWords) && !Dispatch.Mentions(h, ZenWords)
            && !Dispatch.Mentions(h, CoffeeWords)) ==> Dispatch.NoneBefore(h, Rules, 4);
  }

  /** A suggestion survives when no existing verb equals it ignoring case
      (`existingLower.has(s.toLowerCase())`). */
  predicate IsNew(existing: seq<string>, s: string) {
    Lower(s) !in LowerAll(existing)
  }

  /** The candidates that are new, cut to `count`:
      `candidates.filter(s => !existingLower.has(s.toLowerCase())).slice(0, count)`. */
  function FreshOf(candidates: seq<string>, existing: seq<string>, count: int): (r: seq<string>)
    ensures 0 <= count ==> |r| <= count
    ensures forall i, j :: 0 <= i < |r| && 0 <= j < |existing| ==> Lower(r[i]) != Lower(existing[j])
    ensures Seqs.IsSubseq(r, candidates)
  {
    var unseen := Seqs.Filter(candidates, s => IsNew(existing, s));
    Seqs.FilterIsSubseq(candidates, s => IsNew(existing, s));
    var r := Take(unseen, count);
    Seqs.SubseqPrefix(unseen, candidates, |r|);
    assert forall i :: 0 <= i < |r| ==> r[i] in unseen;
    r
  }

  /** Only existing verbs are skipped: a new candidate is missing from the
      answer only when the answer already has `count` entries. */
  lemma FreshOfFillsUp(candidates: seq<string>, existing: seq<string>, count: nat)
    ensures var r := FreshOf(candidates, existing, count);
      forall i :: (0 <= i < |candidates| && IsNew(existing, candidates[i]) && candidates[i] !in r) ==> |r| == count
  {
    var unseen := Seqs.Filter(candidates, s => IsNew(existing, s));
    var r := FreshOf(candidates, existing, count);
    assert r == Take(unseen, count);
    if |r| < count {
      assert r == unseen;
    }
  }

  /** `mockSuggestVerbs(existingVerbs, count).suggestions`. */
  function MockSuggest(existing: seq<string>, count: int): seq<string> {
    FreshOf(Candidates(existing), existing, count)
  }

  function SuggestionsBody(suggestions: Json): Json {
    JObj(map["suggestions" := suggestions])
  }

  /** The live answer: `{ suggestions: content.suggestions.slice(0, count) }`. */
  function LiveAnswer(content: Json, count: int): (r: Option<Json>)
    ensures r.Some? ==> r.value.JObj? && "suggestions" in r.value.fields
    ensures r.Some? && r.value.fields["suggestions"].JArr? && 0 <= count ==>
      |r.value.fields["suggestions"].items| <= count
  {
    match Http.SliceOf(content, "suggestions", count)
    case None => None
    case Some(v) => Some(SuggestionsBody(v))
  }

  /** The route handler. `hasApiKey` is whether `OPENAI_API_KEY` is set;
      `upstream` is the model's reply, used only when it is. */
  function Post(req: Http.RouteRequest, hasApiKey: bool, upstream: Http.Upstream): (r: Http.Response)
    ensures !req.signedIn ==> r == Http.Error(401, "Unauthorized")
    ensures req.signedIn && req.body.None? ==> r == Http.InternalError
    ensures req.signedIn && req.body.Some? && Schemas.ParseSuggest(req.body.value).Invalid? ==>
      r == Http.InvalidRequest(Schemas.IssuesOf(Schemas.ParseSuggest(req.body.value)))
    ensures req.signedIn && req.body.Some? && Schemas.ParseSuggest(req.body.value).Valid? && !hasApiKey ==>
      var q := Schemas.ParseSuggest(req.body.value).value;
      r == Http.Ok(SuggestionsBody(JArr(Strings(MockSuggest(q.existingVerbs, q.count)))))
  {
    if !req.signedIn then Http.Error(401, "Unauthorized")
    else if req.body.None? then Http.InternalError
    else
      match Schemas.ParseSuggest(req.body.value)
      case Invalid(first, rest) => Http.InvalidRequest([first] + rest)
      case Valid(q) =>
        if !hasApiKey then Http.Ok(SuggestionsBody(JArr(Strings(MockSuggest(q.existingVerbs, q.count)))))
        else Http.Relay(upstream, "Failed to suggest verbs", c => LiveAnswer(c, q.count))
  }

  /** The gating order as seen from outside: 401 exactly for a missing user;
      400 exactly for a signed-in JSON body the schema rejects, that is, one
      without 1 to 100 string verbs, with a count that is not an integer in
      1..20, or with a style that is not a string of at most 100 UTF-16 code units. */
  lemma PostGating(req: Http.RouteRequest, hasApiKey: bool, upstream: Http.Upstream)
    ensures Post(req, hasApiKey, upstream).status == 401 <==> !req.signedIn
    ensures Post(req, hasApiKey, upstream).status == 400 <==>
      && req.signedIn && req.body.Some?
      && !(var body := req.body.value;
           && body.JObj?
           && "existingVerbs" in body.fields && body.fields["existingVerbs"].JArr?
           && 1 <= |body.fields["existingVerbs"].items| <= 100
           && (forall i :: 0 <= i < |body.fields["existingVerbs"].items| ==> body.fields["existingVerbs"].items[i].JStr?)
           && ("count" in body.fields ==>
                 body.fields["count"].JNum? && IsInteger(body.fields["count"].n)
                 && 1.0 <= body.fields["count"].n <= 20.0)
           && ("style" in body.fields ==> body.fields["style"].JStr? && Utf16Length(body.fields["style"].s) <= 100))
  {
    if req.signedIn && req.body.Some? {
      Schemas.SuggestSchemaIff(req.body.value);
    }
  }

  /** Without an API key an accepted request gets at most `count` (1..20,
      5 when absent) canned suggestions, none of them one of the posted
      verbs in another case, in the canned list's order. */
  lemma MockAnswerShape(req: Http.RouteRequest, upstream: Http.Upstream)
    requires req.signedIn && req.body.Some? && Schemas.ParseSuggest(req.body.value).Valid?
    ensures var body := req.body.value;
      var q := Schemas.ParseSuggest(body).value;
      var s := MockSuggest(q.existingVerbs, q.count);
      && Post(req, false, upstream) == Http.Ok(SuggestionsBody(JArr(Strings(s))))
      && body.fields["existingVerbs"] == JArr(Strings(q.existingVerbs))
      && |s| <= q.count <= 20
      && ("count" !in body.fields ==> |s| <= 5)
      && (forall i, j :: 0 <= i < |s| && 0 <= j < |q.existingVerbs| ==> Lower(s[i]) != Lower(q.existingVerbs[j]))
      && Seqs.IsSubseq(s, Candidates(q.existingVerbs))
  {
    Schemas.SuggestSchemaIff(req.body.value);
  }

  /** With an API key an accepted request gets the model's `suggestions`
      cut to `count`, a non-OK reply gets "Failed to suggest verbs", and a
      reply without a sliceable `suggestions` the internal error. */
  lemma LiveAnswerShape(req: Http.RouteRequest, upstream: Http.Upstream)
    requires req.signedIn && req.body.Some? && Schemas.ParseSuggest(req.body.value).Valid?
    ensures var q := Schemas.ParseSuggest(req.body.value).value;
      var r := Post(req, true, upstream);
      && (upstream.NotOk? ==> r == Http.Error(500, "Failed to suggest verbs"))
      && (r.status == 200 ==>
            && upstream.Content? && upstream.content.Some?
            && r.body.JsonBody? && r.body.value.JObj? && "suggestions" in r.body.value.fields
            && (r.body.value.fields["suggestions"].JArr? ==> |r.body.value.fields["suggestions"].items| <= q.count))
      && (r.status != 200 ==> r.status == 500)
  {
    Schemas.SuggestSchemaIff(req.body.value);
  }
}

=== FILE: text.dfy ===
/** String operations of JavaScript's `String.prototype` that the modelled
    code relies on: ASCII case mapping, the ECMAScript whitespace class used by
    `trim()` and `\s`, substring search, first-occurrence replacement,
    one-character `split`/`join`, and decimal rendering of naturals. */
module Text {
  import opened Wrappers

  predicate IsAsciiUpper(c: char) { 'A' <= c <= 'Z' }
  predicate IsAsciiLower(c: char) { 'a' <= c <= 'z' }
  predicate IsDigit(c: char) { '0' <= c <= '9' }

  function ToLower(c: char): (r: char)
    ensures !IsAsciiUpper(r)
    ensures !IsAsciiUpper(c) ==> r == c
  {
    if IsAsciiUpper(c) then (c as int + 32) as char else c
  }

  function ToUpper(c: char): (r: char)
    ensures !IsAsciiLower(r)
    ensures !IsAsciiLower(c) ==> r == c
  {
    if IsAsciiLower(c) then (c as int - 32) as char else c
  }

  /** `toLowerCase()`, restricted to the ASCII letters. */
  function Lower(s: string): (r: string)
    ensures |r| == |s|
    ensures forall i :: 0 <= i < |s| ==> r[i] == ToLower(s[i])
  {
    seq(|s|, i requires 0 <= i < |s| => ToLower(s[i]))
  }

  /** `toUpperCase()`, restricted to the ASCII letters. */
  function Upper(s: string): (r: string)
    ensures |r| == |s|
    ensures forall i :: 0 <= i < |s| ==> r[i] == ToUpper(s[i])
  {
    seq(|s|, i requires 0 <= i < |s| => ToUpper(s[i]))
  }

  /** The ECMAScript WhiteSpace and LineTerminator code points: the set that
      `String.prototype.trim` strips and that the regular-expression class
      `\s` matches. */
  predicate IsSpace(c: char) {
    || c == '\t' || c == '\n' || c == '\U{000B}' || c == '\U{000C}' || c == '\r'
    || c == ' ' || c == '\U{00A0}' || c == '\U{1680}'
    || ('\U{2000}' <= c <= '\U{200A}')
    || c == '\U{2028}' || c == '\U{2029}' || c == '\U{202F}' || c == '\U{205F}'
    || c == '\U{3000}' || c == '\U{FEFF}'
  }

  predicate AllSpace(s: string) {
    forall k :: 0 <= k < |s| ==> IsSpace(s[k])
  }

  /** `sub` occurs in `s` starting at index `i`. */
  predicate OccursAt(s: string, sub: string, i: int) {
    0 <= i && i + |sub| <= |s| && s[i..i + |sub|] == sub
  }

  /** Number of whitespace characters at the start of `s`. */
  function LeadingSpaces(s: string): (n: nat)
    ensures n <= |s|
    ensures AllSpace(s[..n])
    ensures n < |s| ==> !IsSpace(s[n])
  {
    if s == [] || !IsSpace(s[0]) then 0 else 1 + LeadingSpaces(s[1..])
  }

  /** Index at which the trailing run of whitespace of `s` begins. */
  function TrailingStart(s: string): (n: nat)
    ensures n <= |s|
    ensures AllSpace(s[n..])
    ensures n > 0 ==> !IsSpace(s[n - 1])
  {
    if s == [] || !IsSpace(s[|s| - 1]) then |s|
    else
      var n := TrailingStart(s[..|s| - 1]);
      assert s[n..] == s[..|s| - 1][n..] + [s[|s| - 1]];
      n
  }

  /** `String.prototype.trim`. */
  function Trim(s: string): (r: string)
    ensures |r| <= |s|
    ensures AllSpace(s) <==> r == []
    ensures r != [] ==> !IsSpace(r[0]) && !IsSpace(r[|r| - 1])
    ensures exists i :: OccursAt(s, r, i) && AllSpace(s[..i]) && AllSpace(s[i + |r|..])
  {
    var i := LeadingSpaces(s);
    var j := TrailingStart(s);
    if j <= i then
      SpaceRunsCover(s, i, j);
      assert OccursAt(s, [], 0) && s[0..] == s;
      []
    else
      var r := s[i..j];
      assert OccursAt(s, r, i) && s[i + |r|..] == s[j..];
      assert !AllSpace(s) by { assert !IsSpace(s[i]); }
      r
  }

  /** A leading and a trailing run of white space that meet cover `s`. */
  lemma SpaceRunsCover(s: string, i: nat, j: nat)
    requires j <= i <= |s| && AllSpace(s[..i]) && AllSpace(s[j..])
    ensures AllSpace(s)
  {
    forall k | 0 <= k < |s| ensures IsSpace(s[k]) {
      if k >= i { assert s[j..][k - j] == s[k]; } else { assert s[..i][k] == s[k]; }
    }
  }

  /** Trimming twice is trimming once. */
  lemma TrimIdempotent(s: string)
    ensures Trim(Trim(s)) == Trim(s)
  {
    var r := Trim(s);
    if r != [] {
      assert LeadingSpaces(r) == 0;
      assert TrailingStart(r) == |r|;
      assert r[0..|r|] == r;
    }
  }

  /** First index at or after `from` where `sub` occurs in `s`. */
  function IndexFrom(s: string, sub: string, from: nat): (r: Option<nat>)
    decreases |s| - from
    ensures r.Some? ==> from <= r.value && OccursAt(s, sub, r.value)
    ensures r.Some? ==> forall j :: from <= j < r.value ==> !OccursAt(s, sub, j)
    ensures r.None? ==> forall j :: from <= j ==> !OccursAt(s, sub, j)
  {
    if from + |sub| > |s| then None
    else if s[from..from + |sub|] == sub then Some(from)
    else IndexFrom(s, sub, from + 1)
  }

  /** `s.indexOf(sub)`, with `None` for -1. */
  function IndexOf(s: string, sub: string): (r: Option<nat>)
    ensures r.Some? ==> OccursAt(s, sub, r.value) && forall j :: 0 <= j < r.value ==> !OccursAt(s, sub, j)
    ensures r.None? <==> forall j :: !OccursAt(s, sub, j)
  {
    IndexFrom(s, sub, 0)
  }

  /** `s.includes(sub)`. */
  predicate Contains(s: string, sub: string) {
    IndexOf(s, sub).Some?
  }

  lemma ContainsIff(s: string, sub: string)
    ensures Contains(s, sub) <==> exists i :: OccursAt(s, sub, i)
  {
  }

  lemma ContainsEmpty(s: string)
    ensures Contains(s, "")
  {
    assert OccursAt(s, "", 0);
  }

  /** Every character of a pattern that occurs in `s` is a character of
      `s`; so a pattern with a character `s` lacks does not occur in it. */
  lemma ContainedChar(s: string, sub: string, k: nat)
    requires k < |sub|
    ensures Contains(s, sub) ==> sub[k] in s
  {
    if Contains(s, sub) {
      var i := IndexOf(s, sub).value;
      assert s[i..i + |sub|][k] == s[i + k];
    }
  }

  /** `s.replace(pat, rep)` with a string pattern: only the first occurrence
      is replaced, and `s` is returned unchanged when `pat` does not occur. */
  function ReplaceFirst(s: string, pat: string, rep: string): (r: string)
    ensures !Contains(s, pat) ==> r == s
    ensures Contains(s, pat) ==>
      var i := IndexOf(s, pat).value;
      r == s[..i] + rep + s[i + |pat|..]
  {
    match IndexOf(s, pat)
    case None => s
    case Some(i) => s[..i] + rep + s[i + |pat|..]
  }

  /** `s.split(sep)` for a one-character separator. */
  function Split(s: string, sep: char): (parts: seq<string>)
    ensures |parts| >= 1
    ensures forall k :: 0 <= k < |parts| ==> sep !in parts[k]
  {
    if s == [] then [""]
    else
      var rest := Split(s[1..], sep);
      if s[0] == sep then [""] + rest
      else [[s[0]] + rest[0]] + rest[1..]
  }

  /** `parts.join(sep)`. */
  function Join(parts: seq<string>, sep: char): string {
    if parts == [] then ""
    else if |parts| == 1 then parts[0]
    else parts[0] + [sep] + Join(parts[1..], sep)
  }

  /** Splitting and joining on the same separator gives back the string. */
  lemma {:induction false} JoinSplit(s: string, sep: char)
    ensures Join(Split(s, sep), sep) == s
  {
    if s != [] {
      var rest := Split(s[1..], sep);
      JoinSplit(s[1..], sep);
      if s[0] != sep {
        if |rest| > 1 {
          assert ([[s[0]] + rest[0]] + rest[1..])[1..] == rest[1..];
        }
      }
    }
  }

  function DigitChar(d: nat): (c: char)
    requires d < 10
    ensures IsDigit(c) && c as int - '0' as int == d
  {
    ('0' as int + d) as char
  }

  /** Value of a string of decimal digits. */
  function DigitsValue(s: string): nat
    requires forall i :: 0 <= i < |s| ==> IsDigit(s[i])
  {
    if s == [] then 0
    else
      assert IsDigit(s[|s| - 1]);
      DigitsValue(s[..|s| - 1]) * 10 + (s[|s| - 1] as int - '0' as int)
  }

  /** Decimal rendering of a natural number, as `String(n)` or a template
      literal `${n}` produces it. */
  function NatToString(n: nat): (r: string)
    ensures |r| >= 1
    ensures forall i :: 0 <= i < |r| ==> IsDigit(r[i])
    ensures DigitsValue(r) == n
  {
    if n < 10 then [DigitChar(n)]
    else
      var r := NatToString(n / 10) + [DigitChar(n % 10)];
      assert r[..|r| - 1] == NatToString(n / 10);
      r
  }

  lemma NatToStringInjective(m: nat, n: nat)
    ensures NatToString(m) == NatToString(n) ==> m == n
  {
  }
}

=== FILE: verb_editor.dfy ===
/** The verb editor's list operations: adding the typed verb and removing
    one entry. The list itself belongs to the parent (`onChange`); the editor
    owns only the text typed into its input. */
module VerbEditor {
  import opened Text
  import Seqs
  import Schemas
  import Js

  const DefaultMaxVerbs := 200

  /** The list shown and the text in the input box. */
  datatype Editor = Editor(verbs: seq<string>, input: string)

  /** The `addVerb` guard: the trimmed input is non-empty, not already in the
      list (exact, case-sensitive), and the list is below `maxVerbs`. */
  predicate CanAdd(verbs: seq<string>, input: string, maxVerbs: int) {
    Trim(input) != [] && Trim(input) !in verbs && |verbs| < maxVerbs
  }

  /** `addVerb()`: append the trimmed input and clear the box, or change
      nothing. */
  function AddVerb(e: Editor, maxVerbs: int): (r: Editor)
    ensures |r.verbs| >= |e.verbs| && r.verbs[..|e.verbs|] == e.verbs
    ensures CanAdd(e.verbs, e.input, maxVerbs) ==>
      |r.verbs| == |e.verbs| + 1 && r.verbs[|e.verbs|] == Trim(e.input) && r.input == ""
    ensures !CanAdd(e.verbs, e.input, maxVerbs) ==> r == e
  {
    if CanAdd(e.verbs, e.input, maxVerbs) then Editor(e.verbs + [Trim(e.input)], "") else e
  }

  /** A verb as the editor stores it: non-empty, with no white space at
      either end. */
  predicate Tidy(v: string) {
    v != [] && !IsSpace(v[0]) && !IsSpace(v[|v| - 1])
  }

  /** What the editor keeps true of its list. */
  predicate Healthy(verbs: seq<string>, maxVerbs: int) {
    && Seqs.NoDuplicates(verbs)
    && |verbs| <= maxVerbs
    && forall i :: 0 <= i < |verbs| ==> Tidy(verbs[i])
  }

  /** Adding appends exactly the trimmed input at the end, and keeps the
      list duplicate-free, within `maxVerbs`, and tidy. */
  lemma AddVerbPreservesHealth(e: Editor, maxVerbs: int)
    requires Healthy(e.verbs, maxVerbs)
    ensures Healthy(AddVerb(e, maxVerbs).verbs, maxVerbs)
    ensures CanAdd(e.verbs, e.input, maxVerbs) ==>
      AddVerb(e, maxVerbs).verbs == e.verbs + [Trim(e.input)] && |AddVerb(e, maxVerbs).verbs| == |e.verbs| + 1
  {
    if CanAdd(e.verbs, e.input, maxVerbs) {
      var r := AddVerb(e, maxVerbs).verbs;
      var v := Trim(e.input);
      assert r[|e.verbs|] == v;
      forall i, j | 0 <= i < j < |r| ensures r[i] != r[j] {
        if j == |e.verbs| {
          assert r[i] == e.verbs[i];
        }
      }
    }
  }

  /** `verbs.filter((_, i) => i !== index)`, for the elements of `s` that
      sit at positions `offset`, `offset + 1`, ... of the whole list. */
  function KeepOtherIndices(s: seq<string>, index: int, offset: nat): (r: seq<string>)
    ensures |r| <= |s|
  {
    if s == [] then []
    else (if offset == index then [] else [s[0]]) + KeepOtherIndices(s[1..], index, offset + 1)
  }

  /** `removeVerb(index)`. */
  function RemoveVerb(verbs: seq<string>, index: int): (r: seq<string>)
    ensures |r| <= |verbs|
  {
    KeepOtherIndices(verbs, index, 0)
  }

  lemma {:induction false} KeepOtherIndicesSplice(s: seq<string>, index: int, offset: nat)
    ensures offset <= index < offset + |s| ==>
      KeepOtherIndices(s, index, offset) == s[..index - offset] + s[index - offset + 1..]
    ensures !(offset <= index < offset + |s|) ==> KeepOtherIndices(s, index, offset) == s
  {
    if s != [] {
      KeepOtherIndicesSplice(s[1..], index, offset + 1);
      if offset == index {
        assert s[..0] + s[1..] == s[1..];
      } else if offset < index < offset + |s| {
        assert [s[0]] + (s[1..][..index - offset - 1] + s[1..][index - offset..]) == s[..index - offset] + s[index - offset + 1..];
      } else {
        assert [s[0]] + s[1..] == s;
      }
    }
  }

  /** Removing drops exactly the entry at `index` and keeps the order of the
      rest; an index outside the list changes nothing. */
  lemma RemoveVerbSplices(verbs: seq<string>, index: int)
    ensures 0 <= index < |verbs| ==> RemoveVerb(verbs, index) == Seqs.RemoveAt(verbs, index)
    ensures 0 <= index < |verbs| ==> |RemoveVerb(verbs, index)| == |verbs| - 1
    ensures !(0 <= index < |verbs|) ==> RemoveVerb(verbs, index) == verbs
  {
    KeepOtherIndicesSplice(verbs, index, 0);
  }

  /** Removing keeps the list healthy. */
  lemma RemoveVerbPreservesHealth(verbs: seq<string>, index: int, maxVerbs: int)
    requires Healthy(verbs, maxVerbs)
    ensures Healthy(RemoveVerb(verbs, index), maxVerbs)
  {
    RemoveVerbSplices(verbs, index);
    if 0 <= index < |verbs| {
      var r := RemoveVerb(verbs, index);
      assert forall i :: 0 <= i < |r| ==> r[i] == verbs[if i < index then i else i + 1];
    }
  }

  /** A tidy verb is never white space only. */
  lemma TidyNotBlank(v: string)
    requires Tidy(v)
    ensures !AllSpace(v)
  {
    assert !IsSpace(v[0]);
  }

  /** A healthy, non-empty list of the default size whose verbs fit the
      input box's `maxLength` of 50 UTF-16 code units passes the shared
      verb-list schema. */
  lemma HealthyListIsValid(verbs: seq<string>)
    requires Healthy(verbs, DefaultMaxVerbs) && verbs != []
    requires forall i :: 0 <= i < |verbs| ==> Js.Utf16Length(verbs[i]) <= 50
    ensures Schemas.ValidVerbList(verbs)
  {
    forall i | 0 <= i < |verbs| ensures Schemas.ValidVerb(verbs[i]) {
      TidyNotBlank(verbs[i]);
    }
  }
}

=== FILE: web_utils.dfy ===
/** The pure string and time helpers of the web app: slug generation,
    truncation with an ellipsis, initials, and the relative-time buckets. */
module WebUtils {
  import opened Js
  import opened Text
  import Schemas

  // ---------------------------------------------------------------------
  // generateSlug

  /** The characters `/[^a-z0-9\s-]/g` leaves in place. */
  predicate SlugSourceChar(c: char) {
    IsAsciiLower(c) || IsDigit(c) || IsSpace(c) || c == '-'
  }

  predicate IsHyphen(c: char) { c == '-' }

  /** `s.replace(/[^a-z0-9\s-]/g, '')`. */
  function KeepSlugSource(s: string): (r: string)
    ensures |r| <= |s|
    ensures forall i :: 0 <= i < |r| ==> SlugSourceChar(r[i]) && r[i] in s
    ensures (forall i :: 0 <= i < |s| ==> SlugSourceChar(s[i])) ==> r == s
  {
    if s == [] then []
    else
      var rest := KeepSlugSource(s[1..]);
      assert forall i :: 1 <= i < |s| ==> s[i] == s[1..][i - 1];
      if SlugSourceChar(s[0]) then [s[0]] + rest else rest
  }

  /** What is left of `s` after its leading run of characters in `p`. */
  function DropRun(s: string, p: char -> bool): (r: string)
    ensures |r| <= |s| && r == s[|s| - |r|..]
    ensures r == [] || !p(r[0])
    ensures s != [] && p(s[0]) ==> |r| < |s|
    ensures s == [] || !p(s[0]) ==> r == s
  {
    if s == [] || !p(s[0]) then s else DropRun(s[1..], p)
  }

  /** `s.replace(/X+/g, rep)` for a character class `p`: every maximal run of
      characters in `p` becomes one `rep`. */
  function CollapseRuns(s: string, p: char -> bool, rep: char): (r: string)
    ensures |r| <= |s|
    ensures forall i :: 0 <= i < |r| ==> r[i] == rep || (!p(r[i]) && r[i] in s)
    decreases |s|
  {
    if s == [] then []
    else if p(s[0]) then
      var rest := DropRun(s, p);
      var r := [rep] + CollapseRuns(rest, p, rep);
      assert forall i :: 1 <= i < |r| ==> r[i] in rest ==> r[i] in s by {
        assert forall c :: c in rest ==> c in s;
      }
      r
    else
      assert forall i :: 1 <= i < |s| ==> s[i] == s[1..][i - 1];
      [s[0]] + CollapseRuns(s[1..], p, rep)
  }

  /** `name.toLowerCase().replace(/[^a-z0-9\s-]/g, '').replace(/\s+/g, '-')
      .replace(/-+/g, '-').trim()`. */
  function GenerateSlug(name: string): string {
    Trim(CollapseRuns(CollapseRuns(KeepSlugSource(Lower(name)), IsSpace, '-'), IsHyphen, '-'))
  }

  /** No two hyphens side by side. */
  predicate NoDoubleHyphen(s: string) {
    forall i :: 0 <= i < |s| - 1 ==> !(s[i] == '-' && s[i + 1] == '-')
  }

  lemma CollapseRunsStart(s: string, p: char -> bool, rep: char)
    requires s != [] && !p(s[0])
    ensures CollapseRuns(s, p, rep) != [] && CollapseRuns(s, p, rep)[0] == s[0]
  {
  }

  /** After collapsing, no two characters of the class are adjacent. */
  lemma {:induction false} CollapseRunsNoAdjacent(s: string, p: char -> bool, rep: char)
    requires p(rep)
    ensures var r := CollapseRuns(s, p, rep);
      forall i :: 0 <= i < |r| - 1 ==> !(p(r[i]) && p(r[i + 1]))
    decreases |s|
  {
    if s != [] {
      var tail := if p(s[0]) then DropRun(s, p) else s[1..];
      var t := CollapseRuns(tail, p, rep);
      var r := CollapseRuns(s, p, rep);
      assert r == [r[0]] + t;
      CollapseRunsNoAdjacent(tail, p, rep);
      if p(s[0]) && tail != [] {
        CollapseRunsStart(tail, p, rep);
      }
    }
  }

  /** Collapsing changes nothing when no character is in the class. */
  lemma {:induction false} CollapseRunsNone(s: string, p: char -> bool, rep: char)
    requires forall i :: 0 <= i < |s| ==> !p(s[i])
    ensures CollapseRuns(s, p, rep) == s
  {
    if s != [] {
      CollapseRunsNone(s[1..], p, rep);
    }
  }

  /** Collapsing changes nothing when every class character is already a lone
      `rep`. */
  lemma {:induction false} CollapseRunsSingles(s: string, p: char -> bool, rep: char)
    requires forall i :: 0 <= i < |s| && p(s[i]) ==> s[i] == rep
    requires forall i :: 0 <= i < |s| - 1 ==> !(p(s[i]) && p(s[i + 1]))
    ensures CollapseRuns(s, p, rep) == s
  {
    if s != [] {
      CollapseRunsSingles(s[1..], p, rep);
      if p(s[0]) {
        assert DropRun(s, p) == s[1..];
      }
    }
  }

  /** Trimming changes nothing when there is no white space. */
  lemma TrimNoSpace(s: string)
    requires forall i :: 0 <= i < |s| ==> !IsSpace(s[i])
    ensures Trim(s) == s
  {
    if s != [] {
      assert LeadingSpaces(s) == 0;
      assert TrailingStart(s) == |s|;
    }
  }

  /** The slug before the final `trim()`, which has nothing to remove. */
  lemma GenerateSlugParts(name: string)
    ensures var a := CollapseRuns(KeepSlugSource(Lower(name)), IsSpace, '-');
      var b := CollapseRuns(a, IsHyphen, '-');
      && (forall i :: 0 <= i < |a| ==> Schemas.SlugChar(a[i]))
      && (forall i :: 0 <= i < |b| ==> Schemas.SlugChar(b[i]))
      && NoDoubleHyphen(b)
      && GenerateSlug(name) == b
  {
    var k := KeepSlugSource(Lower(name));
    var a := CollapseRuns(k, IsSpace, '-');
    assert forall i :: 0 <= i < |a| ==> Schemas.SlugChar(a[i]) by {
      forall i | 0 <= i < |a| ensures Schemas.SlugChar(a[i]) {
        if a[i] != '-' {
          assert a[i] in k && !IsSpace(a[i]);
        }
      }
    }
    var b := CollapseRuns(a, IsHyphen, '-');
    assert forall i :: 0 <= i < |b| ==> Schemas.SlugChar(b[i]) by {
      forall i | 0 <= i < |b| ensures Schemas.SlugChar(b[i]) {
        if b[i] != '-' {
          assert b[i] in a;
        }
      }
    }
    CollapseRunsNoAdjacent(a, IsHyphen, '-');
    TrimNoSpace(b);
  }

  /** A generated slug holds only a-z, 0-9 and '-', never two hyphens in a
      row, and is no longer than the name. */
  lemma GenerateSlugShape(name: string)
    ensures var g := GenerateSlug(name);
      && (forall i :: 0 <= i < |g| ==> Schemas.SlugChar(g[i]))
      && NoDoubleHyphen(g)
      && |g| <= |name|
  {
    GenerateSlugParts(name);
  }

  /** The slugs `generateSlug` leaves unchanged are exactly the strings over
      [a-z0-9-] with no two hyphens in a row. */
  lemma GenerateSlugFixpoints(s: string)
    ensures GenerateSlug(s) == s <==> (forall i :: 0 <= i < |s| ==> Schemas.SlugChar(s[i])) && NoDoubleHyphen(s)
  {
    GenerateSlugShape(s);
    if (forall i :: 0 <= i < |s| ==> Schemas.SlugChar(s[i])) && NoDoubleHyphen(s) {
      assert Lower(s) == s;
      assert KeepSlugSource(s) == s;
      CollapseRunsNone(s, IsSpace, '-');
      CollapseRunsSingles(s, IsHyphen, '-');
      TrimNoSpace(s);
    }
  }

  /** `generateSlug` is idempotent. */
  lemma GenerateSlugIdempotent(name: string)
    ensures GenerateSlug(GenerateSlug(name)) == GenerateSlug(name)
  {
    GenerateSlugShape(name);
    GenerateSlugFixpoints(GenerateSlug(name));
  }

  /** A non-empty slug generated from a name of at most 100 characters passes
      the shared slug schema. */
  lemma GeneratedSlugIsValid(name: string)
    requires |name| <= 100 && GenerateSlug(name) != []
    ensures Schemas.ValidSlug(GenerateSlug(name))
  {
    GenerateSlugShape(name);
  }

  // ---------------------------------------------------------------------
  // truncate

  /** `truncate(str, length)`: `str` when it fits, otherwise
      `str.slice(0, length) + '...'`; a negative length counts from the end,
      as `slice` does. */
  function Truncate(s: string, length: int): (r: string)
    ensures |s| <= length ==> r == s
    ensures 0 <= length < |s| ==> |r| == length + 3 && r[..length] == s[..length] && r[length..] == "..."
    ensures length < 0 ==> |r| == SliceEnd(|s|, length) + 3
  {
    if |s| <= length then s else Take(s, length) + "..."
  }

  /** A truncated string keeps a prefix of the input, then the ellipsis; a
      second truncation to the same non-negative length changes nothing. */
  lemma TruncatePrefix(s: string, length: int)
    ensures var r := Truncate(s, length);
      r == s || (|r| >= 3 && r[|r| - 3..] == "..." && r[..|r| - 3] == s[..|r| - 3])
    ensures length >= 0 ==> Truncate(Truncate(s, length), length) == Truncate(s, length)
  {
  }

  // ---------------------------------------------------------------------
  // getInitials

  /** `parts.map((n) => n[0]).join('')`: an empty part contributes nothing
      (`undefined` joins as the empty string). */
  function Firsts(parts: seq<string>): (r: string)
    ensures |r| <= |parts|
  {
    if parts == [] then []
    else (if parts[0] == [] then [] else [parts[0][0]]) + Firsts(parts[1..])
  }

  /** `name.split(' ').map((n) => n[0]).join('').toUpperCase().slice(0, 2)`. */
  function Initials(name: string): (r: string)
    ensures |r| <= 2
    ensures forall i :: 0 <= i < |r| ==> !IsAsciiLower(r[i])
  {
    Take(Upper(Firsts(Split(name, ' '))), 2)
  }

  /** Splitting a string without the separator gives the string itself. */
  lemma {:induction false} SplitNoSeparator(s: string, sep: char)
    requires sep !in s
    ensures Split(s, sep) == [s]
  {
    if s != [] {
      SplitNoSeparator(s[1..], sep);
      assert [s[0]] + s[1..] == s;
    }
  }

  /** Splitting at a first separator. */
  lemma {:induction false} SplitAtFirst(a: string, b: string, sep: char)
    requires sep !in a
    ensures Split(a + [sep] + b, sep) == [a] + Split(b, sep)
  {
    if a == [] {
      assert a + [sep] + b == [sep] + b;
      assert ([sep] + b)[1..] == b;
    } else {
      SplitAtFirst(a[1..], b, sep);
      assert (a + [sep] + b)[1..] == a[1..] + [sep] + b;
      assert [a[0]] + a[1..] == a;
    }
  }

  /** A one-word name gives its upper-cased first letter; two words give the
      upper-cased first letters of both. */
  lemma InitialsOfWords(first: string, last: string)
    requires first != [] && ' ' !in first
    requires last != [] && ' ' !in last
    ensures Initials(first) == [ToUpper(first[0])]
    ensures Initials(first + " " + last) == [ToUpper(first[0]), ToUpper(last[0])]
  {
    SplitNoSeparator(first, ' ');
    SplitNoSeparator(last, ' ');
    SplitAtFirst(first, last, ' ');
    assert Firsts([first]) == [first[0]];
    assert Firsts([first, last]) == [first[0], last[0]] by {
      assert [first, last][1..] == [last];
    }
  }

  // ---------------------------------------------------------------------
  // formatRelativeTime

  /** The label `formatRelativeTime` picks; `OnDate` defers to `formatDate`,
      which is locale formatting. */
  datatype RelativeTime =
    | JustNow
    | MinutesAgo(minutes: nat)
    | HoursAgo(hours: nat)
    | DaysAgo(days: nat)
    | WeeksAgo(weeks: nat)
    | OnDate

  const Minute := 60
  const Hour := 60 * Minute
  const Day := 24 * Hour

  /** `formatRelativeTime(date)` at time `nowMs`, both in milliseconds since
      the epoch. Every `Math.floor` of a division by a positive constant is
      Dafny's integer division, which rounds down. */
  function FormatRelativeTime(nowMs: int, dateMs: int): (r: RelativeTime)
    ensures r.MinutesAgo? ==> 1 <= r.minutes < 60
    ensures r.HoursAgo? ==> 1 <= r.hours < 24
    ensures r.DaysAgo? ==> 1 <= r.days < 7
    ensures r.WeeksAgo? ==> 1 <= r.weeks <= 4
  {
    var seconds := (nowMs - dateMs) / 1000;
    if seconds < 60 then JustNow
    else
      var minutes := seconds / 60;
      if minutes < 60 then MinutesAgo(minutes)
      else
        var hours := minutes / 60;
        if hours < 24 then HoursAgo(hours)
        else
          var days := hours / 24;
          if days < 7 then DaysAgo(days)
          else if days < 30 then WeeksAgo(days / 7)
          else OnDate
  }

  /** The text shown, e.g. "5m ago"; `formatted` is what `formatDate` makes
      of the date. */
  function Label(t: RelativeTime, formatted: string): string {
    match t
    case JustNow => "just now"
    case MinutesAgo(n) => NatToString(n) + "m ago"
    case HoursAgo(n) => NatToString(n) + "h ago"
    case DaysAgo(n) => NatToString(n) + "d ago"
    case WeeksAgo(n) => NatToString(n) + "w ago"
    case OnDate => formatted
  }

  /** Each bucket is exactly a range of whole elapsed seconds `d`: "just
      now" below a minute (including a date in the future), then whole
      minutes, hours, days, weeks below 30 days, and the date beyond. */
  lemma RelativeTimeRanges(nowMs: int, dateMs: int)
    ensures var d := (nowMs - dateMs) / 1000;
      var r := FormatRelativeTime(nowMs, dateMs);
      && (r == JustNow <==> d < Minute)
      && (r.MinutesAgo? <==> Minute <= d < Hour)
      && (r.MinutesAgo? ==> r.minutes * Minute <= d < (r.minutes + 1) * Minute)
      && (r.HoursAgo? <==> Hour <= d < Day)
      && (r.HoursAgo? ==> r.hours * Hour <= d < (r.hours + 1) * Hour)
      && (r.DaysAgo? <==> Day <= d < 7 * Day)
      && (r.DaysAgo? ==> r.days * Day <= d < (r.days + 1) * Day)
      && (r.WeeksAgo? <==> 7 * Day <= d < 30 * Day)
      && (r.WeeksAgo? ==> r.weeks == (d / Day) / 7)
      && (r == OnDate <==> d >= 30 * Day)
  {
    var d := (nowMs - dateMs) / 1000;
    if d >= 60 {
      assert (d / 60) / 60 == d / 3600;
      assert (d / 3600) / 24 == d / 86400;
    }
  }
}

=== FILE: wrappers.dfy ===
/** Optional values and success-or-failure results, used wherever the source
    returns `null`/`undefined` or throws. */
module Wrappers {

  /** `None` plays the part of JavaScript's `undefined` (or a `null` return). */
  datatype Option<+T> = None | Some(value: T) {
    function GetOr(default: T): T {
      match this
      case Some(v) => v
      case None => default
    }
  }

  /** `Failure` carries the message of the error the source throws. */
  datatype Result<+T> = Success(value: T) | Failure(error: string) {
    predicate IsFailure() {
      Failure?
    }

    function PropagateFailure<U>(): Result<U>
      requires Failure?
    {
      Failure(error)
    }

    function Extract(): T
      requires Success?
    {
      value
    }
  }
}
